=== FILE: README.md ===
# sos-js core, modelled in Dafny

sos-js is the 52North browser client for an OGC Sensor Observation Service
(SOS). It reads a service's capabilities, queries observations, and shows
them as tables, time-series plots and Stüve (thermodynamic) diagrams. This
project models the deterministic core behind those views and proves
properties of it.

- **`SOS.Utils` string helpers** (`sos_names.dfy`, with string primitives in `text.dfy`):
  - `urnToName`, `toDisplayName`, `toTitleCase`, `toDisplayUom`.
  - `lookupUrnFromName`.
  - The order-preserving de-duplication `getUniqueList`.
- **Time helpers** (`sos_time.dfy`):
  - The field splitting of `isoToDateObject`.
  - The `{start, end}` interval object, mutated in place by `adjustTimeInterval` and `parseRelativeTime`.
  - `isoToTimeInterval`.
- **Statistics** (`sos_stats.dfy`):
  - `sum` and `extractColumn`.
  - `computeStats`, with its exact median and quartile index choices.
  - `computeHistogram`, with its forward cursor shared across bins.
- **The `SOS` client object and `SOS.Offering`** (`sos_client.dfy`):
  - The capability queries and the response-format choice.
  - The GML time-period builders.
  - The observation comparator.
  - The observed-property filter, which saves the original list once and restores it later.
- **`SOS.Ui`** (`sos_ui.dfy`):
  - Building a data table from observation records.
  - Axis-label defaults and the pending-options list.
  - Greying out curves.
  - Statistics over the inclusive range between two clicked rows.
- **`SOS.Plot.Stuve`** (`sos_stuve.dfy`):
  - The wind-barb decomposition into flags, barbs and half-barbs, emitted as a list of marks.
  - The pressure-axis ticks and the altitude lookup.
  - The series metadata, including the launch time truncated to the hour.

Objects that the JavaScript updates in place are classes here:

- `SosTime.TimeInterval`;
- `SosClient.Offering` and `SosClient.Sos`;
- `SosUi.Plot`;
- `SosStuve.StuvePlot`;
- the colour array of `greyOutCurvesOnPlot`.

Their methods carry `modifies` clauses. Pure helpers are functions, and the
loops of the source are methods proved against those functions.

How the environment is modelled:

- The clock, the browser's local-time conversion and `toISOString` are parameters: `localTime`, `iso`, `formatter` and `timestamp`.
- A `Date`'s time value is a `SosTime.TimeValue`: milliseconds, or the `NaN` of an Invalid Date. `localTime` must give `NaN` whenever a field it receives makes `parseInt` give `NaN` (`SosTime.DateConstructor`). Examples are a missing month or day, or a field that does not start with a number. A time `localTime` gives lies within the `Date` range of ±8.64e15 ms; `setTime` and `new Date(x)` give `NaN` beyond it (`SosTime.TimeClip`).
- `parseRelativeTime` takes a `UtcClock`. This holds "now" in milliseconds and the UTC day of the week, the day of the month and the day of the year.
- Samples are reals.
- The histogram bin width is computed exactly. `RoundedLog10` is the nearest integer to log10 of the span, so the width is `10^round(log10(upper - lower)) / 10`.

Two behaviours of the code are worth knowing before reading the lemmas:

- **Unrecognised relative-time token.** A token with none of the prefixes `this`, `last` or `rolling`, after the synonym step, leaves the interval at `[T, T]`. This is because `parseRelativeTime` (web/js/SOS/SOS.js:788-831) shifts the interval only under those prefix tests (`SosTime.UnrecognizedTokenIsNow`). The Stüve plot's default token is `today` (web/js/SOS/SOS.Plot.Stuve.js:68).
- **Quartile ordering.** The index choices of `computeStats` (web/js/SOS/SOS.js:869-874) do not give `min <= q1 <= median <= q3 <= max`:
  - For an odd count the median is `sorted[floor(N/2)+1]`.
  - For an even count it averages the slice `sorted[floor(N/2) .. floor(N/2)+2]`, which for N = 2 holds one element, so the median is `sorted[1] / 2`.
  - `SosStats.MedianAboveUpperQuartile` shows that for `[1, 2, 3]` the median 3 exceeds q3 = 2.
  - `SosStats.MedianAboveMaximum` shows that for `[-4, -2]` the median -1 exceeds the maximum -2.
  - No ordering lemma is stated.

`getAltitudeForPressureLevelValue` returns `""` when nothing matches. Here
that is `None`.

## Model

| member | source | states |
|---|---|---|
| SosNames.UrnToNameShape | web/js/SOS/SOS.js:640-654 | the short name is a suffix of the URN; it equals the URN exactly when the first line has no colon; otherwise the removed prefix ends in a colon |
| SosNames.OneLineNameHasNoColon | web/js/SOS/SOS.js:640-654 | on a single-line URN everything up to the last colon is removed, so no colon is left |
| SosNames.UrnToNameOfQualified | web/js/SOS/SOS.js:640-654 | `prefix:name` with a colon-free name maps to `name` |
| SosNames.ShortNames | web/js/SOS/SOS.js:642-650 | on an array, urnToName is applied element-wise, keeping length and order |
| SosNames.ToDisplayName | web/js/SOS/SOS.js:624-638 | same length; every underscore becomes a space and every other character is kept |
| SosNames.ToDisplayNameOfPair | web/js/SOS/SOS.js:624-638 | `p_q` becomes `p q` when neither part holds an underscore |
| SosNames.CapitalizeAll | web/js/SOS/SOS.js:607-611 | every space-separated piece is capitalised, count and order kept |
| SosNames.CapitalizeBeforeSpace | web/js/SOS/SOS.js:609-611 | capitalising a piece touches only its first character, never what follows a space |
| SosNames.CapitalizeJoin | web/js/SOS/SOS.js:603-622 | joining the capitalised pieces equals capitalising the first piece of the join of the rest |
| SosNames.CapitalizeAfterSpacesStep | web/js/SOS/SOS.js:603-622 | the character-wise view of toTitleCase, one leading character at a time |
| SosNames.CapitalizeAfterSpacesChars | web/js/SOS/SOS.js:603-622 | length is kept; a character is upper-cased exactly when it follows a space and is not a line terminator |
| SosNames.ToTitleCaseChars | web/js/SOS/SOS.js:603-622 | toTitleCase keeps the length; it changes exactly the characters that start a space-separated word, upper-casing them |
| SosNames.ToDisplayUom | web/js/SOS/SOS.js:574-697 | `Cel` and `m/s` map through the table; every other unit passes through unchanged |
| SosNames.ElementWise | web/js/SOS/SOS.js:687-693 | the array branch maps each element, keeping length and order |
| SosNames.FirstNamed | web/js/SOS/SOS.js:659-665 | the index found is the first position, at or after the start, whose short name matches; none means no position matches |
| SosNames.LookupUrnFromName | web/js/SOS/SOS.js:656-675 | the search loop with `break` returns the first master URN whose short name is the name, else the name |
| SosNames.UrnResolvesToItself | web/js/SOS/SOS.js:656-675 | a name that already holds a colon resolves to itself |
| SosNames.LookupUrnsFromNames | web/js/SOS/SOS.js:666-672 | on an array every name is resolved, keeping length and order |
| SosNames.UniqueMembership | web/js/SOS/SOS.js:591-601 | a value is in the de-duplicated list exactly when it is in the input |
| SosNames.UniqueProperties | web/js/SOS/SOS.js:591-601 | no duplicates; same members as the input; order of first occurrence kept |
| SosNames.GetUniqueList | web/js/SOS/SOS.js:591-601 | the push loop yields a duplicate-free list with exactly the input's members, in first-occurrence order |
| Text.JoinSplit | web/js/SOS/SOS.js:704-711 | joining the parts of a split with its separator gives back the string |
| Text.SplitPartsOmitSeparator | web/js/SOS/SOS.js:704-711 | no part of a split holds the separator |
| Text.SplitAtFirst | web/js/SOS/SOS.js:704-711 | splitting at a first separator yields the prefix followed by the split of the rest |
| Text.ReplaceFirstAt | web/js/SOS/SOS.js:364-370 | a string replace substitutes the first occurrence only, leaving the rest |
| Text.ReplaceFirstAbsent | web/js/SOS/SOS.js:364-370 | without an occurrence the string is unchanged |
| Text.ReplaceFirstEitherCIAbsent | web/js/SOS/SOS.js:791-793 | a case-insensitive alternation replace with no match leaves the token unchanged |
| Text.PrefixCIChars | web/js/SOS/SOS.js:821-829 | `^word` matches case-insensitively exactly when the leading characters agree after lower-casing |
| Text.EndsWithCIChars | web/js/SOS/SOS.js:795-819 | `word$` matches case-insensitively exactly when the trailing characters agree after lower-casing |
| Text.LexLessTrichotomy | web/js/SOS/SOS.js:324-333 | string `<` on time positions: exactly one of equal, less or greater holds |
| Text.LexLessTransitive | web/js/SOS/SOS.js:324-333 | string `<` is transitive |
| SosTime.LeadingDigits | web/js/SOS/SOS.js:709 | `^\d+` matches the longest digit prefix |
| SosTime.TrailingDigits | web/js/SOS/SOS.js:710 | `\d+$` matches the longest digit suffix |
| SosTime.SecondsFieldParts | web/js/SOS/SOS.js:709-710 | for `ss.fff`, the seconds are `ss` and the milliseconds `fff` |
| SosTime.SplitIsoFullForm | web/js/SOS/SOS.js:699-728 | `Y-M-DTh:m:s.fZ` splits into exactly those seven fields |
| SosTime.SplitIsoWithoutFraction | web/js/SOS/SOS.js:709-710 | without a fraction, the milliseconds field takes the seconds digits |
| SosTime.SplitIsoDateOnly | web/js/SOS/SOS.js:705 | a date alone gets the time `00:00:00.000` |
| SosTime.SplitIsoMissingSeconds | web/js/SOS/SOS.js:708-710 | a time without a seconds field is an error (the source reads an undefined field) |
| SosTime.DigitsParse | web/js/SOS/SOS.js:712-718 | a non-empty run of digits is read by `parseInt` as a number |
| SosTime.DigitFieldsAreValid | web/js/SOS/SOS.js:712-718 | the fields of a full-form datetime, non-empty digit runs, cannot make the `Date` invalid |
| SosTime.YearOnlyIsInvalidDate | web/js/SOS/SOS.js:700-718 | a datetime with a year but no month splits without error, yet its missing month makes the `Date` invalid |
| SosTime.YearOnlyDateIsNaN | web/js/SOS/SOS.js:700-718 | `2012T00:00:00Z` gives an Invalid Date under every admissible `Date` stand-in |
| SosTime.TimeInterval.constructor | web/js/SOS/SOS.js:764-771 | a new interval holds the given start and end time values |
| SosTime.AdjustTimeInterval | web/js/SOS/SOS.js:773-778 | an end holds milliseconds afterwards exactly when it held them before and the moved time is within ±8.64e15 ms, and then it is moved by its offset; `setTime` turns a time beyond the range into `NaN`, and `NaN` stays `NaN` |
| SosTime.IsoToTimeInterval | web/js/SOS/SOS.js:764-771 | succeeds exactly when both strings split; start and end are the `Date`s of their fields, and fields that make `parseInt` give `NaN` give a `NaN` end rather than an error |
| SosTime.UnitOfToken | web/js/SOS/SOS.js:795-819 | the last matching unit ending sets the unit length and the time elapsed in it |
| SosTime.ShiftInterval | web/js/SOS/SOS.js:821-829 | the this, last and rolling shifts, each applied in turn when its prefix test held, each a `setTime` that turns a time moved beyond the `Date` range into `NaN` |
| SosTime.ParseRelativeTime | web/js/SOS/SOS.js:780-831 | each end of the fresh interval holds milliseconds exactly when the clock's time and that end of the window the normalised token describes are within the `Date` range, and then it is that end of the window |
| SosTime.PrefixesExclusive | web/js/SOS/SOS.js:821-829 | at most one of the three prefixes matches |
| SosTime.UnitWordsDiffer | web/js/SOS/SOS.js:795-819 | at most one unit ending matches |
| SosTime.UnitFromEnding | web/js/SOS/SOS.js:795-819 | a token ending in a unit word gets that unit's length and elapsed time |
| SosTime.ThisWindow | web/js/SOS/SOS.js:821-823 | `this*` gives `[T-c, T-c+u-1]` |
| SosTime.LastWindow | web/js/SOS/SOS.js:824-826 | `last*` gives `[T-c-u, T-c-1]` |
| SosTime.RollingWindow | web/js/SOS/SOS.js:827-829 | `rolling*` gives `[T-u, T-1]` |
| SosTime.LastAdjoinsThis | web/js/SOS/SOS.js:821-826 | the `last` window ends 1 ms before the `this` window starts; both are one unit long |
| SosTime.ElapsedWithinSpan | web/js/SOS/SOS.js:795-819 | for true UTC calendar readings (day of year 1 to 366, day of month 1 to 31, weekday 0 to 6, now not before the epoch) the elapsed time is within the unit |
| SosTime.ThisWindowContainsNow | web/js/SOS/SOS.js:795-823 | for true UTC calendar readings the `this` window contains now |
| SosTime.ToToken | web/js/SOS/SOS.js:792 | `to…` reads as `this…` |
| SosTime.YesterToken | web/js/SOS/SOS.js:793 | `yester…` reads as `last…` |
| SosTime.UnrecognizedTokenIsNow | web/js/SOS/SOS.js:788-831 | a token without a recognised prefix leaves the interval at `[T, T]` |
| SosTime.RollingWithoutUnit | web/js/SOS/SOS.js:827-829 | `rolling` without a unit gives `[T, T-1]` |
| SosTime.TodayWindow | web/js/SOS/SOS.js:792-823 | `today` is the current UTC day, midnight to 1 ms before the next midnight |
| SosStats.TotalAppend | web/js/SOS/SOS.js:845-853 | the sum of a concatenation is the sum of the parts |
| SosStats.Sum | web/js/SOS/SOS.js:845-853 | the accumulating loop returns the sample's total |
| SosStats.ExtractColumn | web/js/SOS/SOS.js:833-843 | one value per row, in row order: column n of that row |
| SosStats.Least | web/js/SOS/SOS.js:862 | `Math.min` over the sample is a member bounding every element from below |
| SosStats.Greatest | web/js/SOS/SOS.js:863 | `Math.max` over the sample is a member bounding every element from above |
| SosStats.ExtremesOfPermutation | web/js/SOS/SOS.js:893-896 | the sorted copy has the same minimum and maximum |
| SosStats.InsertSorted | web/js/SOS/SOS.js:867 | inserting into a sorted list keeps it sorted |
| SosStats.InsertMultiset | web/js/SOS/SOS.js:867 | insertion adds exactly the one value |
| SosStats.SortedCopyProperties | web/js/SOS/SOS.js:866-867 | the copy is sorted and a permutation of the sample; the sample itself is a value and never reordered |
| SosStats.JsSlice | web/js/SOS/SOS.js:869-874 | `slice` clamps both bounds to the array's length and yields the elements between them, or nothing when the clamped start is not before the clamped end |
| SosStats.QuartileIndices | web/js/SOS/SOS.js:868-874 | for odd N >= 3 the indices `floor(N/2)+1`, `floor(N/4)+1` and `3*floor(N/4)+1` are in range |
| SosStats.SquaredDeviationsStep | web/js/SOS/SOS.js:876-881 | one more element adds its squared deviation |
| SosStats.PickQuantile | web/js/SOS/SOS.js:869-874 | the value at the source's index choice: a two-element slice average for even N, `sorted[f+1]` for odd N |
| SosStats.SumSquaredDeviations | web/js/SOS/SOS.js:876-881 | the loop accumulates the sum of squared deviations from the mean |
| SosStats.ComputeStats | web/js/SOS/SOS.js:855-886 | the record is the summary of the sample: all zero below two values; else count, sum, extremes, mean, the index-chosen quantiles, and variance with divisor N-1 |
| SosStats.Quantiles | web/js/SOS/SOS.js:868-874 | median, q1 and q3 are taken at `N/2`, `N/4` and `3*(N/4)` in the source's manner |
| SosStats.TotalBounds | web/js/SOS/SOS.js:845-853 | a sum of N values within bounds is within N times those bounds |
| SosStats.SquaredDeviationsNonNegative | web/js/SOS/SOS.js:876-881 | the sum of squared deviations is never negative |
| SosStats.MeanBetween | web/js/SOS/SOS.js:861 | a total within N times the bounds, divided by N, is within the bounds |
| SosStats.MeanOfSample | web/js/SOS/SOS.js:859-863 | the mean lies between minimum and maximum |
| SosStats.SummaryBounds | web/js/SOS/SOS.js:855-886 | count and sum are the sample's; min and max are members bounding all values; the mean lies between them |
| SosStats.SummaryVarianceNonNegative | web/js/SOS/SOS.js:876-882 | the variance is never negative |
| SosStats.OddQuantilesAreSamples | web/js/SOS/SOS.js:869-874 | for odd N the median is `sorted[floor(N/2)+1]`, and median, q1 and q3 are sample values |
| SosStats.SortedPair | web/js/SOS/SOS.js:866-867 | the sorted copy of two values puts the smaller first |
| SosStats.PairQuantiles | web/js/SOS/SOS.js:869-874 | for two values the median is half the larger, and q1 and q3 are the mean |
| SosStats.MedianAboveUpperQuartile | web/js/SOS/SOS.js:869-874 | for `[1, 2, 3]` the median 3 exceeds q3 = 2 |
| SosStats.MedianAboveMaximum | web/js/SOS/SOS.js:869 | for `[-4, -2]` the median -1 exceeds the maximum -2 |
| SosStats.Ceil | web/js/SOS/SOS.js:898 | `Math.ceil`: the least integer at or above the value |
| SosStats.CountBelow | web/js/SOS/SOS.js:904-914 | the number of values below a bound never exceeds the count |
| SosStats.Pow10TwoSteps | web/js/SOS/SOS.js:902 | two more decimal digits multiply the power of ten by 100 |
| SosStats.RoundedLog10From | web/js/SOS/SOS.js:902 | the search finds r with `10^(2r) <= 10*span^2 < 10^(2r+2)`, i.e. log10 of the span rounded |
| SosStats.RoundedLog10 | web/js/SOS/SOS.js:902 | `Math.round(log10(span))` for an integer span, characterised without floating point |
| SosStats.BinWidthExamples | web/js/SOS/SOS.js:902 | spans 4, 3 and 32 give widths 1, 0.1 and 10 |
| SosStats.BinStartFormula | web/js/SOS/SOS.js:904 | the k-th bin start reached by repeated addition is `lower + k*w` |
| SosStats.CountBelowOfInsert | web/js/SOS/SOS.js:867 | insertion adds one to the count below a bound exactly when the value is below it |
| SosStats.CountBelowOfSortedCopy | web/js/SOS/SOS.js:893-894 | sorting does not change how many values lie below a bound |
| SosStats.CountInAsBelow | web/js/SOS/SOS.js:904-914 | values in `[lo, hi)` are those below hi minus those below lo |
| SosStats.SortedBelow | web/js/SOS/SOS.js:906-912 | in a sorted list the values below a bound form a prefix |
| SosStats.CountBelowIsCursor | web/js/SOS/SOS.js:906-912 | where the cursor stops is the number of values below the bin's end |
| SosStats.NoneBelow | web/js/SOS/SOS.js:897-914 | no value lies below `lower` |
| SosStats.AllBelow | web/js/SOS/SOS.js:904-914 | every value is counted exactly when all lie below the bound |
| SosStats.StepsBound | web/js/SOS/SOS.js:904 | the bin loop runs at most `floor((upper-lower)/w)` times before reaching upper |
| SosStats.CountsBinsAppend | web/js/SOS/SOS.js:905-913 | appending a bin with the count of its range keeps every bin correct |
| SosStats.NextBin | web/js/SOS/SOS.js:904-913 | the cursor never goes back, and the difference it advances is the next bin's count |
| SosStats.CountBin | web/js/SOS/SOS.js:906-912 | the inner loop moves the shared cursor to the bin's end; the count is the run of the sorted copy inside the bin |
| SosStats.FillBins | web/js/SOS/SOS.js:902-914 | bins start at `lower, lower+w, …` while below upper; each counts the sample values in its half-open range |
| SosStats.BinsBetween | web/js/SOS/SOS.js:901-915 | an empty range gives no bins; otherwise the width is the rounded power of ten over 10 and the bins count the sample |
| SosStats.ComputeHistogram | web/js/SOS/SOS.js:888-919 | the histogram of the sample: empty below two values, else extremes, integer bounds, ten bins per decade and correct counts |
| SosStats.BinPrefixTotal | web/js/SOS/SOS.js:904-914 | the first k bins together count the values below the k-th bin start |
| SosStats.HistogramTotal | web/js/SOS/SOS.js:888-919 | total count <= N; values at or above the last bin's end are dropped, and the total is N exactly when the maximum is below it |
| SosClient.FirstContaining | web/js/SOS/SOS.js:158-167 | the first allowed format holding the substring, or none if none holds it |
| SosClient.SuggestedFormatChoice | web/js/SOS/SOS.js:158-167 | the format is kept if no allowed format matches; otherwise it becomes the first allowed format that contains the suggestion |
| SosClient.FindOffering | web/js/SOS/SOS.js:209-223 | an index whose offering has the id, or none when no offering has it |
| SosClient.AllFoisMembership | web/js/SOS/SOS.js:228-240 | the collected features of interest are exactly those of some offering |
| SosClient.OfferingsWithFoiMembership | web/js/SOS/SOS.js:245-262 | an offering is selected exactly when it lists the feature of interest |
| SosClient.PropertyTitleShape | web/js/SOS/SOS.js:451 | the property title is as long as the short name, with spaces exactly at its underscores and spaces |
| SosClient.PropertyTitleOfTwoWords | web/js/SOS/SOS.js:451 | `prefix:p_q` gets the title `P Q`, each word capitalised |
| SosClient.NameOfTwoWords | web/js/SOS/SOS.js:451 | the short name of `prefix:p_q` is `p_q` |
| SosClient.TitleOfTwoWords | web/js/SOS/SOS.js:451 | `p_q` gets the display title `P Q` |
| SosClient.CompareObservations | web/js/SOS/SOS.js:324-333 | -1, 1 or 0 exactly when the first time position is less, greater or equal |
| SosClient.CompareObservationsConsistent | web/js/SOS/SOS.js:324-333 | the comparator is antisymmetric and transitive, as sorting needs |
| SosClient.ConstructGmlTimeperiod | web/js/SOS/SOS.js:339-359 | succeeds exactly when both datetimes split, neither is an Invalid Date and widening by 1 ms keeps both within the `Date` range, the `RangeError` of `toISOString` being the failure; in particular it fails when a split datetime has a `NaN` field; the period runs from 1 ms before the start to 1 ms after the end |
| SosClient.WidenedPeriod | web/js/SOS/SOS.js:342-355 | the period is formatted exactly when both ends are times whose widening by 1 ms stays within the `Date` range, and then runs from 1 ms before the start to 1 ms after the end |
| SosClient.WidenToPeriod | web/js/SOS/SOS.js:342-355 | widening the interval in place and formatting both ends gives `WidenedPeriod` of the interval as it was |
| SosClient.InsertGmlTimeperiodInRequest | web/js/SOS/SOS.js:364-370 | the widened period goes into the request, with the same failure conditions, including a widening beyond the `Date` range |
| SosClient.InsertPeriodAtPlaceholder | web/js/SOS/SOS.js:366-367 | for a request without the OGC namespace declaration, only the first `<eventTime/>` is replaced by the period |
| SosClient.InsertPeriodAfterNamespace | web/js/SOS/SOS.js:364-370 | for a request that declares the OGC namespace before its first placeholder, as the formatter's requests do, the GML declaration follows the first OGC declaration and the first placeholder is replaced by the period, the rest unchanged |
| SosClient.InsertPeriodWithoutPlaceholder | web/js/SOS/SOS.js:366-367 | without a placeholder or namespace declaration the request is unchanged |
| SosClient.FilterTwice | web/js/SOS/SOS.js:516-532 | the original list is saved once: a second filter resolves against it, so only the last filter counts |
| SosClient.UnfilterRestores | web/js/SOS/SOS.js:516-540 | unfiltering after any filter restores the pre-filter list and clears the copy; with no filter applied it does nothing; it is idempotent |
| SosClient.FilterByUrns | web/js/SOS/SOS.js:516-532 | filtering by full URNs sets the list to exactly those URNs |
| SosClient.Offering.constructor | web/js/SOS/SOS.js:473-475 | a new offering holds the entry's fields, with nothing filtered |
| SosClient.Offering.GetFeatureOfInterestIds | web/js/SOS/SOS.js:488-490 | the de-duplicated feature-of-interest ids |
| SosClient.Offering.GetProcedureIds | web/js/SOS/SOS.js:495-497 | the de-duplicated procedure ids |
| SosClient.Offering.GetObservedPropertyIds | web/js/SOS/SOS.js:502-504 | the de-duplicated observed-property URNs |
| SosClient.Offering.GetObservedPropertyNames | web/js/SOS/SOS.js:509-511 | the short names of the de-duplicated URNs, in order |
| SosClient.Offering.FilterObservedProperties | web/js/SOS/SOS.js:516-532 | the filter state moves as the filter transition says; the other fields are untouched |
| SosClient.Offering.UnfilterObservedProperties | web/js/SOS/SOS.js:535-540 | the filter state moves as the unfilter transition says; the other fields are untouched |
| SosClient.Sos.constructor | web/js/SOS/SOS.js:41-64 | a new client has the configured response format, with no capabilities or observations |
| SosClient.Sos.SetObservationResponseFormatFromTypeSuggestion | web/js/SOS/SOS.js:158-167 | this client's response format becomes the suggested choice; its capabilities and observations are unchanged |
| SosClient.Sos.GetOfferingIds | web/js/SOS/SOS.js:179-189 | the offering ids in order; empty without capabilities |
| SosClient.Sos.GetOfferingNames | web/js/SOS/SOS.js:194-204 | the offering names in order; empty without capabilities |
| SosClient.Sos.GetOffering | web/js/SOS/SOS.js:209-223 | a fresh offering built from the entry with the id, or none when no entry has it |
| SosClient.Sos.GetFeatureOfInterestIds | web/js/SOS/SOS.js:228-240 | the de-duplicated features of interest of all offerings; empty without capabilities |
| SosClient.Sos.GetOfferingsForFeatureOfInterestId | web/js/SOS/SOS.js:245-262 | fresh offerings for exactly the entries listing the feature, in order |
| SosClient.Sos.GetCountOfObservations | web/js/SOS/SOS.js:427-437 | the number of measurements, 0 when there are none |
| SosClient.Sos.GetObservationRecord | web/js/SOS/SOS.js:443-457 | the i-th measurement with its time, property title and unit title; an error when it does not exist |
| SosUi.FirstNonEmptyEmpty | web/js/SOS/SOS.Ui.js:364-369 | the chosen value is empty exactly when every candidate is empty |
| SosUi.FirstNonEmptyAt | web/js/SOS/SOS.Ui.js:364-369 | the first non-empty value is chosen, never overwritten later |
| SosUi.Titles | web/js/SOS/SOS.Ui.js:364-366 | one property title per record, in order |
| SosUi.UomTitles | web/js/SOS/SOS.Ui.js:367-369 | one unit title per record, in order |
| SosUi.ConstructDataTable | web/js/SOS/SOS.Ui.js:357-386 | one `[timestamp, value]` row per record, in order; name and unit from the first record that has them; the label from them |
| SosUi.TableLabelFromRecords | web/js/SOS/SOS.Ui.js:374-381 | without a result name or id, the label is `name / uom` of the first record that has both |
| SosUi.DefaultedProperties | web/js/SOS/SOS.Ui.js:390-408 | defaults are idempotent; with the grid shown the x label and an existing y label are kept, and a missing y label is filled from the first series |
| SosUi.GreyOutCurvesOnPlot | web/js/SOS/SOS.Ui.js:660-670 | every curve except index k turns grey and curve k is unchanged; a negative k greys all |
| SosUi.SelectedRowsRange | web/js/SOS/SOS.Ui.js:568-577 | the inclusive range between the two clicked rows, in either order |
| SosUi.SelectedIntervalStats | web/js/SOS/SOS.Ui.js:568-577 | statistics and histogram of the chosen column of the selected rows |
| SosUi.Plot.constructor | web/js/SOS/SOS.Ui.js:164-203 | a new plot carries the class defaults: x-axis label `Time`, no y-axis label, no series and no pending options |
| SosUi.Plot.ApplyPlotDefaults | web/js/SOS/SOS.Ui.js:390-408 | this plot's labels become their defaulted form; its other fields are unchanged |
| SosUi.Plot.AddToPlot | web/js/SOS/SOS.Ui.js:298-304 | given options are appended; without an argument nothing changes; earlier entries keep their order |
| SosUi.Plot.DisplaySelectedIntervalStats | web/js/SOS/SOS.Ui.js:568-577 | statistics and histogram of column 1 of the selected rows |
| SosStuve.Flags | web/js/SOS/SOS.Plot.Stuve.js:515-518 | k flags, stepping inward |
| SosStuve.Barbs | web/js/SOS/SOS.Plot.Stuve.js:519-523 | k barbs, stepping inward |
| SosStuve.DrawWindBarb | web/js/SOS/SOS.Plot.Stuve.js:504-527 | the nested loops emit the marks of the greedy decomposition |
| SosStuve.PassOfFlags | web/js/SOS/SOS.Plot.Stuve.js:515-518 | n 50-knot passes emit n flags and take 50 knots and 6 units of shaft each |
| SosStuve.PassOfBarbs | web/js/SOS/SOS.Plot.Stuve.js:519-524 | below 50 knots, n passes emit n barbs of length `shaft/3` or `shaft/6` and take 3 units each |
| SosStuve.MarkCounts | web/js/SOS/SOS.Plot.Stuve.js:511-526 | the flag count is non-negative; at most 4 barbs and 1 half-barb; the marks account for the speed to within 5 knots |
| SosStuve.DefaultPasses | web/js/SOS/SOS.Plot.Stuve.js:511-526 | the three speed passes run in the order 50, 10, 5 |
| SosStuve.DefaultWindBarbMarks | web/js/SOS/SOS.Plot.Stuve.js:504-527 | with the configured format: a shaft when the speed is >= 5, then `floor(mag/50)` flags, then the barbs, then at most one half-barb, at their positions |
| SosStuve.SlowWindDrawsNothing | web/js/SOS/SOS.Plot.Stuve.js:507-526 | below 5 knots nothing is drawn |
| SosStuve.DefaultBodyMovesInward | web/js/SOS/SOS.Plot.Stuve.js:505-522 | flag and barb positions start at 30 and strictly decrease |
| SosStuve.ShaftsThenBody | web/js/SOS/SOS.Plot.Stuve.js:507-523 | putting the shaft first keeps every later mark further inward |
| SosStuve.DefaultMarksMoveInward | web/js/SOS/SOS.Plot.Stuve.js:504-527 | every mark after the shaft lies strictly inside the previous ones |
| SosStuve.GenerateYaxisTicks | web/js/SOS/SOS.Plot.Stuve.js:419-431 | 19 ascending ticks 100, 150, …, 1000; multiples of 100 get their value, the others a blank |
| SosStuve.FirstRowAt | web/js/SOS/SOS.Plot.Stuve.js:301-306 | the first row whose pressure equals the value, or none |
| SosTime.TimeClip | web/js/SOS/SOS.Plot.Stuve.js:726 | `new Date(x)` keeps a time exactly when it lies within ±8.64e15 ms, truncated toward zero to whole milliseconds, and is `NaN` beyond |
| SosStuve.HourStart | web/js/SOS/SOS.Plot.Stuve.js:725-729 | the start of the UTC hour holding the instant, a whole hour at or before it |
| SosStuve.HourStartProperties | web/js/SOS/SOS.Plot.Stuve.js:725-729 | truncation is idempotent; instants in the same hour truncate alike |
| SosStuve.StuvePlot.constructor | web/js/SOS/SOS.Plot.Stuve.js:104-111 | no launch time and no column names at first |
| SosStuve.StuvePlot.GetAltitudeForPressureLevelValue | web/js/SOS/SOS.Plot.Stuve.js:297-310 | the altitude of the first matching pressure row; none without a match or an altitude series |
| SosStuve.StuvePlot.ClearSeriesMetadata | web/js/SOS/SOS.Plot.Stuve.js:713-716 | launch time cleared and names emptied; the series untouched |
| SosStuve.StuvePlot.StoreSeriesMetadataLaunch | web/js/SOS/SOS.Plot.Stuve.js:721-732 | the launch time is the formatted `NaN` when the first row's time is beyond the `Date` range, and otherwise that time truncated to the hour; nothing else changes |
| SosStuve.ColumnNameLacksUnit | web/js/SOS/SOS.Plot.Stuve.js:737-743 | a column name begins with the series' property name and, whatever the table's unit, does not end in it |
| SosStuve.StuvePlot.StoreSeriesMetadataColumns | web/js/SOS/SOS.Plot.Stuve.js:737-743 | one `ColumnName` appended per series table, in order, earlier names untouched: the property name followed by ` / undefined`, since the tables carry their unit as `uom` and not as the `uomTitle` read |
| SosStuve.StuvePlot.DisplaySelectedIntervalStats | web/js/SOS/SOS.Plot.Stuve.js:186-193 | statistics and histogram of column 0 of the selected rows |

## Left out

- **Network, parsing and events.**
  - `getCapabilities`, `getLatestObservations*` and `getObservations*`, the `_parse*` callbacks, the OpenLayers formatters, and event registration. These are I/O and foreign-library calls.
  - Parsed documents are datatype values.
- **`isValidObject`, `isArray` and `isNumber`.** These are JavaScript type tests. Their cases are types here.
- **Local time in `isoToDateObject`.** The JavaScript `Date` and timezone behaviour in `isoToDateObject` is the parameter `localTime`. Only the field splitting and the `NaN` fields that make an Invalid Date are modelled. The other Invalid Dates are left to `localTime`: a `Number` conversion of the month that gives `NaN` from a form not covered by `SosTime.MonthNaN`, and dates whose instant falls outside the `Date` range. Once a `Date` exists, moving it out of the range is modelled.
- **`isoToJsTimestamp`, `jsTimestampToIso`, `toISOString` and the `getUTCDayOfYear` polyfill.** These are clock and calendar library code. They are the parameters `iso`, `formatter` and `timestamp`, and the `UtcClock` readings.
- **`sd`.** It needs `Math.sqrt`, which is floating point. The variance is modelled.
- **Floating-point rounding and `NaN` from `parseFloat`.** Samples are exact reals.
- **Exact rounding of `binWidth`.** The rounding of log10 is exact here. Floating-point `log` may round the other way when log10 of the span lies within rounding error of a half-integer.
- **`theta`, `P` and the axis transforms.** These are floating-point physics, as are `formatValueSimple` and `formatValueFancy`.
- **Canvas, DOM, jQuery and flot.** These are rendering: `markDryAdiabats`, the rotation in `drawWind`, `printAltitude`, `setupBehaviour`/`setupPlotBehaviour`, dialogs, overview plots and `jQuery.extend` deep merges.
- **Wind-barb geometry.** The model emits marks instead of drawing.
- **`constructStuve*Data` and `constructPressureSeries`.** They call `mergeSeries`, `removeMissingDataRows`, `reorderColumns`, `removeColumns` and `initDataTable`, which are not part of this model.
- **The PHP example pages.** They only echo templates.
- SosNames.ToTitleCaseChars: only ASCII letters are upper-cased; JavaScript's `toUpperCase` on other letters is not modelled. The same ASCII-only `Capitalize` underlies SosNames.CapitalizeAll, SosNames.CapitalizeBeforeSpace and SosNames.CapitalizeAfterSpacesChars. Their "length is kept" promises therefore hold for the model only: in JavaScript a word starting with `ß` becomes `SS` and one starting with `ﬁ` becomes `FI`, lengthening the title.
- SosNames.CapitalizeAfterSpacesChars: ASCII-only upper-casing, as for SosNames.ToTitleCaseChars above.
- SosNames.ToDisplayUom: the unit table is a plain JavaScript object, so a unit named after an `Object.prototype` member (`constructor`, `toString`, `valueOf`, `hasOwnProperty`, `__proto__` and the like) finds an inherited function or object instead of passing through unchanged. The model treats every unit other than `Cel` and `m/s` as passing through; none of those names is a UCUM code.
- SosTime.ThisWindowContainsNow: proved for true UTC calendar readings only. In the program the day of the year comes from the `getUTCDayOfYear` polyfill (web/js/SOS/SOS.js:949-957), which counts from local 1 January and rounds up. It can give 0 (at UTC midnight on 1 January, or west of Greenwich early on 1 January) or 367 (east of Greenwich late on 31 December of a leap year). Then `thisyear` starts in the future or ends before now. The polyfill is not part of this model.
- SosTime.ElapsedWithinSpan: the same calendar-reading condition as SosTime.ThisWindowContainsNow.
- SosClient.Sos.SetObservationResponseFormatFromTypeSuggestion: the source writes `config.observation.responseFormat`. `config` is a literal on the class prototype, copied only shallowly by `initialize` and handed to every offering, so the write changes the format seen by every SOS object and offering. The model keeps one format per object and does not capture that sharing.
- SosUi.Plot.ApplyPlotDefaults: the source rewrites `config.plot.options`, which the prototype's `config` shares among all `SOS.Plot` objects (the deep `jQuery.extend` in `initialize` merges into it). So one plot's defaults, and its `config.plot.series`, are seen by every other plot. The model keeps labels and series per object and does not capture that sharing.
- SosUi.Plot.constructor: the initial labels are the class defaults; options passed to `new SOS.Plot(options)` that override them are not modelled.
- SosStats.ExtractColumn: missing column. It requires every row to have the column. The source would yield `undefined` entries.
- SosStuve.StuvePlot.StoreSeriesMetadataLaunch: empty first row. It requires a non-empty first row. The source would throw on an empty one.
- SosClient.Offering.FilterObservedProperties: single string. It takes a list. A single string argument, which the source wraps in a list, is a one-element list here.
- SosClient.Sos.GetObservationRecord: no in-place change. It returns a new record. The source adds the fields to the measurement object in place.
- SosStuve.StuvePlot.GetAltitudeForPressureLevelValue: no match. It returns `None` where the source returns `""`.

=== FILE: sos_client.dfy ===
/**
 * The `SOS` client object and its `SOS.Offering` subclass: queries over a
 * parsed capabilities document, the observed-property filter of an
 * offering, observation records and their sort order, and the GML time
 * period spliced into a GetObservation request.
 *
 * The capabilities and observation documents are taken as already parsed;
 * requesting and parsing them is outside this model.
 */
module SosClient {
  import opened Wrappers
  import opened Text
  import opened SosNames
  import opened SosTime

  // ---------------------------------------------------------------------
  // parsed documents

  /** One entry of the capabilities' offering list, keyed by `id`. */
  datatype OfferingEntry = OfferingEntry(
    id: string,
    name: string,
    featureOfInterestIds: seq<string>,
    procedures: seq<string>,
    observedProperties: seq<string>)

  /** The parts of a capabilities document the client reads. */
  datatype Capabilities = Capabilities(responseFormats: seq<string>, offerings: seq<OfferingEntry>)

  /** One measurement of an observation document. */
  datatype Measurement = Measurement(timePosition: string, observedProperty: string, uom: string, value: real)

  /** A parsed observation document; its measurement list may be missing. */
  datatype Observations = Observations(measurements: Option<seq<Measurement>>)

  /** A measurement with the convenience properties `getObservationRecord` adds (`uomTitle` is spelt `UomTitle` there). */
  datatype ObservationRecord = ObservationRecord(
    measurement: Measurement,
    time: string,
    observedPropertyTitle: string,
    uomTitle: string)

  // ---------------------------------------------------------------------
  // response format

  /** `s.indexOf(t) >= 0`. */
  predicate Contains(s: string, t: string)
  {
    IndexOf(s, t).Some?
  }

  /** The index of the first format, at or after `from`, that contains `t`. */
  function FirstContaining(formats: seq<string>, t: string, from: nat): (r: Option<nat>)
    requires from <= |formats|
    ensures r.Some? ==> from <= r.value < |formats| && Contains(formats[r.value], t)
    ensures r.Some? ==> forall k :: from <= k < r.value ==> !Contains(formats[k], t)
    ensures r.None? ==> forall k :: from <= k < |formats| ==> !Contains(formats[k], t)
    decreases |formats| - from
  {
    if from == |formats| then None
    else if Contains(formats[from], t) then Some(from)
    else FirstContaining(formats, t, from + 1)
  }

  /** The response format after a suggestion of type `t`. */
  function SuggestedFormat(caps: Option<Capabilities>, t: string, current: string): string
  {
    match caps
    case None => current
    case Some(c) =>
      match FirstContaining(c.responseFormats, t, 0)
      case None => current
      case Some(k) => c.responseFormats[k]
  }

  /**
   * The suggestion either keeps the current format or picks an allowed
   * format containing `t`, and it keeps the current one only when no
   * allowed format contains `t` (or it already was the first that does).
   */
  lemma SuggestedFormatChoice(c: Capabilities, t: string, current: string)
    ensures var r := SuggestedFormat(Some(c), t, current);
      (r == current && forall k :: 0 <= k < |c.responseFormats| ==> !Contains(c.responseFormats[k], t)) ||
      (exists k :: 0 <= k < |c.responseFormats| && r == c.responseFormats[k] && Contains(r, t) &&
         forall q :: 0 <= q < k ==> !Contains(c.responseFormats[q], t))
  {
    match FirstContaining(c.responseFormats, t, 0)
    case None =>
    case Some(k) =>
      assert SuggestedFormat(Some(c), t, current) == c.responseFormats[k];
  }

  // ---------------------------------------------------------------------
  // offering queries

  /** The index of the offering whose key is `id`. */
  function FindOffering(es: seq<OfferingEntry>, id: string, from: nat): (r: Option<nat>)
    requires from <= |es|
    ensures r.Some? ==> from <= r.value < |es| && es[r.value].id == id
    ensures r.None? ==> forall k :: from <= k < |es| ==> es[k].id != id
    decreases |es| - from
  {
    if from == |es| then None
    else if es[from].id == id then Some(from)
    else FindOffering(es, id, from + 1)
  }

  /** The feature-of-interest ids of all offerings, concatenated in order. */
  function AllFois(es: seq<OfferingEntry>): seq<string>
  {
    if |es| == 0 then [] else AllFois(es[..|es| - 1]) + es[|es| - 1].featureOfInterestIds
  }

  lemma {:induction false} AllFoisMembership(es: seq<OfferingEntry>, v: string)
    ensures v in AllFois(es) <==> exists k :: 0 <= k < |es| && v in es[k].featureOfInterestIds
  {
    if |es| > 0 {
      var init := es[..|es| - 1];
      AllFoisMembership(init, v);
      if exists k :: 0 <= k < |init| && v in init[k].featureOfInterestIds {
        var k :| 0 <= k < |init| && v in init[k].featureOfInterestIds;
        assert es[k] == init[k];
      }
      if exists k :: 0 <= k < |es| && v in es[k].featureOfInterestIds {
        var k :| 0 <= k < |es| && v in es[k].featureOfInterestIds;
        if k < |es| - 1 {
          assert init[k] == es[k];
        }
      }
    }
  }

  /** The offerings that list `foi` among their features of interest, in order. */
  function OfferingsWithFoi(es: seq<OfferingEntry>, foi: string): seq<OfferingEntry>
  {
    if |es| == 0 then []
    else
      var rest := OfferingsWithFoi(es[..|es| - 1], foi);
      if foi in es[|es| - 1].featureOfInterestIds then rest + [es[|es| - 1]] else rest
  }

  /** An offering is selected exactly when it lists `foi`. */
  lemma {:induction false} OfferingsWithFoiMembership(es: seq<OfferingEntry>, foi: string, e: OfferingEntry)
    ensures e in OfferingsWithFoi(es, foi) <==> e in es && foi in e.featureOfInterestIds
  {
    if |es| > 0 {
      OfferingsWithFoiMembership(es[..|es| - 1], foi, e);
      assert es == es[..|es| - 1] + [es[|es| - 1]];
    }
  }

  // ---------------------------------------------------------------------
  // observation records

  /** The display title of an observed property URN. */
  function PropertyTitle(urn: string): string
  {
    ToTitleCase(ToDisplayName(UrnToName(urn)))
  }

  /** `getObservationRecord`'s convenience properties for one measurement. */
  function RecordOf(m: Measurement): ObservationRecord
  {
    ObservationRecord(m, m.timePosition, PropertyTitle(m.observedProperty), ToDisplayUom(m.uom))
  }

  /**
   * The title has the short name's length; its spaces are exactly the
   * short name's underscores and spaces, and every other character is the
   * short name's, upper-cased where it starts a word.
   */
  lemma PropertyTitleShape(urn: string)
    ensures |PropertyTitle(urn)| == |UrnToName(urn)|
    ensures forall i :: 0 <= i < |UrnToName(urn)| ==>
      (PropertyTitle(urn)[i] == ' ' <==> UrnToName(urn)[i] == '_' || UrnToName(urn)[i] == ' ')
  {
    var n := UrnToName(urn);
    var d := ToDisplayName(n);
    ToTitleCaseChars(d);
    forall i | 0 <= i < |n|
      ensures PropertyTitle(urn)[i] == ' ' <==> n[i] == '_' || n[i] == ' '
    {
      var c := d[i];
      assert UpperAscii(c) == ' ' <==> c == ' ';
    }
  }

  /**
   * A URN whose last segment is two plain words joined by `_` is titled
   * by those two words, each capitalized, with a space between them.
   */
  lemma PropertyTitleOfTwoWords(prefix: string, p: string, q: string)
    requires forall i :: 0 <= i < |prefix| ==> !IsLineTerminator(prefix[i])
    requires forall i :: 0 <= i < |p| ==> p[i] != '_' && p[i] != ' ' && p[i] != ':' && !IsLineTerminator(p[i])
    requires forall i :: 0 <= i < |q| ==> q[i] != '_' && q[i] != ' ' && q[i] != ':' && !IsLineTerminator(q[i])
    ensures PropertyTitle(prefix + [':'] + p + ['_'] + q) == Capitalize(p) + [' '] + Capitalize(q)
  {
    var name := p + ['_'] + q;
    assert prefix + [':'] + p + ['_'] + q == prefix + [':'] + name;
    NameOfTwoWords(prefix, p, q);
    TitleOfTwoWords(p, q);
  }

  lemma NameOfTwoWords(prefix: string, p: string, q: string)
    requires forall i :: 0 <= i < |prefix| ==> !IsLineTerminator(prefix[i])
    requires forall i :: 0 <= i < |p| ==> p[i] != ':' && !IsLineTerminator(p[i])
    requires forall i :: 0 <= i < |q| ==> q[i] != ':' && !IsLineTerminator(q[i])
    ensures UrnToName(prefix + [':'] + (p + ['_'] + q)) == p + ['_'] + q
  {
    var name := p + ['_'] + q;
    var s := prefix + [':'] + name;
    forall i | 0 <= i < |s|
      ensures !IsLineTerminator(s[i])
    {
      if i < |prefix| {
        assert s[i] == prefix[i];
      } else if |prefix| < i < |prefix| + 1 + |p| {
        assert s[i] == p[i - |prefix| - 1];
      } else if |prefix| + 1 + |p| < i {
        assert s[i] == q[i - |prefix| - 2 - |p|];
      }
    }
    forall i | 0 <= i < |name|
      ensures name[i] != ':'
    {
      if i < |p| {
        assert name[i] == p[i];
      } else if i > |p| {
        assert name[i] == q[i - |p| - 1];
      }
    }
    UrnToNameOfQualified(prefix, name);
  }

  lemma TitleOfTwoWords(p: string, q: string)
    requires '_' !in p && ' ' !in p && '_' !in q && ' ' !in q
    ensures ToTitleCase(ToDisplayName(p + ['_'] + q)) == Capitalize(p) + [' '] + Capitalize(q)
  {
    ToDisplayNameOfPair(p, q);
    var d := p + [' '] + q;
    SplitWithoutSeparator(q, ' ');
    SplitAtFirst(p, q, ' ');
    assert Split(d, ' ') == [p, q];
    var caps := CapitalizeAll([p, q]);
    assert caps == [Capitalize(p), Capitalize(q)];
    assert caps[1..] == [Capitalize(q)];
    assert ToTitleCase(d) == Join(caps, ' ');
    assert Join(caps, ' ') == Capitalize(p) + [' '] + Join([Capitalize(q)], ' ');
  }

  /** `_sortObservations`: -1, 0 or 1 by the string order of the time positions (ISO text, so code point and code unit agree). */
  function CompareObservations(a: Measurement, b: Measurement): (r: int)
    ensures r == -1 <==> LexLess(a.timePosition, b.timePosition)
    ensures r == 1 <==> LexLess(b.timePosition, a.timePosition)
    ensures r == 0 <==> a.timePosition == b.timePosition
  {
    LexLessTrichotomy(a.timePosition, b.timePosition);
    if LexLess(a.timePosition, b.timePosition) then -1
    else if LexLess(b.timePosition, a.timePosition) then 1
    else 0
  }

  /** The comparator is antisymmetric and transitive, so it orders measurements consistently. */
  lemma CompareObservationsConsistent(a: Measurement, b: Measurement, c: Measurement)
    ensures CompareObservations(a, b) == -CompareObservations(b, a)
    ensures CompareObservations(a, b) <= 0 && CompareObservations(b, c) <= 0 ==> CompareObservations(a, c) <= 0
  {
    if CompareObservations(a, b) == -1 && CompareObservations(b, c) == -1 {
      LexLessTransitive(a.timePosition, b.timePosition, c.timePosition);
    }
  }

  // ---------------------------------------------------------------------
  // GML time period

  const OgcNamespace: string := "xmlns:ogc=\"http://www.opengis.net/ogc\""
  const GmlNamespace: string := " xmlns:gml=\"http://www.opengis.net/gml\""
  const EventTimePlaceholder: string := "<eventTime/>"

  /** The `eventTime` element for a period between two formatted instants. */
  function GmlTimePeriod(begin: string, end: string): string
  {
    "<eventTime>" +
      "<ogc:TM_During>" +
        "<ogc:PropertyName>om:samplingTime</ogc:PropertyName>" +
        "<gml:TimePeriod>" +
          "<gml:beginPosition>" + begin + "</gml:beginPosition>" +
          "<gml:endPosition>" + end + "</gml:endPosition>" +
        "</gml:TimePeriod>" +
      "</ogc:TM_During>" +
    "</eventTime>"
  }

  /**
   * `constructGmlTimeperiod`: the interval read from the two ISO strings,
   * widened by one millisecond at each end because the server treats the
   * period as open. `iso` stands for `Date.prototype.toISOString`, which
   * throws a `RangeError` on an Invalid Date: one read as such, or one the
   * widening moves out of the `Date` range.
   */
  method ConstructGmlTimeperiod(start: string, end: string, localTime: IsoFields -> TimeValue, iso: int -> string)
    returns (r: Result<string>)
    requires DateConstructor(localTime)
    ensures r.Success? <==>
      SplitIsoDateTime(start).Success? && SplitIsoDateTime(end).Success? &&
      localTime(SplitIsoDateTime(start).value).Ms? && localTime(SplitIsoDateTime(end).value).Ms? &&
      InDateRange(localTime(SplitIsoDateTime(start).value).ms - 1) &&
      InDateRange(localTime(SplitIsoDateTime(end).value).ms + 1)
    ensures SplitIsoDateTime(start).Success? && InvalidDateFields(SplitIsoDateTime(start).value) ==> r.Failure?
    ensures SplitIsoDateTime(end).Success? && InvalidDateFields(SplitIsoDateTime(end).value) ==> r.Failure?
    ensures r.Success? ==>
      r.value == GmlTimePeriod(iso(localTime(SplitIsoDateTime(start).value).ms - 1),
                               iso(localTime(SplitIsoDateTime(end).value).ms + 1))
  {
    var t := IsoToTimeInterval(start, end, localTime);
    if t.Failure? {
      return Failure(t.error);
    }
    ghost var ls := t.value.start;
    ghost var le := t.value.end;
    r := WidenToPeriod(t.value, iso);
    assert r == WidenedPeriod(ls, le, iso);
  }

  /**
   * The second half of `constructGmlTimeperiod`: the interval widened in
   * place by one millisecond at each end, then both ends formatted.
   */
  /** The period of an interval widened by one millisecond at each end, or the `RangeError` of formatting an Invalid Date. */
  function WidenedPeriod(start: TimeValue, end: TimeValue, iso: int -> string): (r: Result<string>)
    ensures r.Success? <==> start.Ms? && end.Ms? && InDateRange(start.ms - 1) && InDateRange(end.ms + 1)
    ensures r.Success? ==> r.value == GmlTimePeriod(iso(start.ms - 1), iso(end.ms + 1))
  {
    var b := Moved(start, -1);
    var e := Moved(end, 1);
    if b.NaN? || e.NaN? then Failure("RangeError: Invalid time value")
    else Success(GmlTimePeriod(iso(b.ms), iso(e.ms)))
  }

  method WidenToPeriod(t: TimeInterval, iso: int -> string) returns (r: Result<string>)
    modifies t
    ensures r == WidenedPeriod(old(t.start), old(t.end), iso)
  {
    AdjustTimeInterval(t, -1, 1);
    if t.start.NaN? || t.end.NaN? {
      r := Failure("RangeError: Invalid time value");
    } else {
      r := Success(GmlTimePeriod(iso(t.start.ms), iso(t.end.ms)));
    }
  }

  /** The request with the GML namespace declared and the placeholder replaced by `period`. */
  function InsertPeriod(xml: string, period: string): string
  {
    var declared := ReplaceFirst(xml, OgcNamespace, OgcNamespace + GmlNamespace);
    ReplaceFirst(declared, EventTimePlaceholder, period)
  }

  /** `insertGmlTimeperiodInRequest`. */
  method InsertGmlTimeperiodInRequest(xml: string, start: string, end: string, localTime: IsoFields -> TimeValue, iso: int -> string)
    returns (r: Result<string>)
    requires DateConstructor(localTime)
    ensures r.Success? <==>
      SplitIsoDateTime(start).Success? && SplitIsoDateTime(end).Success? &&
      localTime(SplitIsoDateTime(start).value).Ms? && localTime(SplitIsoDateTime(end).value).Ms? &&
      InDateRange(localTime(SplitIsoDateTime(start).value).ms - 1) &&
      InDateRange(localTime(SplitIsoDateTime(end).value).ms + 1)
    ensures SplitIsoDateTime(start).Success? && InvalidDateFields(SplitIsoDateTime(start).value) ==> r.Failure?
    ensures SplitIsoDateTime(end).Success? && InvalidDateFields(SplitIsoDateTime(end).value) ==> r.Failure?
    ensures r.Success? ==>
      r.value == InsertPeriod(xml, GmlTimePeriod(iso(localTime(SplitIsoDateTime(start).value).ms - 1),
                                                 iso(localTime(SplitIsoDateTime(end).value).ms + 1)))
  {
    var period := ConstructGmlTimeperiod(start, end, localTime, iso);
    if period.Failure? {
      return Failure(period.error);
    }
    var x := ReplaceFirst(xml, OgcNamespace, OgcNamespace + GmlNamespace);
    x := ReplaceFirst(x, EventTimePlaceholder, period.value);
    r := Success(x);
  }

  /**
   * Without the OGC namespace declaration the request only has its first
   * placeholder replaced by the period.
   */
  lemma InsertPeriodAtPlaceholder(xml: string, period: string, p: nat)
    requires forall q :: 0 <= q ==> !OccursAt(xml, OgcNamespace, q)
    requires OccursAt(xml, EventTimePlaceholder, p)
    requires forall q :: 0 <= q < p ==> !OccursAt(xml, EventTimePlaceholder, q)
    ensures InsertPeriod(xml, period) == xml[..p] + period + xml[p + |EventTimePlaceholder|..]
  {
    ReplaceFirstAbsent(xml, OgcNamespace, OgcNamespace + GmlNamespace);
    ReplaceFirstAt(xml, EventTimePlaceholder, period, p);
  }

  /**
   * The request the OpenLayers formatter builds declares the OGC namespace
   * before its placeholder: the GML declaration goes right after the OGC one
   * and the first placeholder is replaced by the period.
   */
  lemma InsertPeriodAfterNamespace(xml: string, period: string, q: nat, p: nat)
    requires OccursAt(xml, OgcNamespace, q)
    requires forall k :: 0 <= k < q ==> !OccursAt(xml, OgcNamespace, k)
    requires OccursAt(xml, EventTimePlaceholder, p)
    requires forall k :: 0 <= k < p ==> !OccursAt(xml, EventTimePlaceholder, k)
    requires q + |OgcNamespace| <= p
    ensures InsertPeriod(xml, period) ==
      xml[..q + |OgcNamespace|] + GmlNamespace + xml[q + |OgcNamespace|..p] + period +
      xml[p + |EventTimePlaceholder|..]
  {
    DeclarationLetters();
    InsertThenReplace(xml, OgcNamespace, GmlNamespace, EventTimePlaceholder, period, q, p);
  }

  /** The letters the placement argument needs: declarations start with `x`, the placeholder with `<`. */
  lemma DeclarationLetters()
    ensures |OgcNamespace| > 0 && |EventTimePlaceholder| > 0
    ensures OgcNamespace[0] !in EventTimePlaceholder
    ensures EventTimePlaceholder[0] !in OgcNamespace && EventTimePlaceholder[0] !in GmlNamespace
  {
    assert OgcNamespace[0] == 'x' && EventTimePlaceholder[0] == '<';
  }

  /**
   * Inserting `ins` after the first `decl`, then replacing the first `ph`:
   * when `decl` comes first, and neither text can start the other's
   * occurrence, the placeholder found is the original first one, shifted.
   */
  lemma InsertThenReplace(xml: string, decl: string, ins: string, ph: string, rep: string, q: nat, p: nat)
    requires |decl| > 0 && |ph| > 0
    requires decl[0] !in ph && ph[0] !in decl && ph[0] !in ins
    requires OccursAt(xml, decl, q)
    requires forall k :: 0 <= k < q ==> !OccursAt(xml, decl, k)
    requires OccursAt(xml, ph, p)
    requires forall k :: 0 <= k < p ==> !OccursAt(xml, ph, k)
    requires q + |decl| <= p
    ensures ReplaceFirst(ReplaceFirst(xml, decl, decl + ins), ph, rep) ==
      xml[..q + |decl|] + ins + xml[q + |decl|..p] + rep + xml[p + |ph|..]
  {
    var declared := xml[..q + |decl|] + ins + xml[q + |decl|..];
    InsertAfterFirst(xml, decl, ins, q);
    ReplaceShifted(xml, decl, ins, ph, rep, declared, q, p);
  }

  /** The first `decl` of `xml`, at `q`, is followed by `ins`. */
  lemma InsertAfterFirst(xml: string, decl: string, ins: string, q: nat)
    requires OccursAt(xml, decl, q)
    requires forall k :: 0 <= k < q ==> !OccursAt(xml, decl, k)
    ensures ReplaceFirst(xml, decl, decl + ins) == xml[..q + |decl|] + ins + xml[q + |decl|..]
  {
    ReplaceFirstAt(xml, decl, decl + ins, q);
    assert xml[..q + |decl|] == xml[..q] + decl;
  }

  /** In the request with `ins` inserted, the first `ph` is the original first one, shifted by `|ins|`. */
  lemma ReplaceShifted(xml: string, decl: string, ins: string, ph: string, rep: string, declared: string, q: nat, p: nat)
    requires |decl| > 0 && |ph| > 0
    requires decl[0] !in ph && ph[0] !in decl && ph[0] !in ins
    requires OccursAt(xml, decl, q)
    requires OccursAt(xml, ph, p)
    requires forall k :: 0 <= k < p ==> !OccursAt(xml, ph, k)
    requires q + |decl| <= p
    requires declared == xml[..q + |decl|] + ins + xml[q + |decl|..]
    ensures ReplaceFirst(declared, ph, rep) ==
      xml[..q + |decl|] + ins + xml[q + |decl|..p] + rep + xml[p + |ph|..]
  {
    var e := q + |decl|;
    var g := |ins|;
    var n := |ph|;
    InsertedSlices(xml, ins, e, p, n);
    assert OccursAt(declared, ph, p + g);
    forall r | 0 <= r < p + g
      ensures !OccursAt(declared, ph, r)
    {
      NotBeforeShifted(xml, decl, ins, ph, declared, q, p, r);
    }
    ReplaceFirstAt(declared, ph, rep, p + g);
  }

  /** Where the parts of `xml` land once `ins` is inserted at `e`. */
  lemma InsertedSlices(xml: string, ins: string, e: nat, p: nat, n: nat)
    requires e <= p && p + n <= |xml|
    ensures var d := xml[..e] + ins + xml[e..];
      d[..p + |ins|] == xml[..e] + ins + xml[e..p] &&
      d[p + |ins|..p + |ins| + n] == xml[p..p + n] &&
      d[p + |ins| + n..] == xml[p + n..]
  {
    var d := xml[..e] + ins + xml[e..];
    assert d[..p + |ins|] == xml[..e] + ins + xml[e..p];
    assert d[p + |ins|..] == xml[p..];
    assert d[p + |ins|..p + |ins| + n] == xml[p..][..n];
  }

  /** No occurrence of `ph` starts before its shifted first one once `ins` is inserted. */
  lemma NotBeforeShifted(xml: string, decl: string, ins: string, ph: string, declared: string, q: nat, p: nat, r: nat)
    requires |decl| > 0 && |ph| > 0
    requires decl[0] !in ph && ph[0] !in decl && ph[0] !in ins
    requires OccursAt(xml, decl, q)
    requires forall k :: 0 <= k < p ==> !OccursAt(xml, ph, k)
    requires q + |decl| <= p && r < p + |ins|
    requires declared == xml[..q + |decl|] + ins + xml[q + |decl|..]
    ensures !OccursAt(declared, ph, r)
  {
    var e := q + |decl|;
    var g := |ins|;
    var n := |ph|;
    if r + n <= |declared| {
      if r + n <= q {
        assert declared[r..r + n] == xml[r..r + n];
        assert !OccursAt(xml, ph, r);
      } else if r < q {
        assert declared[r..r + n][q - r] == decl[0];
        assert ph[q - r] in ph;
      } else if r < e {
        assert declared[r..r + n][0] == decl[r - q];
        assert decl[r - q] in decl;
      } else if r < e + g {
        assert declared[r..r + n][0] == ins[r - e];
        assert ins[r - e] in ins;
      } else {
        assert declared[r..r + n] == xml[r - g..r - g + n];
        assert !OccursAt(xml, ph, r - g);
      }
    }
  }

  /** A request with neither the declaration nor the placeholder passes through unchanged. */
  lemma InsertPeriodWithoutPlaceholder(xml: string, period: string)
    requires forall q :: 0 <= q ==> !OccursAt(xml, OgcNamespace, q)
    requires forall q :: 0 <= q ==> !OccursAt(xml, EventTimePlaceholder, q)
    ensures InsertPeriod(xml, period) == xml
  {
    ReplaceFirstAbsent(xml, OgcNamespace, OgcNamespace + GmlNamespace);
    ReplaceFirstAbsent(xml, EventTimePlaceholder, period);
  }

  // ---------------------------------------------------------------------
  // the observed-property filter

  /** An offering's observed properties and the saved original list, if any. */
  datatype PropertyFilter = PropertyFilter(current: seq<string>, original: Option<seq<string>>)

  /**
   * `filterObservedProperties`: names (or URNs) are resolved against the
   * saved original list when there is one, else against the current list,
   * which is then saved.
   */
  function Filtered(st: PropertyFilter, names: seq<string>): PropertyFilter
  {
    var master := st.original.GetOr(st.current);
    PropertyFilter(UrnsForNames(names, master), Some(master))
  }

  /** `unfilterObservedProperties`: restore and forget the saved list, if any. */
  function Unfiltered(st: PropertyFilter): PropertyFilter
  {
    match st.original
    case None => st
    case Some(o) => PropertyFilter(o, None)
  }

  /**
   * The original list is saved once: a later filter keeps it, and resolves
   * against it, so only the last filter counts.
   */
  lemma FilterTwice(st: PropertyFilter, a: seq<string>, b: seq<string>)
    ensures Filtered(Filtered(st, a), b) == Filtered(st, b)
    ensures Filtered(Filtered(st, a), b).original == Some(st.original.GetOr(st.current))
  {
  }

  /** Unfiltering undoes any filtering, and changes nothing when no filter was applied. */
  lemma UnfilterRestores(st: PropertyFilter, a: seq<string>)
    ensures Unfiltered(Filtered(st, a)) == Unfiltered(st)
    ensures st.original.None? ==> Unfiltered(Filtered(st, a)) == st && Unfiltered(st) == st
    ensures Unfiltered(Unfiltered(st)) == Unfiltered(st)
  {
  }

  /** Filtering by the full URNs of the master list selects exactly those URNs. */
  lemma FilterByUrns(st: PropertyFilter, urns: seq<string>)
    requires forall i :: 0 <= i < |urns| ==> ':' in urns[i]
    requires var m := st.original.GetOr(st.current);
      forall j, i :: 0 <= j < |m| && 0 <= i < |m[j]| ==> !IsLineTerminator(m[j][i])
    ensures Filtered(st, urns).current == urns
  {
    var m := st.original.GetOr(st.current);
    forall i | 0 <= i < |urns|
      ensures UrnForName(urns[i], m) == urns[i]
    {
      UrnResolvesToItself(urns[i], m);
    }
  }

  // ---------------------------------------------------------------------
  // SOS.Offering

  /** An offering object: its entry fields plus the filter state. */
  class Offering {
    var id: string
    var name: string
    var featureOfInterestIds: seq<string>
    var procedures: seq<string>
    var observedProperties: seq<string>
    var observedPropertiesOriginal: Option<seq<string>>

    /** `new SOS.Offering(o)`: the entry's fields, nothing filtered yet. */
    constructor (e: OfferingEntry)
      ensures Entry() == e && observedPropertiesOriginal.None?
    {
      id := e.id;
      name := e.name;
      featureOfInterestIds := e.featureOfInterestIds;
      procedures := e.procedures;
      observedProperties := e.observedProperties;
      observedPropertiesOriginal := None;
    }

    function Entry(): OfferingEntry
      reads this
    {
      OfferingEntry(id, name, featureOfInterestIds, procedures, observedProperties)
    }

    function FilterState(): PropertyFilter
      reads this
    {
      PropertyFilter(observedProperties, observedPropertiesOriginal)
    }

    method GetFeatureOfInterestIds() returns (r: seq<string>)
      ensures r == Unique(featureOfInterestIds)
      ensures forall v :: v in r <==> v in featureOfInterestIds
    {
      r := GetUniqueList(featureOfInterestIds);
    }

    method GetProcedureIds() returns (r: seq<string>)
      ensures r == Unique(procedures)
      ensures forall v :: v in r <==> v in procedures
    {
      r := GetUniqueList(procedures);
    }

    method GetObservedPropertyIds() returns (r: seq<string>)
      ensures r == Unique(observedProperties)
      ensures forall v :: v in r <==> v in observedProperties
    {
      r := GetUniqueList(observedProperties);
    }

    /** The short names of the distinct observed properties, in first-occurrence order. */
    method GetObservedPropertyNames() returns (r: seq<string>)
      ensures |r| == |Unique(observedProperties)|
      ensures forall i :: 0 <= i < |r| ==> r[i] == UrnToName(Unique(observedProperties)[i])
    {
      var u := GetUniqueList(observedProperties);
      r := ElementWise(UrnToName, u);
    }

    /** `filterObservedProperties`, with a single name passed as a one-element list. */
    method FilterObservedProperties(names: seq<string>)
      modifies this
      ensures FilterState() == Filtered(old(FilterState()), names)
      ensures Entry().(observedProperties := old(observedProperties)) == old(Entry())
    {
      var master := if observedPropertiesOriginal.Some? then observedPropertiesOriginal.value else observedProperties;
      var urns := LookupUrnsFromNames(names, master);
      if observedPropertiesOriginal.None? {
        observedPropertiesOriginal := Some(observedProperties);
      }
      observedProperties := urns;
    }

    /** `unfilterObservedProperties`. */
    method UnfilterObservedProperties()
      modifies this
      ensures FilterState() == Unfiltered(old(FilterState()))
      ensures Entry().(observedProperties := old(observedProperties)) == old(Entry())
    {
      if observedPropertiesOriginal.Some? {
        observedProperties := observedPropertiesOriginal.value;
        observedPropertiesOriginal := None;
      }
    }
  }

  // ---------------------------------------------------------------------
  // SOS

  /** A client: the parsed capabilities and observations, and the chosen response format. */
  class Sos {
    var capabilities: Option<Capabilities>
    var responseFormat: string
    var observations: Option<Observations>

    constructor (responseFormat: string)
      ensures this.responseFormat == responseFormat
      ensures capabilities.None? && observations.None?
    {
      this.responseFormat := responseFormat;
      capabilities := None;
      observations := None;
    }

    /** `setObservationResponseFormatFromTypeSuggestion`: the first allowed format containing `t`. */
    method SetObservationResponseFormatFromTypeSuggestion(t: string)
      modifies this
      ensures capabilities == old(capabilities) && observations == old(observations)
      ensures responseFormat == SuggestedFormat(old(capabilities), t, old(responseFormat))
    {
      if capabilities.Some? {
        var formats := capabilities.value.responseFormats;
        var i := 0;
        while i < |formats|
          invariant 0 <= i <= |formats|
          invariant responseFormat == old(responseFormat)
          invariant FirstContaining(formats, t, 0) == FirstContaining(formats, t, i)
        {
          if Contains(formats[i], t) {
            responseFormat := formats[i];
            break;
          }
          i := i + 1;
        }
      }
    }

    method GetOfferingIds() returns (ids: seq<string>)
      ensures capabilities.None? ==> ids == []
      ensures capabilities.Some? ==>
        |ids| == |capabilities.value.offerings| &&
        forall k :: 0 <= k < |ids| ==> ids[k] == capabilities.value.offerings[k].id
    {
      ids := [];
      if capabilities.Some? {
        var es := capabilities.value.offerings;
        for i := 0 to |es|
          invariant |ids| == i
          invariant forall k :: 0 <= k < i ==> ids[k] == es[k].id
        {
          ids := ids + [es[i].id];
        }
      }
    }

    method GetOfferingNames() returns (names: seq<string>)
      ensures capabilities.None? ==> names == []
      ensures capabilities.Some? ==>
        |names| == |capabilities.value.offerings| &&
        forall k :: 0 <= k < |names| ==> names[k] == capabilities.value.offerings[k].name
    {
      names := [];
      if capabilities.Some? {
        var es := capabilities.value.offerings;
        for i := 0 to |es|
          invariant |names| == i
          invariant forall k :: 0 <= k < i ==> names[k] == es[k].name
        {
          names := names + [es[i].name];
        }
      }
    }

    /** `getOffering`: a new offering object for the entry keyed `id`, if there is one. */
    method GetOffering(id: string) returns (o: Option<Offering>)
      ensures o.Some? <==> capabilities.Some? && FindOffering(capabilities.value.offerings, id, 0).Some?
      ensures o.Some? ==>
        fresh(o.value) && o.value.observedPropertiesOriginal.None? &&
        o.value.Entry() == capabilities.value.offerings[FindOffering(capabilities.value.offerings, id, 0).value]
    {
      o := None;
      if capabilities.Some? {
        var k := FindOffering(capabilities.value.offerings, id, 0);
        if k.Some? {
          var off := new Offering(capabilities.value.offerings[k.value]);
          o := Some(off);
        }
      }
    }

    /** `getFeatureOfInterestIds`: every offering's features of interest, without repeats. */
    method GetFeatureOfInterestIds() returns (r: seq<string>)
      ensures capabilities.None? ==> r == []
      ensures capabilities.Some? ==> r == Unique(AllFois(capabilities.value.offerings))
      ensures capabilities.Some? ==> forall v :: v in r <==>
        exists k :: 0 <= k < |capabilities.value.offerings| && v in capabilities.value.offerings[k].featureOfInterestIds
    {
      r := [];
      if capabilities.Some? {
        var es := capabilities.value.offerings;
        for i := 0 to |es|
          invariant r == AllFois(es[..i])
        {
          assert es[..i + 1][..i] == es[..i];
          r := r + es[i].featureOfInterestIds;
        }
        assert es[..|es|] == es;
        r := GetUniqueList(r);
        forall v
          ensures v in r <==> exists k :: 0 <= k < |es| && v in es[k].featureOfInterestIds
        {
          AllFoisMembership(es, v);
        }
      }
    }

    /** `getOfferingsForFeatureOfInterestId`: new offering objects for the entries that list `foi`. */
    method GetOfferingsForFeatureOfInterestId(foi: string) returns (r: seq<Offering>)
      ensures capabilities.None? ==> r == []
      ensures capabilities.Some? ==>
        |r| == |OfferingsWithFoi(capabilities.value.offerings, foi)| &&
        forall k :: 0 <= k < |r| ==>
          fresh(r[k]) && r[k].Entry() == OfferingsWithFoi(capabilities.value.offerings, foi)[k]
    {
      r := [];
      if capabilities.Some? {
        var es := capabilities.value.offerings;
        for i := 0 to |es|
          invariant |r| == |OfferingsWithFoi(es[..i], foi)|
          invariant forall k :: 0 <= k < |r| ==> fresh(r[k]) && r[k].Entry() == OfferingsWithFoi(es[..i], foi)[k]
        {
          assert es[..i + 1][..i] == es[..i];
          if foi in es[i].featureOfInterestIds {
            var off := new Offering(es[i]);
            r := r + [off];
          }
        }
        assert es[..|es|] == es;
      }
    }

    /** `getCountOfObservations`. */
    method GetCountOfObservations() returns (n: nat)
      ensures observations.None? ==> n == 0
      ensures observations.Some? && observations.value.measurements.None? ==> n == 0
      ensures observations.Some? && observations.value.measurements.Some? ==>
        n == |observations.value.measurements.value|
    {
      n := 0;
      if observations.Some? && observations.value.measurements.Some? {
        n := |observations.value.measurements.value|;
      }
    }

    /**
     * `getObservationRecord`: an empty record when there are no
     * observations; the record at `i` with its convenience properties; or
     * the `TypeError` the source throws when there is no record at `i`.
     */
    method GetObservationRecord(i: nat) returns (r: Result<Option<ObservationRecord>>)
      ensures observations.None? ==> r == Success(None)
      ensures observations.Some? ==>
        match observations.value.measurements
        case None => r.Failure?
        case Some(ms) => if i < |ms| then r == Success(Some(RecordOf(ms[i]))) else r.Failure?
    {
      if observations.None? {
        return Success(None);
      }
      match observations.value.measurements
      case None =>
        r := Failure("TypeError: the measurements are undefined");
      case Some(ms) =>
        if i < |ms| {
          r := Success(Some(RecordOf(ms[i])));
        } else {
          r := Failure("TypeError: the record is undefined");
        }
    }
  }
}

=== FILE: sos_names.dfy ===
/**
 * The string helpers of `SOS.Utils` that turn observed-property URNs and
 * unit codes into display text, look a URN up from its short name, and
 * remove duplicates from a list.
 */
module SosNames {
  import opened Wrappers
  import opened Text

  // ---------------------------------------------------------------------
  // urnToName

  /** Length of the first line of `s`: the span the regex `^.*` can cover. */
  function FirstLineEnd(s: string): (k: nat)
    ensures k <= |s|
    ensures forall i :: 0 <= i < k ==> !IsLineTerminator(s[i])
    ensures k < |s| ==> IsLineTerminator(s[k])
  {
    if |s| == 0 || IsLineTerminator(s[0]) then 0 else 1 + FirstLineEnd(s[1..])
  }

  /** The index of the last `c` in `s`, if any. */
  function LastIndexOfChar(s: string, c: char): (r: Option<nat>)
    ensures r.Some? ==> r.value < |s| && s[r.value] == c && c !in s[r.value + 1..]
    ensures r.None? ==> c !in s
  {
    if |s| == 0 then None
    else if s[|s| - 1] == c then Some(|s| - 1)
    else
      var r := LastIndexOfChar(s[..|s| - 1], c);
      assert r.Some? ==> s[r.value + 1..] == s[..|s| - 1][r.value + 1..] + [s[|s| - 1]];
      assert r.None? ==> s == s[..|s| - 1] + [s[|s| - 1]];
      r
  }

  /** `x.replace(/^.*:/, "")`: drop everything up to and including the last colon of the first line. */
  function UrnToName(urn: string): string
  {
    var k := FirstLineEnd(urn);
    match LastIndexOfChar(urn[..k], ':')
    case None => urn
    case Some(p) => urn[p + 1..]
  }

  /**
   * The name is a suffix of the URN; it is the URN itself exactly when the
   * first line has no colon; otherwise the dropped part ends in a colon.
   */
  lemma UrnToNameShape(urn: string)
    ensures |UrnToName(urn)| <= |urn| && UrnToName(urn) == urn[|urn| - |UrnToName(urn)|..]
    ensures UrnToName(urn) == urn <==> ':' !in urn[..FirstLineEnd(urn)]
    ensures UrnToName(urn) != urn ==> urn[|urn| - |UrnToName(urn)| - 1] == ':'
  {
    var k := FirstLineEnd(urn);
    var line := urn[..k];
    match LastIndexOfChar(line, ':')
    case None =>
      assert UrnToName(urn) == urn;
    case Some(p) =>
      var name := urn[p + 1..];
      assert UrnToName(urn) == name;
      assert line[p] == ':' && urn[p] == ':';
      assert |name| == |urn| - p - 1;
  }

  /** The name of a one-line URN has no colon left. */
  lemma OneLineNameHasNoColon(urn: string)
    requires forall i :: 0 <= i < |urn| ==> !IsLineTerminator(urn[i])
    ensures ':' !in UrnToName(urn)
  {
    var k := FirstLineEnd(urn);
    assert k == |urn|;
    assert urn[..k] == urn;
    match LastIndexOfChar(urn, ':')
    case None =>
    case Some(p) =>
      assert UrnToName(urn) == urn[p + 1..];
  }

  /** The name of a one-line URN is the part after its last colon. */
  lemma UrnToNameOfQualified(prefix: string, name: string)
    requires ':' !in name
    requires forall i :: 0 <= i < |prefix + [':'] + name| ==> !IsLineTerminator((prefix + [':'] + name)[i])
    ensures UrnToName(prefix + [':'] + name) == name
  {
    var s := prefix + [':'] + name;
    var c := |prefix|;
    assert s[c] == ':';
    assert FirstLineEnd(s) == |s|;
    assert s[..|s|] == s;
    match LastIndexOfChar(s, ':')
    case None =>
      assert false;
    case Some(p) =>
      assert s[c + 1..] == name;
  }

  // ---------------------------------------------------------------------
  // toDisplayName

  /** `x.replace(/_/g, " ")`: every underscore becomes a space, nothing else moves. */
  function ToDisplayName(s: string): (r: string)
    ensures |r| == |s|
    ensures forall i :: 0 <= i < |s| ==> r[i] == (if s[i] == '_' then ' ' else s[i])
  {
    if |s| == 0 then "" else [if s[0] == '_' then ' ' else s[0]] + ToDisplayName(s[1..])
  }

  /** Two underscore-free words joined by `_` display as the words joined by a space. */
  lemma ToDisplayNameOfPair(p: string, q: string)
    requires '_' !in p && '_' !in q
    ensures ToDisplayName(p + ['_'] + q) == p + [' '] + q
  {
    var s := p + ['_'] + q;
    var e := p + [' '] + q;
    var r := ToDisplayName(s);
    forall i | 0 <= i < |s|
      ensures r[i] == e[i]
    {
      if i < |p| {
        assert s[i] == p[i] && e[i] == p[i];
      } else if i > |p| {
        assert s[i] == q[i - |p| - 1] && e[i] == q[i - |p| - 1];
      }
    }
    assert r == e;
  }

  // ---------------------------------------------------------------------
  // toTitleCase

  /** `w.replace(/^(.)/, upper)`: the first character, unless it ends a line, is upper-cased. */
  function Capitalize(w: string): string
  {
    if |w| > 0 && !IsLineTerminator(w[0]) then [UpperAscii(w[0])] + w[1..] else w
  }

  function CapitalizeAll(ws: seq<string>): (r: seq<string>)
    ensures |r| == |ws|
    ensures forall i :: 0 <= i < |ws| ==> r[i] == Capitalize(ws[i])
  {
    if |ws| == 0 then [] else [Capitalize(ws[0])] + CapitalizeAll(ws[1..])
  }

  /** `x.split(/ /)`, capitalize each piece, `join(" ")`. */
  function ToTitleCase(s: string): string
  {
    Join(CapitalizeAll(Split(s, ' ')), ' ')
  }

  /** Position `i` of `s` begins a word: it is the first character or follows a space. */
  predicate StartsWord(s: string, i: nat)
    requires i < |s|
  {
    i == 0 || s[i - 1] == ' '
  }

  /** Every piece but the first capitalized, then joined. */
  function CapitalizeAfterSpaces(s: string): string
  {
    var parts := Split(s, ' ');
    Join([parts[0]] + CapitalizeAll(parts[1..]), ' ')
  }

  /** Capitalizing a word followed by a space and more text touches only the word. */
  lemma CapitalizeBeforeSpace(w: string, rest: string)
    ensures Capitalize(w + [' '] + rest) == Capitalize(w) + [' '] + rest
  {
    var t := w + [' '] + rest;
    if |w| == 0 {
      assert t == [' '] + rest;
    } else if IsLineTerminator(w[0]) {
      assert t[0] == w[0];
    } else {
      assert t[0] == w[0];
      assert Capitalize(t) == [UpperAscii(w[0])] + t[1..];
      assert t[1..] == w[1..] + [' '] + rest;
    }
  }

  lemma CapitalizeJoin(parts: seq<string>)
    requires |parts| >= 1
    ensures Join(CapitalizeAll(parts), ' ') == Capitalize(Join([parts[0]] + CapitalizeAll(parts[1..]), ' '))
  {
    var all := CapitalizeAll(parts);
    var ps := [parts[0]] + CapitalizeAll(parts[1..]);
    if |parts| > 1 {
      assert all[1..] == CapitalizeAll(parts[1..]) == ps[1..];
      var tail := Join(ps[1..], ' ');
      assert Join(ps, ' ') == parts[0] + [' '] + tail;
      assert Join(all, ' ') == Capitalize(parts[0]) + [' '] + tail;
      CapitalizeBeforeSpace(parts[0], tail);
    }
  }

  /** One character of `CapitalizeAfterSpaces`: a leading space capitalizes what follows it. */
  lemma CapitalizeAfterSpacesStep(s: string)
    requires |s| > 0
    ensures CapitalizeAfterSpaces(s) ==
      if s[0] == ' ' then [' '] + Capitalize(CapitalizeAfterSpaces(s[1..]))
      else [s[0]] + CapitalizeAfterSpaces(s[1..])
  {
    var q := Split(s[1..], ' ');
    if s[0] == ' ' {
      assert Split(s, ' ') == [""] + q;
      assert ([""] + q)[1..] == q;
      var ps := [""] + CapitalizeAll(q);
      assert ps[1..] == CapitalizeAll(q);
      assert Join(ps, ' ') == [' '] + Join(CapitalizeAll(q), ' ');
      CapitalizeJoin(q);
    } else {
      assert Split(s, ' ') == [[s[0]] + q[0]] + q[1..];
      JoinCons(s[0], q[0], CapitalizeAll(q[1..]), ' ');
    }
  }

  lemma {:induction false} CapitalizeAfterSpacesChars(s: string)
    ensures |CapitalizeAfterSpaces(s)| == |s|
    ensures forall i :: 0 <= i < |s| ==>
      CapitalizeAfterSpaces(s)[i] ==
        (if i > 0 && s[i - 1] == ' ' && !IsLineTerminator(s[i]) then UpperAscii(s[i]) else s[i])
  {
    if |s| > 0 {
      var t := s[1..];
      CapitalizeAfterSpacesChars(t);
      CapitalizeAfterSpacesStep(s);
      var after := CapitalizeAfterSpaces(t);
      var r := CapitalizeAfterSpaces(s);
      forall i | 0 <= i < |s|
        ensures r[i] == (if i > 0 && s[i - 1] == ' ' && !IsLineTerminator(s[i]) then UpperAscii(s[i]) else s[i])
      {
        if i > 0 {
          assert t[i - 1] == s[i];
          if s[0] == ' ' {
            var c := Capitalize(after);
            assert r[i] == c[i - 1];
            if i > 1 {
              assert c[i - 1] == after[i - 1];
              assert t[i - 2] == s[i - 1];
            }
          } else {
            assert r[i] == after[i - 1];
            if i > 1 {
              assert t[i - 2] == s[i - 1];
            }
          }
        }
      }
    }
  }

  /**
   * Title case character by character: a character is upper-cased exactly
   * when it begins a word and does not end a line; the length is kept.
   */
  lemma ToTitleCaseChars(s: string)
    ensures |ToTitleCase(s)| == |s|
    ensures forall i :: 0 <= i < |s| ==>
      ToTitleCase(s)[i] == (if StartsWord(s, i) && !IsLineTerminator(s[i]) then UpperAscii(s[i]) else s[i])
  {
    CapitalizeJoin(Split(s, ' '));
    CapitalizeAfterSpacesChars(s);
  }

  // ---------------------------------------------------------------------
  // toDisplayUom

  /** `uomDisplayTitles`: UCUM codes with a nicer HTML rendering. */
  const UomDisplayTitles: map<string, string> := map["Cel" := "&deg;C", "m/s" := "m s<sup>-1</sup>"]

  /** Celsius and metres per second get their HTML titles; every other code is shown as it is. */
  function ToDisplayUom(uom: string): (title: string)
    ensures uom == "Cel" ==> title == "&deg;C"
    ensures uom == "m/s" ==> title == "m s<sup>-1</sup>"
    ensures uom != "Cel" && uom != "m/s" ==> title == uom
  {
    if uom in UomDisplayTitles then UomDisplayTitles[uom] else uom
  }

  // ---------------------------------------------------------------------
  // element-wise application to arrays

  /** The array branch of the helpers: apply `f` to each element, keeping order. */
  method ElementWise<T, U>(f: T -> U, x: seq<T>) returns (y: seq<U>)
    ensures |y| == |x|
    ensures forall i :: 0 <= i < |x| ==> y[i] == f(x[i])
  {
    y := [];
    for i := 0 to |x|
      invariant |y| == i
      invariant forall k :: 0 <= k < i ==> y[k] == f(x[k])
    {
      y := y + [f(x[i])];
    }
  }

  // ---------------------------------------------------------------------
  // lookupUrnFromName

  /** The short name of each URN of `master`, in order. */
  function ShortNames(master: seq<string>): (names: seq<string>)
    ensures |names| == |master|
    ensures forall j :: 0 <= j < |master| ==> names[j] == UrnToName(master[j])
  {
    seq(|master|, j requires 0 <= j < |master| => UrnToName(master[j]))
  }

  /** The first index of `names`, at or after `from`, holding `name`. */
  function FirstNamed(name: string, names: seq<string>, from: nat): (r: Option<nat>)
    requires from <= |names|
    ensures r.Some? ==> from <= r.value < |names| && names[r.value] == name
    ensures r.Some? ==> forall j :: from <= j < r.value ==> names[j] != name
    ensures r.None? ==> forall j :: from <= j < |names| ==> names[j] != name
    decreases |names| - from
  {
    if from == |names| then None
    else if names[from] == name then Some(from)
    else FirstNamed(name, names, from + 1)
  }

  /** The first URN of `master` whose short name is `name`, or `name` itself when none has it. */
  function UrnForName(name: string, master: seq<string>): string
  {
    match FirstNamed(name, ShortNames(master), 0)
    case None => name
    case Some(i) => master[i]
  }

  /** The loop of `lookupUrnFromName` for one name: stops at the first match. */
  method LookupUrnFromName(name: string, master: seq<string>) returns (urn: string)
    ensures urn == UrnForName(name, master)
  {
    urn := name;
    var i := 0;
    ghost var names := ShortNames(master);
    while i < |master|
      invariant 0 <= i <= |master|
      invariant urn == name
      invariant FirstNamed(name, names, 0) == FirstNamed(name, names, i)
    {
      if UrnToName(master[i]) == name {
        urn := master[i];
        break;
      }
      i := i + 1;
    }
  }

  /** Each name of `names` resolved against `master`. */
  function UrnsForNames(names: seq<string>, master: seq<string>): (urns: seq<string>)
    ensures |urns| == |names|
    ensures forall i :: 0 <= i < |names| ==> urns[i] == UrnForName(names[i], master)
  {
    seq(|names|, i requires 0 <= i < |names| => UrnForName(names[i], master))
  }

  /**
   * A full URN (it has a colon) never equals the short name of a one-line
   * master URN, so it resolves to itself: the list may mix URNs and names.
   */
  lemma UrnResolvesToItself(urn: string, master: seq<string>)
    requires ':' in urn
    requires forall j, i :: 0 <= j < |master| && 0 <= i < |master[j]| ==> !IsLineTerminator(master[j][i])
    ensures UrnForName(urn, master) == urn
  {
    match FirstNamed(urn, ShortNames(master), 0)
    case None =>
    case Some(j) =>
      OneLineNameHasNoColon(master[j]);
      assert false;
  }

  /** `lookupUrnFromName` given an array of names: each name looked up on its own. */
  method LookupUrnsFromNames(names: seq<string>, master: seq<string>) returns (urns: seq<string>)
    ensures |urns| == |names|
    ensures forall i :: 0 <= i < |names| ==> urns[i] == UrnForName(names[i], master)
  {
    urns := [];
    for i := 0 to |names|
      invariant |urns| == i
      invariant forall k :: 0 <= k < i ==> urns[k] == UrnForName(names[k], master)
    {
      var u := LookupUrnFromName(names[i], master);
      var prev := urns;
      urns := urns + [u];
      assert urns[..i] == prev && urns[i] == u;
    }
  }

  // ---------------------------------------------------------------------
  // getUniqueList

  /** The elements of `x` without repeats, each kept at its first occurrence. */
  function Unique<T(==)>(x: seq<T>): seq<T>
  {
    if |x| == 0 then []
    else
      var p := Unique(x[..|x| - 1]);
      if x[|x| - 1] in p then p else p + [x[|x| - 1]]
  }

  predicate Distinct<T(==)>(r: seq<T>)
  {
    forall i, j :: 0 <= i < j < |r| ==> r[i] != r[j]
  }

  lemma {:induction false} UniqueMembership<T>(x: seq<T>, v: T)
    ensures v in Unique(x) <==> v in x
  {
    if |x| > 0 {
      UniqueMembership(x[..|x| - 1], v);
      assert x == x[..|x| - 1] + [x[|x| - 1]];
    }
  }

  /**
   * `Unique(x)` has no repeats, holds exactly the values of `x`, and lists
   * them in order of first occurrence: wherever a later value occurs in
   * `x`, every earlier one has already occurred.
   */
  lemma {:induction false} UniqueProperties<T>(x: seq<T>)
    ensures Distinct(Unique(x))
    ensures forall v :: v in Unique(x) <==> v in x
    ensures forall i, j, q :: 0 <= i < j < |Unique(x)| && 0 <= q < |x| && x[q] == Unique(x)[j] ==>
      Unique(x)[i] in x[..q]
  {
    if |x| > 0 {
      var n := |x|;
      var init := x[..n - 1];
      UniqueProperties(init);
      var p := Unique(init);
      var r := Unique(x);
      assert x == init + [x[n - 1]];
      forall v ensures v in r <==> v in x {
        UniqueMembership(x, v);
      }
      forall i, j, q | 0 <= i < j < |r| && 0 <= q < n && x[q] == r[j]
        ensures r[i] in x[..q]
      {
        assert i < |p| && r[i] == p[i];
        if q < n - 1 {
          assert x[..q] == init[..q];
          assert init[q] == x[q];
          if j < |p| {
            assert r[j] == p[j];
            assert p[i] in init[..q];
          } else {
            assert false;
          }
        } else {
          assert x[..q] == init;
          UniqueMembership(init, p[i]);
        }
      }
    }
  }

  /** `getUniqueList`: keep an element only if it is not already in the output. */
  method GetUniqueList<T(==)>(x: seq<T>) returns (a: seq<T>)
    ensures a == Unique(x)
    ensures Distinct(a)
    ensures forall v :: v in a <==> v in x
  {
    a := [];
    for i := 0 to |x|
      invariant a == Unique(x[..i])
    {
      assert x[..i + 1][..i] == x[..i];
      if x[i] !in a {
        a := a + [x[i]];
      }
    }
    assert x[..|x|] == x;
    UniqueProperties(x);
  }
}

=== FILE: sos_stats.dfy ===
/**
 * The numeric helpers of `SOS.Utils`: summing, extracting a column of a
 * data table, summary statistics and a fixed-width histogram of a sample.
 *
 * Samples are exact reals; the source's floating-point rounding is not
 * modelled.
 */
module SosStats {

  /** One row of a data table, e.g. `[timestamp, value]`. */
  type Row = seq<real>

  // ---------------------------------------------------------------------
  // sum and extractColumn

  /** The sum of a sample, accumulated from the left. */
  function Total(x: seq<real>): real
  {
    if |x| == 0 then 0.0 else Total(x[..|x| - 1]) + x[|x| - 1]
  }

  lemma {:induction false} TotalAppend(a: seq<real>, b: seq<real>)
    ensures Total(a + b) == Total(a) + Total(b)
    decreases |b|
  {
    if |b| == 0 {
      assert a + b == a;
    } else {
      assert (a + b)[..|a + b| - 1] == a + b[..|b| - 1];
      TotalAppend(a, b[..|b| - 1]);
    }
  }

  /** `sum`: add the values in order. */
  method Sum(x: seq<real>) returns (y: real)
    ensures y == Total(x)
  {
    y := 0.0;
    for i := 0 to |x|
      invariant y == Total(x[..i])
    {
      assert x[..i + 1][..i] == x[..i];
      y := y + x[i];
    }
    assert x[..|x|] == x;
  }

  /** `extractColumn`: the `n`-th entry of every row, in row order. */
  method ExtractColumn(x: seq<Row>, n: nat) returns (y: seq<real>)
    requires forall i :: 0 <= i < |x| ==> n < |x[i]|
    ensures |y| == |x|
    ensures forall i :: 0 <= i < |x| ==> y[i] == x[i][n]
  {
    y := [];
    for i := 0 to |x|
      invariant |y| == i
      invariant forall k :: 0 <= k < i ==> y[k] == x[k][n]
    {
      y := y + [x[i][n]];
    }
  }

  // ---------------------------------------------------------------------
  // minimum, maximum, sorting

  predicate IsLeast(m: real, x: seq<real>)
  {
    m in x && forall i :: 0 <= i < |x| ==> m <= x[i]
  }

  predicate IsGreatest(m: real, x: seq<real>)
  {
    m in x && forall i :: 0 <= i < |x| ==> x[i] <= m
  }

  /** `Math.min.apply(null, x)` for a non-empty sample. */
  function Least(x: seq<real>): (m: real)
    requires |x| > 0
    ensures IsLeast(m, x)
  {
    if |x| == 1 then x[0]
    else
      var m := Least(x[..|x| - 1]);
      assert x == x[..|x| - 1] + [x[|x| - 1]];
      if x[|x| - 1] < m then x[|x| - 1] else m
  }

  /** `Math.max.apply(null, x)` for a non-empty sample. */
  function Greatest(x: seq<real>): (m: real)
    requires |x| > 0
    ensures IsGreatest(m, x)
  {
    if |x| == 1 then x[0]
    else
      var m := Greatest(x[..|x| - 1]);
      assert x == x[..|x| - 1] + [x[|x| - 1]];
      if x[|x| - 1] > m then x[|x| - 1] else m
  }

  /** Samples holding the same values have the same least and greatest value. */
  lemma {:induction false} ExtremesOfPermutation(a: seq<real>, b: seq<real>)
    requires |a| > 0 && multiset(a) == multiset(b)
    ensures |b| == |a|
    ensures Least(a) == Least(b) && Greatest(a) == Greatest(b)
  {
    assert |b| == |multiset(b)| == |multiset(a)| == |a|;
    assert Least(a) in multiset(b) && Least(b) in multiset(a);
    assert Greatest(a) in multiset(b) && Greatest(b) in multiset(a);
  }

  predicate Sorted(s: seq<real>)
  {
    forall i, j :: 0 <= i < j < |s| ==> s[i] <= s[j]
  }

  /** Insert `v` before the first element it does not exceed. */
  function Insert(v: real, s: seq<real>): (r: seq<real>)
    ensures |r| == |s| + 1
  {
    if |s| == 0 || v <= s[0] then [v] + s else [s[0]] + Insert(v, s[1..])
  }

  /** Inserting into an ascending sample keeps it ascending. */
  lemma {:induction false} InsertSorted(v: real, s: seq<real>)
    requires Sorted(s)
    ensures Sorted(Insert(v, s))
  {
    var r := Insert(v, s);
    if |s| > 0 && v > s[0] {
      var t := Insert(v, s[1..]);
      InsertSorted(v, s[1..]);
      assert r == [s[0]] + t;
      assert t[0] >= s[0] by {
        if |s| > 1 && v > s[1] {
          assert t[0] == s[1..][0] == s[1];
        }
      }
      forall i, j | 0 <= i < j < |r|
        ensures r[i] <= r[j]
      {
        if i == 0 {
          assert r[j] == t[j - 1] && t[0] <= t[j - 1];
        } else {
          assert r[i] == t[i - 1] && r[j] == t[j - 1];
        }
      }
    } else {
      assert r == [v] + s;
      forall i, j | 0 <= i < j < |r|
        ensures r[i] <= r[j]
      {
        if i == 0 {
          assert r[j] == s[j - 1] && s[0] <= s[j - 1];
        } else {
          assert r[i] == s[i - 1] && r[j] == s[j - 1];
        }
      }
    }
  }

  /** Inserting adds exactly the one value. */
  lemma {:induction false} InsertMultiset(v: real, s: seq<real>)
    ensures multiset(Insert(v, s)) == multiset(s) + multiset{v}
  {
    if |s| > 0 && v > s[0] {
      InsertMultiset(v, s[1..]);
      assert s == [s[0]] + s[1..];
      assert Insert(v, s) == [s[0]] + Insert(v, s[1..]);
    } else {
      assert Insert(v, s) == [v] + s;
    }
  }

  /** `x.slice(0).sort((a, b) => a - b)`: sorting by insertion, one value at a time. */
  function SortedCopy(x: seq<real>): (r: seq<real>)
    ensures |r| == |x|
  {
    if |x| == 0 then [] else Insert(x[0], SortedCopy(x[1..]))
  }

  /** The copy is in ascending order and holds the same values as the sample. */
  lemma {:induction false} SortedCopyProperties(x: seq<real>)
    ensures Sorted(SortedCopy(x)) && multiset(SortedCopy(x)) == multiset(x)
  {
    if |x| > 0 {
      SortedCopyProperties(x[1..]);
      InsertSorted(x[0], SortedCopy(x[1..]));
      InsertMultiset(x[0], SortedCopy(x[1..]));
      assert x == [x[0]] + x[1..];
    }
  }

  /** `s.slice(a, b)` for non-negative bounds: both are clamped to the length. */
  function JsSlice<T>(s: seq<T>, a: nat, b: nat): (r: seq<T>)
    ensures |r| <= |s|
    ensures a <= b <= |s| ==> r == s[a..b]
    ensures var lo := if a < |s| then a else |s|;
            var hi := if b < |s| then b else |s|;
            r == if lo < hi then s[lo..hi] else []
    ensures forall i :: 0 <= i < |r| ==> r[i] in s
  {
    var lo := if a < |s| then a else |s|;
    var hi := if b < |s| then b else |s|;
    if lo < hi then s[lo..hi] else []
  }

  // ---------------------------------------------------------------------
  // computeStats

  /** The record `computeStats` returns; `sd`, a square root, is left out. */
  datatype Summary = Summary(
    n: nat,
    sum: real,
    min: real,
    max: real,
    mean: real,
    median: real,
    q1: real,
    q3: real,
    variance: real)

  /** The all-zero record returned for fewer than two values. */
  const ZeroSummary: Summary := Summary(0, 0.0, 0.0, 0.0, 0.0, 0.0, 0.0, 0.0, 0.0)

  /**
   * The rule `computeStats` uses for the median and both quartiles, with
   * `f` the floored index: for an even count, half the sum of
   * `sorted.slice(f, f + 2)`; for an odd count, `sorted[f + 1]`. The parity
   * checked is always that of the whole count.
   */
  function PickAt(sorted: seq<real>, f: nat): real
    requires |sorted| >= 2
    requires |sorted| % 2 == 1 ==> f + 1 < |sorted|
  {
    if |sorted| % 2 == 0 then Total(JsSlice(sorted, f, f + 2)) / 2.0 else sorted[f + 1]
  }

  /** The sum of squared deviations from `mean`. */
  function SquaredDeviations(x: seq<real>, mean: real): real
  {
    if |x| == 0 then 0.0
    else
      var d := x[|x| - 1] - mean;
      SquaredDeviations(x[..|x| - 1], mean) + d * d
  }

  /** For an odd count, every index `computeStats` reads lies inside the sorted copy. */
  lemma {:induction false} QuartileIndices(n: nat)
    requires n >= 2
    ensures n % 2 == 1 ==> n / 2 + 1 < n && n / 4 + 1 < n && 3 * (n / 4) + 1 < n
  {
    var f := n / 4;
    assert 4 * f <= n;
    assert n % 2 == 1 ==> 4 * f != n;
  }

  lemma {:induction false} SquaredDeviationsStep(x: seq<real>, i: nat, mean: real)
    requires i < |x|
    ensures SquaredDeviations(x[..i + 1], mean) == SquaredDeviations(x[..i], mean) + (x[i] - mean) * (x[i] - mean)
  {
    assert x[..i + 1][..i] == x[..i];
  }

  /** What `computeStats` returns for the sample `x`. */
  function SummaryOf(x: seq<real>): Summary
  {
    if |x| < 2 then ZeroSummary
    else
      var n := |x|;
      var sum := Total(x);
      var mean := sum / n as real;
      var sorted := SortedCopy(x);
      var f := n / 4;
      QuartileIndices(n);
      Summary(n, sum, Least(x), Greatest(x), mean,
              PickAt(sorted, n / 2), PickAt(sorted, f), PickAt(sorted, 3 * f),
              SquaredDeviations(x, mean) / (n - 1) as real)
  }

  method PickQuantile(sorted: seq<real>, f: nat) returns (v: real)
    requires |sorted| >= 2
    requires |sorted| % 2 == 1 ==> f + 1 < |sorted|
    ensures v == PickAt(sorted, f)
  {
    if |sorted| % 2 == 0 {
      var s := Sum(JsSlice(sorted, f, f + 2));
      v := s / 2.0;
    } else {
      v := sorted[f + 1];
    }
  }

  /** The variance loop of `computeStats`: squared deviations added in order. */
  method SumSquaredDeviations(x: seq<real>, mean: real) returns (t: real)
    ensures t == SquaredDeviations(x, mean)
  {
    t := 0.0;
    for i := 0 to |x|
      invariant t == SquaredDeviations(x[..i], mean)
    {
      SquaredDeviationsStep(x, i, mean);
      t := t + (x[i] - mean) * (x[i] - mean);
    }
    assert x[..|x|] == x;
  }

  /** `computeStats`. */
  method ComputeStats(x: seq<real>) returns (y: Summary)
    ensures y == SummaryOf(x)
  {
    y := ZeroSummary;
    if |x| > 1 {
      var n := |x|;
      var sum := Sum(x);
      var mean := sum / n as real;
      var min := Least(x);
      var max := Greatest(x);
      var sorted := SortedCopy(x);
      var median, q1, q3 := Quantiles(sorted);
      var t := SumSquaredDeviations(x, mean);
      y := Summary(n, sum, min, max, mean, median, q1, q3, t / (n - 1) as real);
    }
  }

  /** The median and quartile steps of `computeStats`, on the sorted copy. */
  method Quantiles(sorted: seq<real>) returns (median: real, q1: real, q3: real)
    requires |sorted| >= 2
    ensures (QuartileIndices(|sorted|);
      median == PickAt(sorted, |sorted| / 2) &&
      q1 == PickAt(sorted, |sorted| / 4) &&
      q3 == PickAt(sorted, 3 * (|sorted| / 4)))
  {
    var n := |sorted|;
    QuartileIndices(n);
    var f := n / 2;
    median := PickQuantile(sorted, f);
    f := n / 4;
    q1 := PickQuantile(sorted, f);
    f := f * 3;
    q3 := PickQuantile(sorted, f);
  }

  lemma {:induction false} TotalBounds(x: seq<real>, lo: real, hi: real)
    requires forall i :: 0 <= i < |x| ==> lo <= x[i] <= hi
    ensures |x| as real * lo <= Total(x) <= |x| as real * hi
  {
    if |x| > 0 {
      TotalBounds(x[..|x| - 1], lo, hi);
      assert |x| as real * lo == (|x| - 1) as real * lo + lo;
      assert |x| as real * hi == (|x| - 1) as real * hi + hi;
    }
  }

  lemma {:induction false} SquaredDeviationsNonNegative(x: seq<real>, mean: real)
    ensures SquaredDeviations(x, mean) >= 0.0
  {
    if |x| > 0 {
      SquaredDeviationsNonNegative(x[..|x| - 1], mean);
      var d := x[|x| - 1] - mean;
      assert d * d >= 0.0;
    }
  }

  lemma {:induction false} MeanBetween(total: real, n: real, lo: real, hi: real)
    requires n > 0.0 && n * lo <= total <= n * hi
    ensures lo <= total / n <= hi
  {
    var m := total / n;
    assert m * n == total;
    assert (m - lo) * n == total - n * lo;
    assert (hi - m) * n == n * hi - total;
  }

  lemma {:induction false} MeanOfSample(x: seq<real>)
    requires |x| > 0
    ensures Least(x) <= Total(x) / |x| as real <= Greatest(x)
  {
    var lo := Least(x);
    var hi := Greatest(x);
    var total := Total(x);
    TotalBounds(x, lo, hi);
    MeanBetween(total, |x| as real, lo, hi);
  }

  /**
   * For two or more values: the count and sum are those of the sample, the
   * minimum and maximum are sample values bounding every value, and the
   * mean lies between them.
   */
  lemma {:induction false} SummaryBounds(x: seq<real>)
    requires |x| >= 2
    ensures SummaryOf(x).n == |x| && SummaryOf(x).sum == Total(x)
    ensures SummaryOf(x).min in x && SummaryOf(x).max in x
    ensures forall i :: 0 <= i < |x| ==> SummaryOf(x).min <= x[i] <= SummaryOf(x).max
    ensures SummaryOf(x).min <= SummaryOf(x).mean <= SummaryOf(x).max
  {
    MeanOfSample(x);
  }

  /** The sample variance is never negative. */
  lemma {:induction false} SummaryVarianceNonNegative(x: seq<real>)
    ensures SummaryOf(x).variance >= 0.0
  {
    if |x| >= 2 {
      var s := SummaryOf(x);
      var n := |x| as real;
      SquaredDeviationsNonNegative(x, s.mean);
      var t := SquaredDeviations(x, s.mean);
      assert s.variance == t / (n - 1.0);
    }
  }

  /** For an odd count the median and both quartiles are values of the sample. */
  lemma {:induction false} OddQuantilesAreSamples(x: seq<real>)
    requires |x| >= 3 && |x| % 2 == 1
    ensures SummaryOf(x).median == SortedCopy(x)[|x| / 2 + 1]
    ensures SummaryOf(x).median in x && SummaryOf(x).q1 in x && SummaryOf(x).q3 in x
  {
    var sorted := SortedCopy(x);
    SortedCopyProperties(x);
    var n := |x|;
    QuartileIndices(n);
    var s := SummaryOf(x);
    assert s.median == sorted[n / 2 + 1];
    assert s.q1 == sorted[n / 4 + 1];
    assert s.q3 == sorted[3 * (n / 4) + 1];
    assert sorted[n / 2 + 1] in multiset(x);
    assert sorted[n / 4 + 1] in multiset(x);
    assert sorted[3 * (n / 4) + 1] in multiset(x);
  }

  lemma {:induction false} SortedPair(a: real, b: real)
    ensures SortedCopy([a, b]) == if a <= b then [a, b] else [b, a]
  {
    assert [a, b][1..] == [b];
    assert [b][1..] == [];
    assert SortedCopy([b]) == [b];
    assert Insert(a, [b]) == if a <= b then [a, b] else [b, a];
  }

  /**
   * For two values, `slice(1, 3)` holds only the larger one, so the median
   * is half the maximum, while both quartiles are the mean.
   */
  lemma {:induction false} PairQuantiles(a: real, b: real)
    ensures SummaryOf([a, b]).median == (if a <= b then b else a) / 2.0
    ensures SummaryOf([a, b]).q1 == (a + b) / 2.0 && SummaryOf([a, b]).q3 == (a + b) / 2.0
  {
    var sorted := SortedCopy([a, b]);
    SortedPair(a, b);
    assert PickAt(sorted, 1) == (if a <= b then b else a) / 2.0 by {
      assert JsSlice(sorted, 1, 3) == [sorted[1]];
      assert Total([sorted[1]]) == sorted[1];
    }
    assert PickAt(sorted, 0) == (a + b) / 2.0 by {
      assert JsSlice(sorted, 0, 2) == sorted;
      assert Total(sorted) == a + b;
    }
    assert SummaryOf([a, b]).median == PickAt(sorted, 1);
    assert SummaryOf([a, b]).q1 == PickAt(sorted, 0) && SummaryOf([a, b]).q3 == PickAt(sorted, 0);
  }

  /** For [1, 2, 3] the median (3) exceeds the upper quartile (2). */
  lemma {:induction false} MedianAboveUpperQuartile()
    ensures SummaryOf([1.0, 2.0, 3.0]).median == 3.0
    ensures SummaryOf([1.0, 2.0, 3.0]).q3 == 2.0
  {
    var x := [1.0, 2.0, 3.0];
    assert x[1..] == [2.0, 3.0];
    SortedPair(2.0, 3.0);
    assert SortedCopy(x) == Insert(1.0, [2.0, 3.0]) == [1.0, 2.0, 3.0];
  }

  /** For [-4, -2] the median (-1) lies above the maximum (-2). */
  lemma {:induction false} MedianAboveMaximum()
    ensures SummaryOf([-4.0, -2.0]).median == -1.0
    ensures SummaryOf([-4.0, -2.0]).max == -2.0
  {
    PairQuantiles(-4.0, -2.0);
  }

  // ---------------------------------------------------------------------
  // computeHistogram

  /** `Math.ceil`. */
  function Ceil(r: real): (c: int)
    ensures r <= c as real < r + 1.0
  {
    -((-r).Floor)
  }

  /** The number of values below `b`. */
  function CountBelow(x: seq<real>, b: real): (k: nat)
    ensures k <= |x|
  {
    if |x| == 0 then 0 else (if x[0] < b then 1 else 0) + CountBelow(x[1..], b)
  }

  /** The number of values in `[lo, hi)`. */
  function CountIn(x: seq<real>, lo: real, hi: real): nat
  {
    if |x| == 0 then 0 else (if lo <= x[0] < hi then 1 else 0) + CountIn(x[1..], lo, hi)
  }

  /** A bin: its lower edge and the number of values counted in it. */
  datatype Bin = Bin(start: real, count: nat)

  /** The record `computeHistogram` returns. */
  datatype Histogram = Histogram(
    min: real,
    max: real,
    lower: int,
    upper: int,
    nBins: nat,
    binWidth: real,
    bins: seq<Bin>)

  /** The record returned for fewer than two values. */
  const EmptyHistogram: Histogram := Histogram(0.0, 0.0, 0, 0, 0, 0.0, [])

  /** The number of bins the width is derived from. */
  const BinsPerDecade: nat := 10

  function Pow10(e: nat): (p: nat)
    ensures p >= 1
  {
    if e == 0 then 1 else 10 * Pow10(e - 1)
  }

  lemma Pow10TwoSteps(n: nat)
    ensures Pow10(n) >= 1 && Pow10(n + 2) == 100 * Pow10(n)
  {
    assert Pow10(n + 2) == 10 * Pow10(n + 1);
  }

  function RoundedLog10From(sq: nat, e: nat): (r: nat)
    requires Pow10(2 * e) <= 10 * sq
    ensures Pow10(2 * r) <= 10 * sq < Pow10(2 * r + 2)
    decreases 10 * sq - Pow10(2 * e)
  {
    Pow10TwoSteps(2 * e);
    if 10 * sq < Pow10(2 * e + 2) then e else RoundedLog10From(sq, e + 1)
  }

  /**
   * `Math.round(Math.log(span) / Math.log(10))` for a positive whole span,
   * in exact arithmetic: `r` rounds `log10(span)` to the nearest integer,
   * which squared and scaled by ten reads `10^(2r) <= 10 span^2 < 10^(2r + 2)`.
   */
  function RoundedLog10(span: nat): (r: nat)
    requires span >= 1
    ensures Pow10(2 * r) <= 10 * (span * span) < Pow10(2 * r + 2)
  {
    RoundedLog10From(span * span, 0)
  }

  /** The bin width: the power of ten nearest the span, over the number of bins. */
  function BinWidth(span: nat): (w: real)
    requires span >= 1
    ensures w > 0.0
  {
    Pow10(RoundedLog10(span)) as real / BinsPerDecade as real
  }

  /** A span of 4 rounds up to ten (width 1); a span of 3 rounds down to one (width 0.1). */
  lemma BinWidthExamples()
    ensures BinWidth(4) == 1.0 && BinWidth(3) == 0.1 && BinWidth(32) == 10.0
  {
    assert Pow10(2) == 100 && Pow10(4) == 10000 && Pow10(6) == 1000000;
    assert RoundedLog10(4) == 1;
    assert RoundedLog10(3) == 0;
    assert RoundedLog10(32) == 2;
  }

  /** The lower edge of bin `k`: `lower` plus `k` steps of `w`. */
  function BinStart(lower: int, k: nat, w: real): real
  {
    if k == 0 then lower as real else BinStart(lower, k - 1, w) + w
  }

  lemma {:induction false} BinStartFormula(lower: int, k: nat, w: real)
    ensures BinStart(lower, k, w) == lower as real + k as real * w
  {
    if k > 0 {
      BinStartFormula(lower, k - 1, w);
      var kr := k as real;
      assert (k - 1) as real == kr - 1.0;
      assert (kr - 1.0) * w + w == kr * w;
    }
  }

  /** Bin `k` starts at `BinStart(lower, k, w)` and counts the values in `[start, start + w)`. */
  predicate CountsBins(bins: seq<Bin>, x: seq<real>, lower: int, w: real)
  {
    forall k :: 0 <= k < |bins| ==>
      bins[k] == Bin(BinStart(lower, k, w), CountIn(x, BinStart(lower, k, w), BinStart(lower, k, w) + w))
  }

  /** The last bin starts below `upper` and one more would not. */
  predicate ReachesUpper(bins: seq<Bin>, lower: int, upper: int, w: real)
  {
    (|bins| > 0 ==> bins[|bins| - 1].start < upper as real) &&
    BinStart(lower, |bins|, w) >= upper as real
  }

  /**
   * What `computeHistogram` returns for `x`: nothing for fewer than two
   * values; otherwise the extremes, their floor and ceiling, ten nominal
   * bins and, when that range is not empty, bins of the rounded width from
   * `lower` for as long as their start is below `upper`.
   */
  predicate IsHistogramOf(h: Histogram, x: seq<real>)
  {
    if |x| < 2 then h == EmptyHistogram
    else
      h.min == Least(x) && h.max == Greatest(x) &&
      h.lower == h.min.Floor && h.upper == Ceil(h.max) && h.nBins == BinsPerDecade &&
      BinsFit(h.bins, x, h.lower, h.upper, h.binWidth)
  }

  /**
   * Over a non-empty range `[lower, upper)` the width is `BinWidth` and the
   * bins count `x` and reach `upper`; over an empty range there are none.
   */
  predicate BinsFit(bins: seq<Bin>, x: seq<real>, lower: int, upper: int, binWidth: real)
  {
    if upper - lower > 0 then
      binWidth == BinWidth(upper - lower) &&
      CountsBins(bins, x, lower, binWidth) &&
      ReachesUpper(bins, lower, upper, binWidth)
    else
      binWidth == 0.0 && bins == []
  }

  lemma {:induction false} CountBelowOfInsert(v: real, s: seq<real>, b: real)
    ensures CountBelow(Insert(v, s), b) == CountBelow(s, b) + (if v < b then 1 else 0)
  {
    if |s| > 0 && v > s[0] {
      CountBelowOfInsert(v, s[1..], b);
      assert ([s[0]] + Insert(v, s[1..]))[1..] == Insert(v, s[1..]);
    } else {
      assert ([v] + s)[1..] == s;
    }
  }

  /** Sorting does not change how many values lie below a bound. */
  lemma {:induction false} CountBelowOfSortedCopy(x: seq<real>, b: real)
    ensures CountBelow(SortedCopy(x), b) == CountBelow(x, b)
  {
    if |x| > 0 {
      CountBelowOfSortedCopy(x[1..], b);
      CountBelowOfInsert(x[0], SortedCopy(x[1..]), b);
    }
  }

  lemma {:induction false} CountInAsBelow(x: seq<real>, lo: real, hi: real)
    requires lo <= hi
    ensures CountIn(x, lo, hi) == CountBelow(x, hi) - CountBelow(x, lo)
  {
    if |x| > 0 {
      CountInAsBelow(x[1..], lo, hi);
    }
  }

  /** In a sorted sample the values below `b` are exactly the first `CountBelow(s, b)`. */
  lemma {:induction false} SortedBelow(s: seq<real>, b: real)
    requires Sorted(s)
    ensures forall q :: 0 <= q < |s| ==> (s[q] < b <==> q < CountBelow(s, b))
  {
    if |s| > 0 {
      SortedBelow(s[1..], b);
      forall q | 0 <= q < |s|
        ensures s[q] < b <==> q < CountBelow(s, b)
      {
        if q > 0 {
          assert s[1..][q - 1] == s[q];
        }
        if s[0] >= b && |s| > 1 {
          assert s[1..][0] >= b;
        }
      }
    }
  }

  lemma {:induction false} CountBelowIsCursor(s: seq<real>, b: real, j: nat)
    requires Sorted(s) && j <= |s|
    requires forall q :: 0 <= q < j ==> s[q] < b
    requires j == |s| || s[j] >= b
    ensures CountBelow(s, b) == j
  {
    SortedBelow(s, b);
    var c := CountBelow(s, b);
    assert j <= c by {
      if j > 0 {
        assert s[j - 1] < b;
      }
    }
    assert c <= j by {
      if j < |s| {
        assert s[j] >= b;
      }
    }
  }

  lemma {:induction false} NoneBelow(x: seq<real>, b: real)
    requires forall q :: 0 <= q < |x| ==> b <= x[q]
    ensures CountBelow(x, b) == 0
  {
    if |x| > 0 {
      NoneBelow(x[1..], b);
    }
  }

  /** Every value lies below `b` exactly when all of them are counted. */
  lemma {:induction false} AllBelow(x: seq<real>, b: real)
    ensures CountBelow(x, b) == |x| <==> forall q :: 0 <= q < |x| ==> x[q] < b
  {
    if |x| > 0 {
      AllBelow(x[1..], b);
      if CountBelow(x, b) == |x| {
        forall q | 0 <= q < |x| ensures x[q] < b {
          if q > 0 {
            assert x[1..][q - 1] == x[q];
          }
        }
      }
    }
  }

  /** Bins of width `w` from `lower` reach `upper` after at most this many steps. */
  lemma {:induction false} StepsBound(k: nat, lower: int, upper: int, w: real)
    requires w > 0.0 && lower < upper && BinStart(lower, k, w) < upper as real
    ensures k <= ((upper - lower) as real / w).Floor
  {
    BinStartFormula(lower, k, w);
    var span := (upper - lower) as real;
    var q := span / w;
    assert q * w == span;
    var d := k as real - q;
    assert d * w == k as real * w - span;
    assert d * w < 0.0;
    assert d < 0.0;
  }

  lemma {:induction false} CountsBinsAppend(bins: seq<Bin>, x: seq<real>, lower: int, w: real, count: nat)
    requires CountsBins(bins, x, lower, w)
    requires count == CountIn(x, BinStart(lower, |bins|, w), BinStart(lower, |bins|, w) + w)
    ensures CountsBins(bins + [Bin(BinStart(lower, |bins|, w), count)], x, lower, w)
  {
    var r := bins + [Bin(BinStart(lower, |bins|, w), count)];
    forall k | 0 <= k < |r|
      ensures r[k] == Bin(BinStart(lower, k, w), CountIn(x, BinStart(lower, k, w), BinStart(lower, k, w) + w))
    {
      if k < |bins| {
        assert r[k] == bins[k];
      }
    }
  }

  /** A bin counted on the sorted copy, between two cursors, holds the values of `x` in its range. */
  lemma {:induction false} NextBin(x: seq<real>, sorted: seq<real>, bins: seq<Bin>, lower: int, w: real, j0: nat, j: nat)
    requires sorted == SortedCopy(x) && w > 0.0
    requires CountsBins(bins, x, lower, w)
    requires j0 == CountBelow(sorted, BinStart(lower, |bins|, w))
    requires j == CountBelow(sorted, BinStart(lower, |bins|, w) + w)
    ensures j0 <= j
    ensures CountsBins(bins + [Bin(BinStart(lower, |bins|, w), j - j0)], x, lower, w)
  {
    var lo := BinStart(lower, |bins|, w);
    CountInAsBelow(x, lo, lo + w);
    CountBelowOfSortedCopy(x, lo);
    CountBelowOfSortedCopy(x, lo + w);
    CountsBinsAppend(bins, x, lower, w, j - j0);
  }

  /**
   * The inner loop of `computeHistogram`: from the cursor `j0` (the values
   * below `lo`) move past the values below `hi`, counting them.
   */
  method CountBin(sorted: seq<real>, j0: nat, lo: real, hi: real) returns (count: nat, j: nat)
    requires Sorted(sorted) && lo <= hi && j0 == CountBelow(sorted, lo)
    ensures j == CountBelow(sorted, hi) && count == j - j0
  {
    count := 0;
    j := j0;
    SortedBelow(sorted, lo);
    while j < |sorted| && sorted[j] < hi
      invariant j0 <= j <= |sorted| && count == j - j0
      invariant forall q :: 0 <= q < j ==> sorted[q] < hi
    {
      count := count + 1;
      j := j + 1;
    }
    CountBelowIsCursor(sorted, hi, j);
  }

  /**
   * The bin loop of `computeHistogram`: one pass over the sorted values,
   * each bin taking the values below its upper edge that earlier bins left.
   */
  method FillBins(x: seq<real>, sorted: seq<real>, lower: int, upper: int, binWidth: real) returns (bins: seq<Bin>)
    requires sorted == SortedCopy(x) && Sorted(sorted)
    requires binWidth > 0.0 && lower < upper
    requires forall q :: 0 <= q < |sorted| ==> lower as real <= sorted[q]
    ensures CountsBins(bins, x, lower, binWidth) && ReachesUpper(bins, lower, upper, binWidth)
  {
    bins := [];
    var j := 0;
    var i := lower as real;
    NoneBelow(sorted, i);
    var steps := ((upper - lower) as real / binWidth).Floor;
    while i < upper as real
      invariant i == BinStart(lower, |bins|, binWidth)
      invariant |bins| > 0 ==> bins[|bins| - 1].start < upper as real
      invariant j == CountBelow(sorted, i)
      invariant CountsBins(bins, x, lower, binWidth)
      decreases steps - |bins|
    {
      StepsBound(|bins|, lower, upper, binWidth);
      var count, j' := CountBin(sorted, j, i, i + binWidth);
      NextBin(x, sorted, bins, lower, binWidth, j, j');
      bins := bins + [Bin(i, count)];
      j := j';
      i := i + binWidth;
    }
  }

  /** `computeHistogram`. */
  method ComputeHistogram(x: seq<real>) returns (h: Histogram)
    ensures IsHistogramOf(h, x)
  {
    h := EmptyHistogram;
    if |x| > 1 {
      var sorted := SortedCopy(x);
      assert Sorted(sorted) && |sorted| == |x| && Least(sorted) == Least(x) && Greatest(sorted) == Greatest(x) by {
        SortedCopyProperties(x);
        ExtremesOfPermutation(x, sorted);
      }
      var min := Least(sorted);
      var max := Greatest(sorted);
      var lower := min.Floor;
      var upper := Ceil(max);
      assert forall q :: 0 <= q < |sorted| ==> lower as real <= sorted[q];
      var binWidth, bins := BinsBetween(x, sorted, lower, upper);
      h := Histogram(min, max, lower, upper, BinsPerDecade, binWidth, bins);
    }
  }

  /** The bin width and the bins of `computeHistogram`, none when the range is empty. */
  method BinsBetween(x: seq<real>, sorted: seq<real>, lower: int, upper: int) returns (binWidth: real, bins: seq<Bin>)
    requires sorted == SortedCopy(x) && Sorted(sorted)
    requires forall q :: 0 <= q < |sorted| ==> lower as real <= sorted[q]
    ensures BinsFit(bins, x, lower, upper, binWidth)
  {
    binWidth := 0.0;
    bins := [];
    if upper - lower > 0 {
      binWidth := BinWidth(upper - lower);
      bins := FillBins(x, sorted, lower, upper, binWidth);
    }
  }

  /** The total of the bin counts. */
  function BinTotal(bins: seq<Bin>): nat
  {
    if |bins| == 0 then 0 else BinTotal(bins[..|bins| - 1]) + bins[|bins| - 1].count
  }

  lemma {:induction false} BinPrefixTotal(bins: seq<Bin>, x: seq<real>, lower: int, w: real, k: nat)
    requires w > 0.0 && CountsBins(bins, x, lower, w) && k <= |bins|
    requires forall q :: 0 <= q < |x| ==> lower as real <= x[q]
    ensures BinTotal(bins[..k]) == CountBelow(x, BinStart(lower, k, w))
  {
    if k == 0 {
      NoneBelow(x, lower as real);
    } else {
      BinPrefixTotal(bins, x, lower, w, k - 1);
      assert bins[..k][..k - 1] == bins[..k - 1];
      var lo := BinStart(lower, k - 1, w);
      CountInAsBelow(x, lo, lo + w);
    }
  }

  /**
   * The bins count every value below the end of the last bin, so at most
   * all of them; every value is counted exactly when the maximum lies
   * below that end (a maximum on the last edge is dropped).
   */
  lemma {:induction false} HistogramTotal(h: Histogram, x: seq<real>)
    requires IsHistogramOf(h, x) && |x| >= 2
    ensures BinTotal(h.bins) == CountBelow(x, BinStart(h.lower, |h.bins|, h.binWidth))
    ensures BinTotal(h.bins) <= |x|
    ensures BinTotal(h.bins) == |x| <==> h.max < BinStart(h.lower, |h.bins|, h.binWidth)
  {
    var end := BinStart(h.lower, |h.bins|, h.binWidth);
    if h.upper - h.lower > 0 {
      BinPrefixTotal(h.bins, x, h.lower, h.binWidth, |h.bins|);
      assert h.bins[..|h.bins|] == h.bins;
    } else {
      NoneBelow(x, h.lower as real);
    }
    AllBelow(x, end);
  }
}

=== FILE: sos_stuve.dfy ===
/**
 * The helpers of `SOS.Plot.Stuve`, the Stuve diagram of a radiosonde
 * ascent: the wind-barb decomposition of a wind speed, the pressure-axis
 * ticks, the altitude lookup for a pressure level, and the metadata the
 * plot keeps about its series.
 *
 * Canvas drawing is replaced by the list of marks it would draw; the
 * thermodynamic formulas and axis transforms are outside this model.
 */
module SosStuve {
  import opened Wrappers
  import opened SosStats
  import opened SosUi
  import SosTime

  // ---------------------------------------------------------------------
  // wind barbs

  /**
   * A mark on a wind barb: the shaft, a 50-knot flag whose tip is at
   * `end`, or a barb leaving the shaft at `end`.
   */
  datatype Mark =
    | Shaft(len: real)
    | Flag(end: real, height: real, base: real)
    | Barb(end: real, len: real, angle: real)

  /** The `windBarb` dimensions of the plot's format configuration. */
  datatype WindBarbFormat = WindBarbFormat(
    speeds: seq<real>,
    shaftLen: real,
    flagHeight: real,
    flagBase: real,
    flagSpace: real,
    barbSpace: real,
    barbAngle: real)

  /** The configured dimensions: flags of 50 knots, barbs of 10 and half-barbs of 5. */
  const DefaultWindBarb: WindBarbFormat := WindBarbFormat([50.0, 10.0, 5.0], 30.0, 10.0, 6.0, 6.0, 3.0, 28.0)

  /** Speeds the drawing loop terminates on: at least one, all positive. */
  predicate ValidWindBarb(wb: WindBarbFormat)
  {
    |wb.speeds| > 0 && forall i :: 0 <= i < |wb.speeds| ==> wb.speeds[i] > 0.0
  }

  /** `speedToBarbLength`: a third of the shaft for 10 knots, a sixth otherwise. */
  function BarbLength(wb: WindBarbFormat, s: real): real
  {
    if s == 10.0 then wb.shaftLen / 3.0 else wb.shaftLen / 6.0
  }

  /** The marks drawn so far, the speed still to draw and the current end of the shaft. */
  datatype Drawing = Drawing(marks: seq<Mark>, mag: real, end: real)

  /** One iteration of the inner loop: a flag while the speed reaches the first speed, else a barb. */
  function Step(wb: WindBarbFormat, d: Drawing, limit: real): Drawing
    requires |wb.speeds| > 0
  {
    if d.mag >= wb.speeds[0] then
      Drawing(d.marks + [Flag(d.end, wb.flagHeight, wb.flagBase)], d.mag - limit, d.end - wb.flagSpace)
    else
      Drawing(d.marks + [Barb(d.end, BarbLength(wb, limit), wb.barbAngle)], d.mag - limit, d.end - wb.barbSpace)
  }

  /** `n` iterations of the inner loop for one speed. */
  function Pass(wb: WindBarbFormat, d: Drawing, limit: real, n: int): Drawing
    requires |wb.speeds| > 0
    decreases n
  {
    if n <= 0 then d else Pass(wb, Step(wb, d, limit), limit, n - 1)
  }

  /** The outer loop from speed `i` on, each pass repeated `floor(mag / speed)` times. */
  function Passes(wb: WindBarbFormat, d: Drawing, i: nat): Drawing
    requires ValidWindBarb(wb) && i <= |wb.speeds|
    decreases |wb.speeds| - i
  {
    if i == |wb.speeds| then d
    else Passes(wb, Pass(wb, d, wb.speeds[i], (d.mag / wb.speeds[i]).Floor), i + 1)
  }

  /** Everything `_drawWindBarb` draws: the shaft when the speed reaches the last speed, then the passes. */
  function WindBarbMarks(wb: WindBarbFormat, mag: real): seq<Mark>
    requires ValidWindBarb(wb)
  {
    var shaft := if mag >= wb.speeds[|wb.speeds| - 1] then [Shaft(wb.shaftLen)] else [];
    Passes(wb, Drawing(shaft, mag, wb.shaftLen), 0).marks
  }

  /** `_drawWindBarb`, emitting the marks instead of drawing them. */
  method DrawWindBarb(mag: real, wb: WindBarbFormat) returns (marks: seq<Mark>)
    requires ValidWindBarb(wb)
    ensures marks == WindBarbMarks(wb, mag)
  {
    var end := wb.shaftLen;
    var m := mag;
    marks := [];
    if m >= wb.speeds[|wb.speeds| - 1] {
      marks := [Shaft(end)];
    }
    ghost var result := Passes(wb, Drawing(marks, m, end), 0);
    for i := 0 to |wb.speeds|
      invariant Passes(wb, Drawing(marks, m, end), i) == result
    {
      var limit := wb.speeds[i];
      var n := (m / limit).Floor;
      ghost var after := Pass(wb, Drawing(marks, m, end), limit, n);
      var j := 0;
      while j < n
        invariant j <= n || n <= 0
        invariant Pass(wb, Drawing(marks, m, end), limit, n - j) == after
        decreases n - j
      {
        if m >= wb.speeds[0] {
          marks := marks + [Flag(end, wb.flagHeight, wb.flagBase)];
          end := end - wb.flagSpace;
        } else {
          marks := marks + [Barb(end, BarbLength(wb, limit), wb.barbAngle)];
          end := end - wb.barbSpace;
        }
        m := m - limit;
        j := j + 1;
      }
    }
  }

  /** `k` flags of the default barb, the first with its tip at `end`, 6 apart. */
  function Flags(k: nat, end: real): (r: seq<Mark>)
    ensures |r| == k
  {
    seq(k, i requires 0 <= i < k => Flag(end - 6.0 * i as real, 10.0, 6.0))
  }

  /** `k` barbs of length `len` of the default barb, the first at `end`, 3 apart. */
  function Barbs(k: nat, end: real, len: real): (r: seq<Mark>)
    ensures |r| == k
  {
    seq(k, i requires 0 <= i < k => Barb(end - 3.0 * i as real, len, 28.0))
  }

  /** The number of 50-knot flags. */
  function FlagCount(mag: real): int
  {
    (mag / 50.0).Floor
  }

  /** The number of 10-knot barbs, from what the flags leave. */
  function BarbCount(mag: real): int
  {
    ((mag - 50.0 * FlagCount(mag) as real) / 10.0).Floor
  }

  /** The number of 5-knot half-barbs, from what the flags and barbs leave. */
  function HalfBarbCount(mag: real): int
  {
    ((mag - 50.0 * FlagCount(mag) as real - 10.0 * BarbCount(mag) as real) / 5.0).Floor
  }

  lemma {:induction false} PassOfFlags(d: Drawing, n: nat)
    requires d.mag >= 50.0 * n as real
    ensures Pass(DefaultWindBarb, d, 50.0, n) ==
      Drawing(d.marks + Flags(n, d.end), d.mag - 50.0 * n as real, d.end - 6.0 * n as real)
    decreases n
  {
    if n > 0 {
      var d' := Step(DefaultWindBarb, d, 50.0);
      assert d' == Drawing(d.marks + [Flag(d.end, 10.0, 6.0)], d.mag - 50.0, d.end - 6.0);
      PassOfFlags(d', n - 1);
      assert [Flag(d.end, 10.0, 6.0)] + Flags(n - 1, d.end - 6.0) == Flags(n, d.end);
    }
  }

  lemma {:induction false} PassOfBarbs(d: Drawing, limit: real, n: nat)
    requires limit == 10.0 || limit == 5.0
    requires d.mag < 50.0
    ensures Pass(DefaultWindBarb, d, limit, n) ==
      Drawing(d.marks + Barbs(n, d.end, BarbLength(DefaultWindBarb, limit)), d.mag - limit * n as real, d.end - 3.0 * n as real)
    decreases n
  {
    if n > 0 {
      var len := BarbLength(DefaultWindBarb, limit);
      var d' := Step(DefaultWindBarb, d, limit);
      assert d' == Drawing(d.marks + [Barb(d.end, len, 28.0)], d.mag - limit, d.end - 3.0);
      PassOfBarbs(d', limit, n - 1);
      assert [Barb(d.end, len, 28.0)] + Barbs(n - 1, d.end - 3.0, len) == Barbs(n, d.end, len);
    }
  }

  /**
   * The counts of a non-negative speed: at most four barbs and one
   * half-barb, accounting together with the flags for the speed rounded
   * down to 5 knots.
   */
  lemma MarkCounts(mag: real)
    requires mag >= 0.0
    ensures FlagCount(mag) >= 0 && 0 <= BarbCount(mag) <= 4 && 0 <= HalfBarbCount(mag) <= 1
    ensures var total := 50.0 * FlagCount(mag) as real + 10.0 * BarbCount(mag) as real + 5.0 * HalfBarbCount(mag) as real;
      total <= mag < total + 5.0
  {
    var f := FlagCount(mag);
    var m1 := mag - 50.0 * f as real;
    assert 0.0 <= m1 < 50.0;
    var b := BarbCount(mag);
    var m2 := m1 - 10.0 * b as real;
    assert 0.0 <= m2 < 10.0;
  }

  /** The three passes of the default dimensions, one per speed, each repeated as often as the rest of the speed allows. */
  lemma DefaultPasses(d: Drawing, f: int, b: int, h: int)
    requires f == (d.mag / 50.0).Floor
    requires b == (Pass(DefaultWindBarb, d, 50.0, f).mag / 10.0).Floor
    requires h == (Pass(DefaultWindBarb, Pass(DefaultWindBarb, d, 50.0, f), 10.0, b).mag / 5.0).Floor
    ensures Passes(DefaultWindBarb, d, 0) ==
      Pass(DefaultWindBarb, Pass(DefaultWindBarb, Pass(DefaultWindBarb, d, 50.0, f), 10.0, b), 5.0, h)
  {
    var wb := DefaultWindBarb;
    assert ValidWindBarb(wb) && |wb.speeds| == 3;
    var d1 := Pass(wb, d, 50.0, f);
    var d2 := Pass(wb, d1, 10.0, b);
    var d3 := Pass(wb, d2, 5.0, h);
    PassesStep(wb, d, 0, 50.0, f);
    PassesStep(wb, d1, 1, 10.0, b);
    PassesStep(wb, d2, 2, 5.0, h);
    assert Passes(wb, d3, 3) == d3;
  }

  /** One turn of the outer loop. */
  lemma PassesStep(wb: WindBarbFormat, d: Drawing, i: nat, speed: real, n: int)
    requires ValidWindBarb(wb) && i < |wb.speeds|
    requires speed == wb.speeds[i] && n == (d.mag / speed).Floor
    ensures Passes(wb, d, i) == Passes(wb, Pass(wb, d, speed, n), i + 1)
  {
  }

  /**
   * With the default dimensions a non-negative speed is drawn greedily:
   * the shaft from 5 knots on, then `floor(mag/50)` flags 6 apart from
   * the tip, then the 10-knot barbs and the half-barb, 3 apart.
   */
  lemma DefaultWindBarbMarks(mag: real)
    requires mag >= 0.0
    ensures WindBarbMarks(DefaultWindBarb, mag) ==
      (if mag >= 5.0 then [Shaft(30.0)] else []) +
      Flags(FlagCount(mag), 30.0) +
      Barbs(BarbCount(mag), 30.0 - 6.0 * FlagCount(mag) as real, 10.0) +
      Barbs(HalfBarbCount(mag), 30.0 - 6.0 * FlagCount(mag) as real - 3.0 * BarbCount(mag) as real, 5.0)
  {
    MarkCounts(mag);
    var wb := DefaultWindBarb;
    var f, b, h := FlagCount(mag), BarbCount(mag), HalfBarbCount(mag);
    var shaft := if mag >= 5.0 then [Shaft(30.0)] else [];
    var d0 := Drawing(shaft, mag, 30.0);
    var d1 := Drawing(shaft + Flags(f, 30.0), mag - 50.0 * f as real, 30.0 - 6.0 * f as real);
    var d2 := Drawing(d1.marks + Barbs(b, d1.end, 10.0), d1.mag - 10.0 * b as real, d1.end - 3.0 * b as real);
    var d3 := Drawing(d2.marks + Barbs(h, d2.end, 5.0), d2.mag - 5.0 * h as real, d2.end - 3.0 * h as real);
    assert Pass(wb, d0, 50.0, f) == d1 by {
      PassOfFlags(d0, f);
    }
    assert Pass(wb, d1, 10.0, b) == d2 by {
      PassOfBarbs(d1, 10.0, b);
      assert BarbLength(wb, 10.0) == 10.0;
    }
    assert Pass(wb, d2, 5.0, h) == d3 by {
      PassOfBarbs(d2, 5.0, h);
      assert BarbLength(wb, 5.0) == 5.0;
    }
    DefaultPasses(d0, f, b, h);
    assert WindBarbMarks(wb, mag) == d3.marks;
  }

  /** Below 5 knots nothing is drawn, not even the shaft. */
  lemma SlowWindDrawsNothing(mag: real)
    requires mag < 5.0
    ensures WindBarbMarks(DefaultWindBarb, mag) == []
  {
    var wb := DefaultWindBarb;
    var d0 := Drawing([], mag, 30.0);
    assert Passes(wb, d0, 0) == d0 by {
      assert (mag / 50.0).Floor <= 0 && (mag / 10.0).Floor <= 0 && (mag / 5.0).Floor <= 0;
      assert Passes(wb, d0, 0) == Passes(wb, d0, 1);
      assert Passes(wb, d0, 1) == Passes(wb, d0, 2);
      assert Passes(wb, d0, 2) == Passes(wb, d0, 3);
    }
  }

  /** Where a flag or barb sits along the shaft. */
  function Position(m: Mark): real
  {
    match m
    case Shaft(len) => len
    case Flag(end, _, _) => end
    case Barb(end, _, _) => end
  }

  /** The flags and barbs of a default barb: none of them a shaft, each strictly closer to the station than the one before. */
  lemma DefaultBodyMovesInward(f: nat, b: nat, h: nat)
    ensures var body := Flags(f, 30.0) + Barbs(b, 30.0 - 6.0 * f as real, 10.0) +
      Barbs(h, 30.0 - 6.0 * f as real - 3.0 * b as real, 5.0);
      (forall k :: 0 <= k < |body| ==> !body[k].Shaft?) &&
      forall i, j :: 0 <= i < j < |body| ==> Position(body[i]) > Position(body[j])
  {
    var body := Flags(f, 30.0) + Barbs(b, 30.0 - 6.0 * f as real, 10.0) +
      Barbs(h, 30.0 - 6.0 * f as real - 3.0 * b as real, 5.0);
    forall k | 0 <= k < |body|
      ensures !body[k].Shaft?
      ensures Position(body[k]) == if k < f then 30.0 - 6.0 * k as real else 30.0 - 6.0 * f as real - 3.0 * (k - f) as real
    {
      if k < f {
        assert body[k] == Flags(f, 30.0)[k];
      } else if k < f + b {
        assert body[k] == Barbs(b, 30.0 - 6.0 * f as real, 10.0)[k - f];
      } else {
        assert body[k] == Barbs(h, 30.0 - 6.0 * f as real - 3.0 * b as real, 5.0)[k - f - b];
      }
    }
  }

  /** Shafts put in front of marks that move inward leave the non-shaft marks moving inward. */
  lemma ShaftsThenBody(shaft: seq<Mark>, body: seq<Mark>)
    requires forall k :: 0 <= k < |shaft| ==> shaft[k].Shaft?
    requires forall i, j :: 0 <= i < j < |body| ==> Position(body[i]) > Position(body[j])
    ensures var ms := shaft + body;
      forall i, j :: 0 <= i < j < |ms| && !ms[i].Shaft? ==> Position(ms[i]) > Position(ms[j])
  {
    var ms := shaft + body;
    forall i, j | 0 <= i < j < |ms| && !ms[i].Shaft?
      ensures Position(ms[i]) > Position(ms[j])
    {
      assert i >= |shaft|;
      assert ms[i] == body[i - |shaft|] && ms[j] == body[j - |shaft|];
    }
  }

  /** After the shaft, the marks of a default barb sit strictly closer to the station one by one. */
  lemma DefaultMarksMoveInward(mag: real)
    requires mag >= 0.0
    ensures var ms := WindBarbMarks(DefaultWindBarb, mag);
      forall i, j :: 0 <= i < j < |ms| && !ms[i].Shaft? ==> Position(ms[i]) > Position(ms[j])
  {
    MarkCounts(mag);
    var f, b, h := FlagCount(mag), BarbCount(mag), HalfBarbCount(mag);
    DefaultBodyMovesInward(f, b, h);
    DefaultWindBarbMarks(mag);
    ShaftsThenBody(if mag >= 5.0 then [Shaft(30.0)] else [],
      Flags(f, 30.0) + Barbs(b, 30.0 - 6.0 * f as real, 10.0) +
      Barbs(h, 30.0 - 6.0 * f as real - 3.0 * b as real, 5.0));
  }


  // ---------------------------------------------------------------------
  // pressure axis

  /** A tick label: the pressure itself, or `""`. */
  datatype TickLabel = Value(v: int) | Blank

  datatype Tick = Tick(at: int, caption: TickLabel)

  /** The pressure axis, in hPa: from 100 up to, not including, 1050, every 50. */
  const YaxisMin: int := 100
  const YaxisMax: int := 1050
  const YaxisTickSize: int := 50

  /**
   * `generateYaxisTicks`: ascending ticks 100, 150, ..., 1000, every
   * multiple of 100 labelled with its value and the others blank.
   */
  method GenerateYaxisTicks() returns (ticks: seq<Tick>)
    ensures |ticks| == 19
    ensures forall k :: 0 <= k < |ticks| ==> ticks[k].at == 100 + 50 * k
    ensures forall k :: 0 <= k < |ticks| ==>
      ticks[k].caption == if ticks[k].at % 100 == 0 then Value(ticks[k].at) else Blank
    ensures forall k :: 0 <= k < |ticks| ==> YaxisMin <= ticks[k].at < YaxisMax
  {
    ticks := [];
    var i := YaxisMin;
    while i < YaxisMax
      invariant i == YaxisMin + YaxisTickSize * |ticks| && i <= YaxisMax
      invariant forall k :: 0 <= k < |ticks| ==> ticks[k].at == 100 + 50 * k
      invariant forall k :: 0 <= k < |ticks| ==>
        ticks[k].caption == if ticks[k].at % 100 == 0 then Value(ticks[k].at) else Blank
      decreases YaxisMax - i
    {
      var t := if i % (2 * YaxisTickSize) == 0 then Tick(i, Value(i)) else Tick(i, Blank);
      ticks := ticks + [t];
      i := i + YaxisTickSize;
    }
  }

  // ---------------------------------------------------------------------
  // altitude lookup

  /** The index of the first `[pressure, altitude]` row, at or after `from`, at pressure `value`. */
  function FirstRowAt(rows: seq<(real, real)>, value: real, from: nat): (r: Option<nat>)
    requires from <= |rows|
    ensures r.Some? ==> from <= r.value < |rows| && rows[r.value].0 == value
    ensures r.Some? ==> forall k :: from <= k < r.value ==> rows[k].0 != value
    ensures r.None? ==> forall k :: from <= k < |rows| ==> rows[k].0 != value
    decreases |rows| - from
  {
    if from == |rows| then None
    else if rows[from].0 == value then Some(from)
    else FirstRowAt(rows, value, from + 1)
  }

  // ---------------------------------------------------------------------
  // launch time

  const HourMs: int := 3600000

  /** The start of the UTC hour holding `t`: minutes, seconds and milliseconds set to zero. */
  function HourStart(t: int): (h: int)
    ensures h <= t < h + HourMs
    ensures h % HourMs == 0
  {
    t - t % HourMs
  }

  /** Truncating to the hour is idempotent and keeps instants of the same hour together. */
  lemma HourStartProperties(t: int, u: int)
    ensures HourStart(HourStart(t)) == HourStart(t)
    ensures HourStart(t) <= u < HourStart(t) + HourMs ==> HourStart(u) == HourStart(t)
  {
    var h := HourStart(t);
    if h <= u < h + HourMs {
      var hu := HourStart(u);
      assert hu <= u < hu + HourMs;
      assert (h - hu) % HourMs == 0 by {
        assert h == HourMs * (h / HourMs);
        assert hu == HourMs * (hu / HourMs);
        assert h - hu == HourMs * (h / HourMs - hu / HourMs);
      }
    }
  }

  /** What string concatenation makes of a property the object lacks. */
  const UndefinedText: string := "undefined"

  /** The column name `storeSeriesMetadataColumns` makes of a series table. */
  function ColumnName(series: Table): string
  {
    series.name + " / " + UndefinedText
  }

  /**
   * A column name carries the series' property name but never its unit:
   * whatever the table's `uom`, other than the text `undefined`, it is not
   * what follows the separator.
   */
  lemma ColumnNameLacksUnit(series: Table)
    ensures ColumnName(series)[..|series.name|] == series.name
    ensures series.uom != UndefinedText ==> ColumnName(series) != series.name + " / " + series.uom
  {
    var n := |series.name| + 3;
    assert ColumnName(series)[n..] == UndefinedText;
    if series.uom != UndefinedText {
      assert (series.name + " / " + series.uom)[n..] == series.uom;
    }
  }

  // ---------------------------------------------------------------------
  // SOS.Plot.Stuve

  /** A Stuve plot: its altitude series' rows and the metadata of its series. */
  class StuvePlot {
    var altitudeSeries: seq<seq<(real, real)>>
    var launchDatetime: Option<string>
    var columnNames: seq<string>

    constructor ()
      ensures altitudeSeries == [] && launchDatetime.None? && columnNames == []
    {
      // `initialize` leaves the altitude series undefined until the plot is drawn; empty stands for that
      altitudeSeries := [];
      launchDatetime := None;
      columnNames := [];
    }

    /**
     * `getAltitudeForPressureLevelValue`: the altitude of the first row of
     * the first altitude series at that pressure; `None` stands for `""`.
     */
    method GetAltitudeForPressureLevelValue(value: real) returns (a: Option<real>)
      ensures |altitudeSeries| == 0 ==> a.None?
      ensures |altitudeSeries| > 0 ==>
        match FirstRowAt(altitudeSeries[0], value, 0)
        case None => a.None?
        case Some(k) => a == Some(altitudeSeries[0][k].1)
    {
      a := None;
      if |altitudeSeries| > 0 {
        var rows := altitudeSeries[0];
        var i := 0;
        while i < |rows|
          invariant 0 <= i <= |rows|
          invariant a.None?
          invariant FirstRowAt(rows, value, 0) == FirstRowAt(rows, value, i)
        {
          if rows[i].0 == value {
            a := Some(rows[i].1);
            break;
          }
          i := i + 1;
        }
      }
    }

    /** `clearSeriesMetadata`. */
    method ClearSeriesMetadata()
      modifies this
      ensures launchDatetime.None? && columnNames == []
      ensures altitudeSeries == old(altitudeSeries)
    {
      launchDatetime := None;
      columnNames := [];
    }

    /**
     * `storeSeriesMetadataLaunch`: the first row's timestamp as a `Date`,
     * truncated to its UTC hour and formatted by `formatter`. A timestamp
     * beyond the `Date` range gives `NaN`, which the UTC setters keep; the
     * start of an hour within the range stays within it.
     */
    method StoreSeriesMetadataLaunch(data: seq<Row>, formatter: SosTime.TimeValue -> string)
      requires |data| > 0 && |data[0]| > 0
      modifies this
      ensures SosTime.TimeClip(data[0][0]).NaN? ==> launchDatetime == Some(formatter(SosTime.NaN))
      ensures SosTime.TimeClip(data[0][0]).Ms? ==>
        launchDatetime == Some(formatter(SosTime.Ms(HourStart(SosTime.TimeClip(data[0][0]).ms))))
      ensures altitudeSeries == old(altitudeSeries) && columnNames == old(columnNames)
    {
      var d := SosTime.TimeClip(data[0][0]);
      if d.Ms? {
        d := SosTime.Ms(d.ms - d.ms % HourMs);
      }
      launchDatetime := Some(formatter(d));
    }

    /**
     * `storeSeriesMetadataColumns`: one column name per argument, appended
     * in order. The arguments are series tables built by
     * `constructDataTable`, which hold their unit as `uom`; the property
     * read is `uomTitle`, which they lack, so every name ends in
     * ` / undefined`.
     */
    method StoreSeriesMetadataColumns(args: seq<Table>)
      modifies this
      ensures |columnNames| == |old(columnNames)| + |args|
      ensures columnNames[..|old(columnNames)|] == old(columnNames)
      ensures forall i :: 0 <= i < |args| ==> columnNames[|old(columnNames)| + i] == ColumnName(args[i])
      ensures altitudeSeries == old(altitudeSeries) && launchDatetime == old(launchDatetime)
    {
      for i := 0 to |args|
        invariant |columnNames| == |old(columnNames)| + i
        invariant columnNames[..|old(columnNames)|] == old(columnNames)
        invariant forall k :: 0 <= k < i ==> columnNames[|old(columnNames)| + k] == ColumnName(args[k])
        invariant altitudeSeries == old(altitudeSeries) && launchDatetime == old(launchDatetime)
      {
        columnNames := columnNames + [args[i].name + " / " + UndefinedText];
      }
    }

    /**
     * `displaySelectedIntervalStats`: the dependent variable is on the
     * x-axis here, so the statistics are of column 0.
     */
    method DisplaySelectedIntervalStats(data: seq<Row>, a: nat, b: nat) returns (stats: Summary, hist: Histogram)
      requires forall i :: 0 <= i < |data| ==> 0 < |data[i]|
      ensures stats == SummaryOf(Column(SelectedRows(data, a, b), 0))
      ensures IsHistogramOf(hist, Column(SelectedRows(data, a, b), 0))
    {
      stats, hist := SelectedIntervalStats(data, a, b, 0);
    }
  }
}

=== FILE: sos_time.dfy ===
/**
 * Time handling of `SOS.Utils`: splitting an ISO 8601 date-time string
 * into its fields, time intervals whose ends are shifted in place, and the
 * relative time tokens ("today", "lastweek", "rollingmonth", ...) turned
 * into an interval around the current instant.
 *
 * Instants are integers counting milliseconds since the epoch, as
 * `Date.getTime()` returns them. Building a local-time `Date` from the
 * string fields and reading the clock are not modelled: the first is a
 * parameter, the second an input record.
 */
module SosTime {
  import opened Wrappers
  import opened Text

  // ---------------------------------------------------------------------
  // isoToDateObject: the string part

  /** The fields `isoToDateObject` hands to the `Date` constructor, as strings. */
  datatype IsoFields = IsoFields(
    year: string,
    month: Option<string>,
    day: Option<string>,
    hour: string,
    minute: string,
    second: string,
    millis: string)

  predicate AllDigits(s: string)
  {
    forall i :: 0 <= i < |s| ==> IsDigit(s[i])
  }

  /** Length of the run of digits that starts `s`. */
  function LeadingDigits(s: string): (k: nat)
    ensures k <= |s| && AllDigits(s[..k])
    ensures k < |s| ==> !IsDigit(s[k])
  {
    if |s| == 0 || !IsDigit(s[0]) then 0
    else
      var k := 1 + LeadingDigits(s[1..]);
      assert s[..k] == [s[0]] + s[1..][..k - 1];
      k
  }

  /** Length of the run of digits that ends `s`. */
  function TrailingDigits(s: string): (k: nat)
    ensures k <= |s| && AllDigits(s[|s| - k..])
    ensures k < |s| ==> !IsDigit(s[|s| - k - 1])
  {
    if |s| == 0 || !IsDigit(s[|s| - 1]) then 0
    else
      var k := TrailingDigits(s[..|s| - 1]);
      DigitsExtend(s, k);
      k + 1
  }

  /** One more digit at the end extends a trailing run of digits. */
  lemma DigitsExtend(s: string, k: nat)
    requires |s| > 0 && IsDigit(s[|s| - 1])
    requires k <= |s| - 1 && AllDigits(s[..|s| - 1][|s| - 1 - k..])
    ensures AllDigits(s[|s| - (k + 1)..])
  {
    var run := s[..|s| - 1][|s| - 1 - k..];
    var tail := s[|s| - (k + 1)..];
    forall i | 0 <= i < |tail|
      ensures IsDigit(tail[i])
    {
      if i < k {
        assert tail[i] == run[i];
      }
    }
  }

  /** `s.replace(/Z$/, "")`. */
  function DropTrailingZ(s: string): string
  {
    if |s| > 0 && s[|s| - 1] == 'Z' then s[..|s| - 1] else s
  }

  /** `s.replace(/^\d+\./, "")`: the fraction of a seconds field, or the field unchanged. */
  function DropWholeSeconds(s: string): string
  {
    var k := LeadingDigits(s);
    if 0 < k < |s| && s[k] == '.' then s[k + 1..] else s
  }

  /** `s.replace(/\.\d+$/, "")`: the whole seconds of a seconds field. */
  function DropFraction(s: string): string
  {
    var k := TrailingDigits(s);
    if 0 < k < |s| && s[|s| - k - 1] == '.' then s[..|s| - k - 1] else s
  }

  /** The time part assumed when the string has no `T`. */
  const MidnightTime: string := "00:00:00.000Z"

  /**
   * The string work of `isoToDateObject`: date and time split at the first
   * `T`, the date at `-`, the time (less a final `Z`) at `:`, and the
   * seconds field into whole seconds and milliseconds. A time with fewer
   * than three fields makes the source throw; that is `Failure`.
   */
  function SplitIsoDateTime(x: string): Result<IsoFields>
  {
    var a := Split(x, 'T');
    var time := if |a| < 2 then MidnightTime else a[1];
    var d := Split(a[0], '-');
    var t := Split(DropTrailingZ(time), ':');
    if |t| < 3 then Failure("TypeError: the seconds field is undefined")
    else
      Success(IsoFields(
        d[0],
        if |d| > 1 then Some(d[1]) else None,
        if |d| > 2 then Some(d[2]) else None,
        t[0], t[1], DropFraction(t[2]), DropWholeSeconds(t[2])))
  }

  lemma LeadingDigitsOf(p: string, q: string)
    requires AllDigits(p) && |q| > 0 && !IsDigit(q[0])
    ensures LeadingDigits(p + q) == |p|
  {
    if |p| > 0 {
      assert (p + q)[1..] == p[1..] + q;
      LeadingDigitsOf(p[1..], q);
    }
  }

  lemma TrailingDigitsOf(p: string, q: string)
    requires AllDigits(q) && |p| > 0 && !IsDigit(p[|p| - 1])
    ensures TrailingDigits(p + q) == |q|
  {
    if |q| > 0 {
      assert (p + q)[..|p + q| - 1] == p + q[..|q| - 1];
      TrailingDigitsOf(p, q[..|q| - 1]);
    }
  }

  /** A seconds field `sec.frac` yields `sec` and `frac`. */
  lemma SecondsFieldParts(sec: string, frac: string)
    requires AllDigits(sec) && AllDigits(frac) && |sec| > 0 && |frac| > 0
    ensures DropFraction(sec + "." + frac) == sec
    ensures DropWholeSeconds(sec + "." + frac) == frac
  {
    var s := sec + "." + frac;
    LeadingDigitsOf(sec, "." + frac);
    assert s == sec + ("." + frac);
    TrailingDigitsOf(sec + ".", frac);
    assert s[|sec| + 1..] == frac;
  }

  /** A date `y-m-d` with digit fields splits into those three fields. */
  lemma DateFields(y: string, m: string, d: string)
    requires AllDigits(y) && AllDigits(m) && AllDigits(d)
    ensures Split(y + "-" + m + "-" + d, '-') == [y, m, d]
  {
    var tail := m + ['-'] + d;
    assert Split(tail, '-') == [m, d] by {
      assert '-' !in m && '-' !in d;
      SplitWithoutSeparator(d, '-');
      SplitAtFirst(m, d, '-');
    }
    assert y + "-" + m + "-" + d == y + ['-'] + tail;
    assert '-' !in y;
    SplitAtFirst(y, tail, '-');
  }

  /** A time `h:m:rest` with digit hour and minute and no further colon splits into three fields. */
  lemma TimeFields(h: string, m: string, rest: string)
    requires AllDigits(h) && AllDigits(m) && ':' !in rest
    ensures Split(h + ":" + m + ":" + rest, ':') == [h, m, rest]
  {
    var tail := m + [':'] + rest;
    assert Split(tail, ':') == [m, rest] by {
      assert ':' !in m;
      SplitWithoutSeparator(rest, ':');
      SplitAtFirst(m, rest, ':');
    }
    assert h + ":" + m + ":" + rest == h + [':'] + tail;
    assert ':' !in h;
    SplitAtFirst(h, tail, ':');
  }

  /** Splitting at the first `T` of a date part without `T` and a time part without `T`. */
  lemma DateTimeParts(date: string, time: string)
    requires 'T' !in date && 'T' !in time
    ensures Split(date + "T" + time, 'T') == [date, time]
  {
    SplitWithoutSeparator(time, 'T');
    SplitAtFirst(date, time, 'T');
  }

  /** A date part without `T` and a time part splitting into three fields yield those fields. */
  lemma SplitIsoOf(date: string, time: string, y: string, mo: string, d: string, h: string, mi: string, secs: string)
    requires 'T' !in date && 'T' !in time
    requires Split(date, '-') == [y, mo, d]
    requires Split(DropTrailingZ(time), ':') == [h, mi, secs]
    ensures SplitIsoDateTime(date + "T" + time)
      == Success(IsoFields(y, Some(mo), Some(d), h, mi, DropFraction(secs), DropWholeSeconds(secs)))
  {
    DateTimeParts(date, time);
  }

  /** A digit date has no `T` and splits at `-` into its fields. */
  lemma DateShape(y: string, mo: string, d: string)
    requires AllDigits(y) && AllDigits(mo) && AllDigits(d)
    ensures 'T' !in y + "-" + mo + "-" + d
    ensures Split(y + "-" + mo + "-" + d, '-') == [y, mo, d]
  {
    DateFields(y, mo, d);
  }

  /** A time `h:mi:secsZ` has no `T` and, less its `Z`, splits at `:` into its fields. */
  lemma TimeShape(h: string, mi: string, secs: string)
    requires AllDigits(h) && AllDigits(mi) && ':' !in secs && 'T' !in secs
    ensures 'T' !in h + ":" + mi + ":" + secs + "Z"
    ensures Split(DropTrailingZ(h + ":" + mi + ":" + secs + "Z"), ':') == [h, mi, secs]
  {
    var time := h + ":" + mi + ":" + secs + "Z";
    assert DropTrailingZ(time) == h + ":" + mi + ":" + secs;
    TimeFields(h, mi, secs);
  }

  /** A digit seconds field, with or without a fraction, has no `:` and no `T`. */
  lemma SecondsShape(s: string, f: string)
    requires AllDigits(s) && AllDigits(f)
    ensures ':' !in s && 'T' !in s
    ensures ':' !in s + "." + f && 'T' !in s + "." + f
  {
  }

  lemma FullFormConcat(y: string, mo: string, d: string, h: string, mi: string, s: string, f: string)
    ensures y + "-" + mo + "-" + d + "T" + h + ":" + mi + ":" + s + "." + f + "Z"
      == (y + "-" + mo + "-" + d) + "T" + (h + ":" + mi + ":" + (s + "." + f) + "Z")
  {
  }

  lemma NoFractionConcat(y: string, mo: string, d: string, h: string, mi: string, s: string)
    ensures y + "-" + mo + "-" + d + "T" + h + ":" + mi + ":" + s + "Z"
      == (y + "-" + mo + "-" + d) + "T" + (h + ":" + mi + ":" + s + "Z")
  {
  }

  /** The full form `YYYY-MM-DDThh:mm:ss.fffZ` yields each of its fields. */
  lemma {:induction false} SplitIsoFullForm(y: string, mo: string, d: string, h: string, mi: string, s: string, f: string)
    requires AllDigits(y) && AllDigits(mo) && AllDigits(d) && AllDigits(h) && AllDigits(mi)
    requires AllDigits(s) && AllDigits(f) && |s| > 0 && |f| > 0
    ensures SplitIsoDateTime(y + "-" + mo + "-" + d + "T" + h + ":" + mi + ":" + s + "." + f + "Z")
      == Success(IsoFields(y, Some(mo), Some(d), h, mi, s, f))
  {
    FullFormConcat(y, mo, d, h, mi, s, f);
    DateShape(y, mo, d);
    SecondsShape(s, f);
    TimeShape(h, mi, s + "." + f);
    SecondsFieldParts(s, f);
    SplitIsoOf(y + "-" + mo + "-" + d, h + ":" + mi + ":" + (s + "." + f) + "Z", y, mo, d, h, mi, s + "." + f);
  }

  /** A digit seconds field is its own whole seconds and its own fraction. */
  lemma WholeSecondsOnly(s: string)
    requires AllDigits(s) && |s| > 0
    ensures DropFraction(s) == s && DropWholeSeconds(s) == s
  {
    assert LeadingDigits(s) == |s| by {
      assert s[..|s|] == s;
    }
    assert TrailingDigits(s) == |s| by {
      assert s[|s| - |s|..] == s;
    }
  }

  /**
   * Without a fractional part the seconds field passes through both
   * replacements unchanged, so the whole seconds are also taken as the
   * milliseconds: `...T01:00:05Z` gives 5 seconds and 5 milliseconds.
   */
  lemma {:induction false} SplitIsoWithoutFraction(y: string, mo: string, d: string, h: string, mi: string, s: string)
    requires AllDigits(y) && AllDigits(mo) && AllDigits(d) && AllDigits(h) && AllDigits(mi)
    requires AllDigits(s) && |s| > 0
    ensures SplitIsoDateTime(y + "-" + mo + "-" + d + "T" + h + ":" + mi + ":" + s + "Z")
      == Success(IsoFields(y, Some(mo), Some(d), h, mi, s, s))
  {
    NoFractionConcat(y, mo, d, h, mi, s);
    DateShape(y, mo, d);
    SecondsShape(s, s);
    TimeShape(h, mi, s);
    WholeSecondsOnly(s);
    SplitIsoOf(y + "-" + mo + "-" + d, h + ":" + mi + ":" + s + "Z", y, mo, d, h, mi, s);
  }

  /** A date alone is read as midnight: hours, minutes and seconds "00", milliseconds "000". */
  lemma {:induction false} SplitIsoDateOnly(y: string, mo: string, d: string)
    requires AllDigits(y) && AllDigits(mo) && AllDigits(d)
    ensures SplitIsoDateTime(y + "-" + mo + "-" + d)
      == Success(IsoFields(y, Some(mo), Some(d), "00", "00", "00", "000"))
  {
    var date := y + "-" + mo + "-" + d;
    assert 'T' !in date;
    SplitWithoutSeparator(date, 'T');
    DateFields(y, mo, d);
    MidnightFields();
  }

  lemma MidnightFields()
    ensures Split(DropTrailingZ(MidnightTime), ':') == ["00", "00", "00.000"]
    ensures DropFraction("00.000") == "00"
    ensures DropWholeSeconds("00.000") == "000"
  {
    assert DropTrailingZ(MidnightTime) == "00" + ":" + "00" + ":" + "00.000";
    assert AllDigits("00") && AllDigits("000");
    TimeFields("00", "00", "00.000");
    assert "00.000" == "00" + "." + "000";
    SecondsFieldParts("00", "000");
  }

  /** A time with hours and minutes only has no seconds field: the source throws. */
  lemma {:induction false} SplitIsoMissingSeconds(y: string, mo: string, d: string, h: string, mi: string)
    requires AllDigits(y) && AllDigits(mo) && AllDigits(d) && AllDigits(h) && AllDigits(mi)
    ensures SplitIsoDateTime(y + "-" + mo + "-" + d + "T" + h + ":" + mi + "Z").Failure?
  {
    var date := y + "-" + mo + "-" + d;
    var time := h + ":" + mi + "Z";
    assert 'T' !in date;
    assert 'T' !in time;
    assert y + "-" + mo + "-" + d + "T" + h + ":" + mi + "Z" == date + "T" + time;
    DateTimeParts(date, time);
    assert DropTrailingZ(time) == h + [':'] + mi;
    assert ':' !in h && ':' !in mi;
    SplitWithoutSeparator(mi, ':');
    SplitAtFirst(h, mi, ':');
  }

  // ---------------------------------------------------------------------
  // the Date constructor

  /** A `Date`'s time value: milliseconds since the epoch, or the `NaN` of an Invalid Date. */
  datatype TimeValue = Ms(ms: int) | NaN

  /** The furthest a valid `Date` lies from the epoch: 100 000 000 days, in milliseconds. */
  const MaxTime: int := 8640000000000000

  predicate InDateRange(ms: int)
  {
    -MaxTime <= ms <= MaxTime
  }

  /** `TimeClip` of a whole number of milliseconds: kept within the range, `NaN` beyond it. */
  function ClipMs(ms: int): TimeValue
  {
    if InDateRange(ms) then Ms(ms) else NaN
  }

  /** `TimeClip` as `new Date(x)` applies it to a timestamp: `NaN` beyond the range, else truncated toward zero. */
  function TimeClip(x: real): (r: TimeValue)
    ensures r.Ms? <==> -(MaxTime as real) <= x <= MaxTime as real
    ensures r.Ms? && x >= 0.0 ==> r.ms as real <= x < r.ms as real + 1.0
    ensures r.Ms? && x < 0.0 ==> r.ms as real - 1.0 < x <= r.ms as real
    ensures r.Ms? ==> InDateRange(r.ms)
  {
    if x < -(MaxTime as real) || x > MaxTime as real then NaN
    else if x >= 0.0 then Ms(x.Floor)
    else Ms(-((-x).Floor))
  }

  /** `d.setTime(d.getTime() + offset)`: `NaN` stays `NaN`, and a time moved out of the range becomes `NaN`. */
  function Moved(v: TimeValue, offset: int): TimeValue
  {
    if v.Ms? then ClipMs(v.ms + offset) else NaN
  }

  /** The white space and line terminators that `parseInt` and `Number` skip at the start of a string. */
  predicate IsJsSpace(c: char)
  {
    c == '\t' || c == '\U{B}' || c == '\U{C}' || c == '\U{FEFF}' || IsLineTerminator(c) ||
    // the space separators
    c == ' ' || c == '\U{A0}' || c == '\U{1680}' || ('\U{2000}' <= c <= '\U{200A}') ||
    c == '\U{202F}' || c == '\U{205F}' || c == '\U{3000}'
  }

  function TrimStart(s: string): (r: string)
    ensures |r| <= |s| && r == s[|s| - |r|..]
    ensures |r| > 0 ==> !IsJsSpace(r[0])
  {
    if |s| > 0 && IsJsSpace(s[0]) then TrimStart(s[1..]) else s
  }

  /** The rest of `s` after one leading `+` or `-`, if any. */
  function DropSign(s: string): string
  {
    if |s| > 0 && (s[0] == '+' || s[0] == '-') then s[1..] else s
  }

  /** `parseInt(s, 10)` is `NaN`: no digit follows the leading white space and an optional sign. */
  predicate ParseIntNaN(s: string)
  {
    var v := DropSign(TrimStart(s));
    |v| == 0 || !IsDigit(v[0])
  }

  /**
   * `parseInt(d[1]-1, 10)` is `NaN` whenever the month is missing, or its
   * first character after white space and a sign is neither a digit nor a
   * `.`: the subtraction then gives `NaN`, or an infinity whose text
   * `parseInt` cannot read either.
   */
  predicate MonthNaN(month: Option<string>)
  {
    match month
    case None => true
    case Some(m) =>
      var v := DropSign(TrimStart(m));
      |v| > 0 && !IsDigit(v[0]) && v[0] != '.'
  }

  /** Fields of which one makes `new Date(...)` in `isoToDateObject` an Invalid Date. */
  predicate InvalidDateFields(f: IsoFields)
  {
    ParseIntNaN(f.year) || MonthNaN(f.month) || f.day.None? || ParseIntNaN(f.day.value) ||
    ParseIntNaN(f.hour) || ParseIntNaN(f.minute) || ParseIntNaN(f.second) || ParseIntNaN(f.millis)
  }

  /**
   * What the model needs of the stand-in for the local-time `Date`
   * constructor: a `NaN` argument gives an Invalid Date, and a valid one
   * lies within the `Date` range. Which valid fields give which instant
   * depends on the time zone and is left to it; so is the Invalid Date of
   * an instant out of range.
   */
  ghost predicate DateConstructor(localTime: IsoFields -> TimeValue)
  {
    (forall f :: InvalidDateFields(f) ==> localTime(f) == NaN) &&
    (forall f :: localTime(f).Ms? ==> InDateRange(localTime(f).ms))
  }

  /** A run of digits is read by `parseInt` as a number. */
  lemma DigitsParse(s: string)
    requires AllDigits(s) && |s| > 0
    ensures DropSign(TrimStart(s)) == s
    ensures !ParseIntNaN(s)
  {
    assert IsDigit(s[0]);
    assert !IsJsSpace(s[0]);
    assert TrimStart(s) == s;
    assert DropSign(s) == s;
  }

  /** The fields of the full form, all non-empty digit runs, give a valid date. */
  lemma DigitFieldsAreValid(y: string, mo: string, d: string, h: string, mi: string, s: string, f: string)
    requires AllDigits(y) && AllDigits(mo) && AllDigits(d) && AllDigits(h) && AllDigits(mi)
    requires AllDigits(s) && AllDigits(f)
    requires |y| > 0 && |mo| > 0 && |d| > 0 && |h| > 0 && |mi| > 0 && |s| > 0 && |f| > 0
    ensures !InvalidDateFields(IsoFields(y, Some(mo), Some(d), h, mi, s, f))
  {
    DigitsParse(y);
    DigitsParse(mo);
    DigitsParse(d);
    DigitsParse(h);
    DigitsParse(mi);
    DigitsParse(s);
    DigitsParse(f);
  }

  lemma YearOnlyConcat(y: string, h: string, mi: string, s: string)
    ensures y + "T" + h + ":" + mi + ":" + s + "Z" == y + "T" + (h + ":" + mi + ":" + s + "Z")
  {
  }

  /**
   * A date-time with a year but no month, `2012T00:00:00Z`, splits without
   * error, but its missing month makes the `Date` an Invalid Date.
   */
  lemma {:induction false} YearOnlyIsInvalidDate(y: string, h: string, mi: string, s: string)
    requires AllDigits(y) && AllDigits(h) && AllDigits(mi) && AllDigits(s) && |s| > 0
    ensures SplitIsoDateTime(y + "T" + h + ":" + mi + ":" + s + "Z")
      == Success(IsoFields(y, None, None, h, mi, s, s))
    ensures InvalidDateFields(IsoFields(y, None, None, h, mi, s, s))
  {
    YearOnlyConcat(y, h, mi, s);
    assert 'T' !in y && '-' !in y;
    SecondsShape(s, s);
    TimeShape(h, mi, s);
    WholeSecondsOnly(s);
    DateTimeParts(y, h + ":" + mi + ":" + s + "Z");
    SplitWithoutSeparator(y, '-');
  }

  /** `2012T00:00:00Z` gives an Invalid Date under any stand-in for the `Date` constructor. */
  lemma YearOnlyDateIsNaN(localTime: IsoFields -> TimeValue)
    requires DateConstructor(localTime)
    ensures SplitIsoDateTime("2012T00:00:00Z").Success?
    ensures localTime(SplitIsoDateTime("2012T00:00:00Z").value) == NaN
  {
    assert "2012T00:00:00Z" == "2012" + "T" + "00" + ":" + "00" + ":" + "00" + "Z";
    assert AllDigits("2012") && AllDigits("00");
    YearOnlyIsInvalidDate("2012", "00", "00", "00");
  }

  // ---------------------------------------------------------------------
  // time intervals

  /** `{start, end}`: two time values, updated in place by `adjustTimeInterval`. */
  class TimeInterval {
    var start: TimeValue
    var end: TimeValue

    constructor (start: TimeValue, end: TimeValue)
      ensures this.start == start && this.end == end
    {
      this.start := start;
      this.end := end;
    }
  }

  /**
   * `adjustTimeInterval`: shift each end by its own offset. `setTime`
   * keeps `NaN` as `NaN` and makes a time moved out of the range `NaN`.
   */
  method AdjustTimeInterval(t: TimeInterval, startOffset: int, endOffset: int)
    modifies t
    ensures t.start.Ms? <==> old(t.start).Ms? && InDateRange(old(t.start).ms + startOffset)
    ensures t.end.Ms? <==> old(t.end).Ms? && InDateRange(old(t.end).ms + endOffset)
    ensures t.start.Ms? ==> t.start.ms == old(t.start).ms + startOffset
    ensures t.end.Ms? ==> t.end.ms == old(t.end).ms + endOffset
  {
    if t.start.Ms? {
      t.start := ClipMs(t.start.ms + startOffset);
    }
    if t.end.Ms? {
      t.end := ClipMs(t.end.ms + endOffset);
    }
  }

  /**
   * `isoToTimeInterval`: both strings read as local-time `Date`s;
   * `localTime` stands for the `Date` constructor. Either string without a
   * seconds field makes the source throw. An Invalid Date does not: it is
   * returned as a `NaN` end.
   */
  method IsoToTimeInterval(start: string, end: string, localTime: IsoFields -> TimeValue) returns (r: Result<TimeInterval>)
    requires DateConstructor(localTime)
    ensures r.Success? <==> SplitIsoDateTime(start).Success? && SplitIsoDateTime(end).Success?
    ensures r.Success? ==> fresh(r.value)
    ensures r.Success? ==>
      r.value.start == localTime(SplitIsoDateTime(start).value) &&
      r.value.end == localTime(SplitIsoDateTime(end).value)
    ensures r.Success? && InvalidDateFields(SplitIsoDateTime(start).value) ==> r.value.start.NaN?
    ensures r.Success? && InvalidDateFields(SplitIsoDateTime(end).value) ==> r.value.end.NaN?
  {
    var s := SplitIsoDateTime(start);
    if s.Failure? {
      return Failure(s.error);
    }
    var e := SplitIsoDateTime(end);
    if e.Failure? {
      return Failure(e.error);
    }
    var t := new TimeInterval(localTime(s.value), localTime(e.value));
    r := Success(t);
  }

  // ---------------------------------------------------------------------
  // parseRelativeTime

  const HourMs: int := 60 * 60 * 1000
  const DayMs: int := 24 * HourMs
  const WeekMs: int := 7 * DayMs
  const MonthMs: int := 31 * DayMs
  const YearMs: int := 366 * DayMs

  /** `a % b` as JavaScript computes it: the remainder has the sign of `a`. */
  function JsRem(a: int, b: int): (r: int)
    requires b > 0
    ensures a >= 0 ==> 0 <= r < b
    ensures a < 0 ==> -b < r <= 0
  {
    if a >= 0 then a % b else -((-a) % b)
  }

  /**
   * The clock readings `parseRelativeTime` takes: the current instant and
   * its UTC weekday (0 is Sunday), day of the month and day of the year.
   */
  datatype UtcClock = UtcClock(now: int, utcDay: int, utcDate: int, utcDayOfYear: int)

  /** Readings a real clock after the epoch can give. */
  predicate CalendarClock(clock: UtcClock)
  {
    clock.now >= 0 && 0 <= clock.utcDay <= 6 && 1 <= clock.utcDate <= 31 && 1 <= clock.utcDayOfYear <= 366
  }

  /** A start and an end instant, as values. */
  datatype Window = Window(start: int, end: int)

  /** The synonyms: `to`/`current` read as `this`, `yester`/`previous` as `last` (first match each). */
  function NormalizeToken(x: string): string
  {
    var s := ReplaceFirstEitherCI(x, "to", "current", "this");
    ReplaceFirstEitherCI(s, "yester", "previous", "last")
  }

  /**
   * The unit length `u` and the time `c` already elapsed in the current
   * unit, chosen by the token's ending. The tests run in turn and a later
   * one that matches overrides an earlier one; no match leaves both zero.
   */
  function UnitAndElapsed(s: string, clock: UtcClock): (int, int)
  {
    var T := clock.now;
    var uc := (0, 0);
    var uc := if EndsWithCI(s, "hour") then (HourMs, JsRem(T, HourMs)) else uc;
    var uc := if EndsWithCI(s, "day") then (DayMs, JsRem(T, DayMs)) else uc;
    var uc := if EndsWithCI(s, "week") then (WeekMs, clock.utcDay * DayMs + JsRem(T, DayMs)) else uc;
    var uc := if EndsWithCI(s, "month") then (MonthMs, (clock.utcDate - 1) * DayMs + JsRem(T, DayMs)) else uc;
    var uc := if EndsWithCI(s, "year") then (YearMs, (clock.utcDayOfYear - 1) * DayMs + JsRem(T, DayMs)) else uc;
    uc
  }

  /**
   * The interval for a token after the synonym step: it starts as `[T, T]`
   * and each matching prefix (`this`, `last`, `rolling`, checked in that
   * order) shifts it.
   */
  function ShiftedWindow(s: string, clock: UtcClock): Window
  {
    var uc := UnitAndElapsed(s, clock);
    var u, c := uc.0, uc.1;
    var T := clock.now;
    var w := Window(T, T);
    var w := if StartsWithCI(s, "this") then Window(w.start - c, w.end - c + u - 1) else w;
    var w := if StartsWithCI(s, "last") then Window(w.start - c - u, w.end - c - 1) else w;
    var w := if StartsWithCI(s, "rolling") then Window(w.start - u, w.end - 1) else w;
    w
  }

  /** The interval `parseRelativeTime` returns for token `x`. */
  function RelativeWindow(x: string, clock: UtcClock): Window
  {
    ShiftedWindow(NormalizeToken(x), clock)
  }

  /** The unit tests of `parseRelativeTime`: each matching ending sets the unit and the elapsed time anew. */
  method UnitOfToken(s: string, clock: UtcClock) returns (u: int, c: int)
    ensures (u, c) == UnitAndElapsed(s, clock)
  {
    var T := clock.now;
    u, c := 0, 0;
    if EndsWithCI(s, "hour") {
      u := HourMs;
      c := JsRem(T, u);
    }
    if EndsWithCI(s, "day") {
      u := DayMs;
      c := JsRem(T, u);
    }
    if EndsWithCI(s, "week") {
      u := WeekMs;
      c := clock.utcDay * DayMs + JsRem(T, DayMs);
    }
    if EndsWithCI(s, "month") {
      u := MonthMs;
      c := (clock.utcDate - 1) * DayMs + JsRem(T, DayMs);
    }
    if EndsWithCI(s, "year") {
      u := YearMs;
      c := (clock.utcDayOfYear - 1) * DayMs + JsRem(T, DayMs);
    }
  }

  /** The three in-place shifts of `parseRelativeTime`, each applied when its prefix test held. */
  method ShiftInterval(t: TimeInterval, isThis: bool, isLast: bool, isRolling: bool, u: int, c: int)
    modifies t
    ensures
      var s1 := if isThis then Moved(old(t.start), -c) else old(t.start);
      var s2 := if isLast then Moved(s1, -c - u) else s1;
      t.start == if isRolling then Moved(s2, -u) else s2
    ensures
      var e1 := if isThis then Moved(old(t.end), -c + u - 1) else old(t.end);
      var e2 := if isLast then Moved(e1, -c - 1) else e1;
      t.end == if isRolling then Moved(e2, -1) else e2
  {
    if isThis {
      AdjustTimeInterval(t, -c, -c + u - 1);
    }
    if isLast {
      AdjustTimeInterval(t, -c - u, -c - 1);
    }
    if isRolling {
      AdjustTimeInterval(t, -u, -1);
    }
  }

  /** `parseRelativeTime`: a new interval at `[T, T]`, then shifted as the token says. */
  method ParseRelativeTime(x: string, clock: UtcClock) returns (t: TimeInterval)
    ensures fresh(t)
    ensures t.start.Ms? <==> InDateRange(clock.now) && InDateRange(RelativeWindow(x, clock).start)
    ensures t.end.Ms? <==> InDateRange(clock.now) && InDateRange(RelativeWindow(x, clock).end)
    ensures t.start.Ms? ==> t.start.ms == RelativeWindow(x, clock).start
    ensures t.end.Ms? ==> t.end.ms == RelativeWindow(x, clock).end
  {
    var T := clock.now;
    var s := NormalizeToken(x);
    t := new TimeInterval(ClipMs(T), ClipMs(T));
    var u, c := UnitOfToken(s, clock);
    var isThis := StartsWithCI(s, "this");
    var isLast := StartsWithCI(s, "last");
    var isRolling := StartsWithCI(s, "rolling");
    // at most one shift applies, so each end leaves the range at most once
    PrefixesExclusive(s);
    ShiftInterval(t, isThis, isLast, isRolling, u, c);
  }

  // ---------------------------------------------------------------------
  // properties of the relative windows

  /** The five units a token can end with. */
  datatype Span = Hour | Day | Week | Month | Year

  function SpanWord(sp: Span): string
  {
    match sp
    case Hour => "hour"
    case Day => "day"
    case Week => "week"
    case Month => "month"
    case Year => "year"
  }

  function SpanLength(sp: Span): int
  {
    match sp
    case Hour => HourMs
    case Day => DayMs
    case Week => WeekMs
    case Month => MonthMs
    case Year => YearMs
  }

  /** The time elapsed since the current hour, day, week (from Sunday), month or year began. */
  function SpanElapsed(sp: Span, clock: UtcClock): int
  {
    match sp
    case Hour => JsRem(clock.now, HourMs)
    case Day => JsRem(clock.now, DayMs)
    case Week => clock.utcDay * DayMs + JsRem(clock.now, DayMs)
    case Month => (clock.utcDate - 1) * DayMs + JsRem(clock.now, DayMs)
    case Year => (clock.utcDayOfYear - 1) * DayMs + JsRem(clock.now, DayMs)
  }

  /** The three prefixes exclude each other: they differ in their first letter. */
  lemma PrefixesExclusive(s: string)
    ensures StartsWithCI(s, "this") ==> !StartsWithCI(s, "last") && !StartsWithCI(s, "rolling")
    ensures StartsWithCI(s, "last") ==> !StartsWithCI(s, "rolling")
  {
  }

  /**
   * The unit is read off the token's ending alone: a token ending in one
   * unit word ends in no other, so exactly that unit is selected.
   */
  lemma UnitWordsDiffer(s: string, sp: Span, other: Span)
    requires EndsWithCI(s, SpanWord(sp)) && sp != other
    ensures !EndsWithCI(s, SpanWord(other))
  {
    var k := if {sp, other} == {Hour, Year} then 1 else 0;
    EndingsDiffer(s, SpanWord(sp), SpanWord(other), k);
  }

  lemma UnitFromEnding(s: string, sp: Span, clock: UtcClock)
    requires EndsWithCI(s, SpanWord(sp))
    ensures UnitAndElapsed(s, clock) == (SpanLength(sp), SpanElapsed(sp, clock))
  {
    if sp != Hour { UnitWordsDiffer(s, sp, Hour); }
    if sp != Day { UnitWordsDiffer(s, sp, Day); }
    if sp != Week { UnitWordsDiffer(s, sp, Week); }
    if sp != Month { UnitWordsDiffer(s, sp, Month); }
    if sp != Year { UnitWordsDiffer(s, sp, Year); }
  }

  /**
   * A token that reads `this<unit>` after the synonym step runs from the
   * start of the current unit to one millisecond before a whole unit later.
   */
  lemma ThisWindow(x: string, sp: Span, clock: UtcClock)
    requires StartsWithCI(NormalizeToken(x), "this") && EndsWithCI(NormalizeToken(x), SpanWord(sp))
    ensures RelativeWindow(x, clock) ==
      Window(clock.now - SpanElapsed(sp, clock), clock.now - SpanElapsed(sp, clock) + SpanLength(sp) - 1)
  {
    PrefixesExclusive(NormalizeToken(x));
    UnitFromEnding(NormalizeToken(x), sp, clock);
  }

  /** `last<unit>` is the unit-long window that ends one millisecond before the current unit began. */
  lemma LastWindow(x: string, sp: Span, clock: UtcClock)
    requires StartsWithCI(NormalizeToken(x), "last") && EndsWithCI(NormalizeToken(x), SpanWord(sp))
    ensures RelativeWindow(x, clock) ==
      Window(clock.now - SpanElapsed(sp, clock) - SpanLength(sp), clock.now - SpanElapsed(sp, clock) - 1)
  {
    PrefixesExclusive(NormalizeToken(x));
    UnitFromEnding(NormalizeToken(x), sp, clock);
  }

  /** `rolling<unit>` is the unit-long window that ends one millisecond before now. */
  lemma RollingWindow(x: string, sp: Span, clock: UtcClock)
    requires StartsWithCI(NormalizeToken(x), "rolling") && EndsWithCI(NormalizeToken(x), SpanWord(sp))
    ensures RelativeWindow(x, clock) == Window(clock.now - SpanLength(sp), clock.now - 1)
  {
    PrefixesExclusive(NormalizeToken(x));
    UnitFromEnding(NormalizeToken(x), sp, clock);
  }

  /** `last<unit>` ends just before `this<unit>` begins, and both are one unit long. */
  lemma LastAdjoinsThis(x: string, y: string, sp: Span, clock: UtcClock)
    requires StartsWithCI(NormalizeToken(x), "last") && EndsWithCI(NormalizeToken(x), SpanWord(sp))
    requires StartsWithCI(NormalizeToken(y), "this") && EndsWithCI(NormalizeToken(y), SpanWord(sp))
    ensures RelativeWindow(x, clock).end + 1 == RelativeWindow(y, clock).start
    ensures RelativeWindow(x, clock).end - RelativeWindow(x, clock).start + 1 == SpanLength(sp)
    ensures RelativeWindow(y, clock).end - RelativeWindow(y, clock).start + 1 == SpanLength(sp)
  {
    LastWindow(x, sp, clock);
    ThisWindow(y, sp, clock);
  }

  /** After the epoch, the time elapsed in the current unit is less than one unit. */
  lemma ElapsedWithinSpan(sp: Span, clock: UtcClock)
    requires CalendarClock(clock)
    ensures 0 <= SpanElapsed(sp, clock) < SpanLength(sp)
  {
    var r := JsRem(clock.now, DayMs);
    assert 0 <= r < DayMs;
    match sp
    case Hour =>
    case Day =>
    case Week =>
      assert clock.utcDay * DayMs <= 6 * DayMs;
    case Month =>
      assert (clock.utcDate - 1) * DayMs <= 30 * DayMs;
    case Year =>
      assert (clock.utcDayOfYear - 1) * DayMs <= 365 * DayMs;
  }

  /** For a clock after the epoch, `this<unit>` contains the current instant. */
  lemma ThisWindowContainsNow(x: string, sp: Span, clock: UtcClock)
    requires StartsWithCI(NormalizeToken(x), "this") && EndsWithCI(NormalizeToken(x), SpanWord(sp))
    requires CalendarClock(clock)
    ensures RelativeWindow(x, clock).start <= clock.now <= RelativeWindow(x, clock).end
  {
    ThisWindow(x, sp, clock);
    ElapsedWithinSpan(sp, clock);
  }

  /**
   * The `to` synonym: a token `to<rest>` whose rest has no `e` reads as
   * `this<rest>` ("today" as "thisday"); without an `e` no `yester` or
   * `previous` can follow.
   */
  lemma ToToken(rest: string)
    requires forall i :: 0 <= i < |rest| ==> LowerAscii(rest[i]) != 'e'
    ensures NormalizeToken("to" + rest) == "this" + rest
  {
    var w := "to";
    var x := w + rest;
    assert MatchesAtCI(x, w, 0) by {
      PrefixCIOfConcat(w, rest);
      assert x[0..] == x;
    }
    assert x[..0] == [] && x[|w|..] == rest;
    var y := "this" + rest;
    assert ReplaceFirstEitherCI(x, "to", "current", "this") == y;
    forall i | 0 <= i < |y|
      ensures LowerAscii(y[i]) != 'e'
    {
      if i >= 4 {
        assert y[i] == rest[i - 4];
      }
    }
    NoMatchWithoutLetter(y, "yester", 1);
    NoMatchWithoutLetter(y, "previous", 2);
    ReplaceFirstEitherCIAbsent(y, "yester", "previous", "last", 0);
  }

  /**
   * The `yester` synonym: a token `yester<rest>` whose rest has no `o` and
   * no `c` (so no `to` or `current` occurs) reads as `last<rest>`
   * ("yesterday" as "lastday").
   */
  lemma YesterToken(rest: string)
    requires forall i :: 0 <= i < |rest| ==> LowerAscii(rest[i]) != 'o' && LowerAscii(rest[i]) != 'c'
    ensures NormalizeToken("yester" + rest) == "last" + rest
  {
    var w := "yester";
    var x := w + rest;
    forall i | 0 <= i < |x|
      ensures LowerAscii(x[i]) != 'o' && LowerAscii(x[i]) != 'c'
    {
      if i >= 6 {
        assert x[i] == rest[i - 6];
      }
    }
    NoMatchWithoutLetter(x, "to", 1);
    NoMatchWithoutLetter(x, "current", 0);
    ReplaceFirstEitherCIAbsent(x, "to", "current", "this", 0);
    assert MatchesAtCI(x, w, 0) by {
      PrefixCIOfConcat(w, rest);
      assert x[0..] == x;
    }
    assert x[..0] == [] && x[|w|..] == rest;
  }

  /**
   * A token with none of the prefixes `this`, `last`, `rolling` (after the
   * synonyms) leaves the interval at `[T, T]`.
   */
  lemma UnrecognizedTokenIsNow(x: string, clock: UtcClock)
    requires !StartsWithCI(NormalizeToken(x), "this")
    requires !StartsWithCI(NormalizeToken(x), "last")
    requires !StartsWithCI(NormalizeToken(x), "rolling")
    ensures RelativeWindow(x, clock) == Window(clock.now, clock.now)
  {
  }

  /** A `rolling` token with no known unit gives the empty window `[T, T - 1]`. */
  lemma RollingWithoutUnit(x: string, clock: UtcClock)
    requires StartsWithCI(NormalizeToken(x), "rolling")
    requires !EndsWithCI(NormalizeToken(x), "hour") && !EndsWithCI(NormalizeToken(x), "day")
    requires !EndsWithCI(NormalizeToken(x), "week") && !EndsWithCI(NormalizeToken(x), "month")
    requires !EndsWithCI(NormalizeToken(x), "year")
    ensures RelativeWindow(x, clock) == Window(clock.now, clock.now - 1)
  {
    PrefixesExclusive(NormalizeToken(x));
  }

  /** "today" is the UTC day of the current instant: from its midnight to one millisecond before the next. */
  lemma TodayWindow(clock: UtcClock)
    ensures RelativeWindow("today", clock) ==
      Window(clock.now - JsRem(clock.now, DayMs), clock.now - JsRem(clock.now, DayMs) + DayMs - 1)
  {
    var rest := "day";
    assert forall i :: 0 <= i < |rest| ==> LowerAscii(rest[i]) != 'e';
    ToThisWindow(rest, Day, clock);
    assert "to" + rest == "today";
  }

  /** `to<unit>` for a unit word without an `e` is read as `this<unit>`. */
  lemma ToThisWindow(rest: string, sp: Span, clock: UtcClock)
    requires rest == SpanWord(sp)
    requires forall i :: 0 <= i < |rest| ==> LowerAscii(rest[i]) != 'e'
    ensures RelativeWindow("to" + rest, clock) ==
      Window(clock.now - SpanElapsed(sp, clock), clock.now - SpanElapsed(sp, clock) + SpanLength(sp) - 1)
  {
    ToToken(rest);
    AffixesOfConcat("this", rest);
    ThisWindow("to" + rest, sp, clock);
  }

}

=== FILE: sos_ui.dfy ===
/**
 * The data-table and plot-option logic of `SOS.Plot`: turning an
 * offering's observation records into a plottable table with a label,
 * filling in axis labels, queueing additional plots, greying out curves,
 * and the statistics of a selected interval.
 *
 * Drawing, dialogs and the flot plotting library are outside this model.
 */
module SosUi {
  import opened Wrappers
  import opened SosStats
  import SosClient

  /** `name + (uom.length > 0 ? " / " + uom : "")`. */
  function NameWithUom(name: string, uom: string): string
  {
    if |uom| > 0 then name + " / " + uom else name
  }

  /** A plottable series: its label, property name and unit, and `[timestamp, value]` rows. */
  datatype Table = Table(seriesLabel: string, name: string, uom: string, data: seq<Row>)

  // ---------------------------------------------------------------------
  // constructDataTable

  /**
   * The value of a field that is assigned each element in turn for as
   * long as it is still empty: once non-empty it stays as it is.
   */
  function FirstNonEmpty(xs: seq<string>): string
  {
    if |xs| == 0 then ""
    else
      var p := FirstNonEmpty(xs[..|xs| - 1]);
      if |p| > 0 then p else xs[|xs| - 1]
  }

  /** The field ends up empty exactly when every element is empty. */
  lemma {:induction false} FirstNonEmptyEmpty(xs: seq<string>)
    ensures |FirstNonEmpty(xs)| == 0 <==> forall k :: 0 <= k < |xs| ==> |xs[k]| == 0
  {
    if |xs| > 0 {
      var init := xs[..|xs| - 1];
      FirstNonEmptyEmpty(init);
      assert forall k :: 0 <= k < |init| ==> init[k] == xs[k];
    }
  }

  /** Otherwise it ends up as the first non-empty element. */
  lemma {:induction false} FirstNonEmptyAt(xs: seq<string>, k: nat)
    requires k < |xs| && |xs[k]| > 0
    requires forall q :: 0 <= q < k ==> |xs[q]| == 0
    ensures FirstNonEmpty(xs) == xs[k]
  {
    var init := xs[..|xs| - 1];
    if k < |xs| - 1 {
      FirstNonEmptyAt(init, k);
    } else {
      FirstNonEmptyEmpty(init);
    }
  }

  function Titles(records: seq<SosClient.ObservationRecord>): (r: seq<string>)
    ensures |r| == |records|
    ensures forall i :: 0 <= i < |records| ==> r[i] == records[i].observedPropertyTitle
  {
    seq(|records|, i requires 0 <= i < |records| => records[i].observedPropertyTitle)
  }

  function UomTitles(records: seq<SosClient.ObservationRecord>): (r: seq<string>)
    ensures |r| == |records|
    ensures forall i :: 0 <= i < |records| ==> r[i] == records[i].uomTitle
  {
    seq(|records|, i requires 0 <= i < |records| => records[i].uomTitle)
  }

  /** The label rule: the source's name, else its id, else the property name with its unit. */
  function TableLabel(resName: string, resId: string, name: string, uom: string): string
  {
    if |resName| > 0 then resName
    else if |resId| > 0 then resId
    else NameWithUom(name, uom)
  }

  /**
   * `constructDataTable`: one `[timestamp, value]` row per record, in
   * order. `records` are the results of `getObservationRecord(i)` for
   * every `i` below `getCountOfObservations()`, `resName` and `resId` the
   * source's `name` and `id` (empty when unset), and `timestamp` stands
   * for `isoToJsTimestamp`.
   */
  method ConstructDataTable(resName: string, resId: string, records: seq<SosClient.ObservationRecord>,
                            timestamp: string -> real)
    returns (table: Table)
    ensures |table.data| == |records|
    ensures forall i :: 0 <= i < |records| ==>
      table.data[i] == [timestamp(records[i].time), records[i].measurement.value]
    ensures table.name == FirstNonEmpty(Titles(records))
    ensures table.uom == FirstNonEmpty(UomTitles(records))
    ensures table.seriesLabel == TableLabel(resName, resId, table.name, table.uom)
  {
    table := Table("", "", "", []);
    ghost var titles, uoms := Titles(records), UomTitles(records);
    for i := 0 to |records|
      invariant |table.data| == i
      invariant forall k :: 0 <= k < i ==>
        table.data[k] == [timestamp(records[k].time), records[k].measurement.value]
      invariant table.name == FirstNonEmpty(titles[..i])
      invariant table.uom == FirstNonEmpty(uoms[..i])
      invariant table.seriesLabel == ""
    {
      var ob := records[i];
      assert FirstNonEmpty(titles[..i + 1]) ==
        if |FirstNonEmpty(titles[..i])| > 0 then FirstNonEmpty(titles[..i]) else ob.observedPropertyTitle by {
        assert titles[..i + 1][..i] == titles[..i];
      }
      assert FirstNonEmpty(uoms[..i + 1]) ==
        if |FirstNonEmpty(uoms[..i])| > 0 then FirstNonEmpty(uoms[..i]) else ob.uomTitle by {
        assert uoms[..i + 1][..i] == uoms[..i];
      }
      if |table.name| < 1 {
        table := table.(name := ob.observedPropertyTitle);
      }
      if |table.uom| < 1 {
        table := table.(uom := ob.uomTitle);
      }
      table := table.(data := table.data + [[timestamp(ob.time), ob.measurement.value]]);
    }
    assert titles[..|records|] == titles;
    assert uoms[..|records|] == uoms;
    if |resName| > 0 {
      table := table.(seriesLabel := resName);
    } else if |resId| > 0 {
      table := table.(seriesLabel := resId);
    } else {
      table := table.(seriesLabel := NameWithUom(table.name, table.uom));
    }
  }

  /** With no name or id, the label is the first property title with the first unit appended. */
  lemma TableLabelFromRecords(records: seq<SosClient.ObservationRecord>, k: nat)
    requires k < |records| && |records[k].observedPropertyTitle| > 0 && |records[k].uomTitle| > 0
    requires forall q :: 0 <= q < k ==> |records[q].observedPropertyTitle| == 0 && |records[q].uomTitle| == 0
    ensures TableLabel("", "", FirstNonEmpty(Titles(records)), FirstNonEmpty(UomTitles(records))) ==
      records[k].observedPropertyTitle + " / " + records[k].uomTitle
  {
    FirstNonEmptyAt(Titles(records), k);
    FirstNonEmptyAt(UomTitles(records), k);
  }

  // ---------------------------------------------------------------------
  // plot options

  /** The x- and y-axis labels; `None` stands for a `null` or unset label. */
  datatype AxisLabels = AxisLabels(x: Option<string>, y: Option<string>)

  /**
   * `applyPlotDefaults` on the labels: a hidden grid clears both, and
   * otherwise an unset y-axis label is taken from the first series.
   */
  function Defaulted(gridShow: Option<bool>, labels: AxisLabels, series: seq<Table>): AxisLabels
  {
    if gridShow == Some(false) then AxisLabels(None, None)
    else if labels.y.None? && |series| > 0 then labels.(y := Some(NameWithUom(series[0].name, series[0].uom)))
    else labels
  }

  /**
   * Applying the defaults twice is the same as once; an existing y-axis
   * label and the x-axis label are kept when the grid is shown.
   */
  lemma DefaultedProperties(gridShow: Option<bool>, labels: AxisLabels, series: seq<Table>)
    ensures Defaulted(gridShow, Defaulted(gridShow, labels, series), series) == Defaulted(gridShow, labels, series)
    ensures gridShow != Some(false) ==> Defaulted(gridShow, labels, series).x == labels.x
    ensures gridShow != Some(false) && labels.y.Some? ==> Defaulted(gridShow, labels, series) == labels
    ensures gridShow != Some(false) && |series| > 0 ==> Defaulted(gridShow, labels, series).y.Some?
  {
  }

  /** The x-axis label of the `SOS.Plot` class defaults. */
  const TimeAxisLabel: string := "Time"

  /** The grey `greyOutCurvesOnPlot` paints curves with. */
  const Grey: string := "rgb(240, 240, 240)"

  /**
   * `greyOutCurvesOnPlot`: every series colour except the one at
   * `seriesIndex` becomes grey; `-1` greys them all.
   */
  method GreyOutCurvesOnPlot(colors: array<string>, seriesIndex: int)
    modifies colors
    ensures forall i :: 0 <= i < colors.Length ==> colors[i] == if i != seriesIndex then Grey else old(colors[i])
    ensures seriesIndex < 0 ==> forall i :: 0 <= i < colors.Length ==> colors[i] == Grey
  {
    for i := 0 to colors.Length
      invariant forall k :: 0 <= k < i ==> colors[k] == if k != seriesIndex then Grey else old(colors[k])
      invariant forall k :: i <= k < colors.Length ==> colors[k] == old(colors[k])
    {
      if i != seriesIndex {
        colors[i] := Grey;
      }
    }
  }

  // ---------------------------------------------------------------------
  // selected interval

  /** The rows between two clicked indices, both included, whatever the click order. */
  function SelectedRows<T>(data: seq<T>, a: nat, b: nat): seq<T>
  {
    var start := if a < b then a else b;
    var end := if a < b then b else a;
    JsSlice(data, start, end + 1)
  }

  /** Within the data the selection is the inclusive range, the same for either click order. */
  lemma SelectedRowsRange<T>(data: seq<T>, a: nat, b: nat)
    requires a < |data| && b < |data|
    ensures a <= b ==> SelectedRows(data, a, b) == data[a..b + 1]
    ensures SelectedRows(data, a, b) == SelectedRows(data, b, a)
    ensures |SelectedRows(data, a, b)| == (if a < b then b - a else a - b) + 1
  {
  }

  /** The values of column `n` of the given rows. */
  function Column(rows: seq<Row>, n: nat): (values: seq<real>)
    requires forall i :: 0 <= i < |rows| ==> n < |rows[i]|
    ensures |values| == |rows|
    ensures forall i :: 0 <= i < |rows| ==> values[i] == rows[i][n]
  {
    seq(|rows|, i requires 0 <= i < |rows| => rows[i][n])
  }

  /**
   * The summary statistics and histogram of column `n` of the selected
   * rows; `SOS.Plot` uses the value column, 1.
   */
  method SelectedIntervalStats(data: seq<Row>, a: nat, b: nat, n: nat) returns (stats: Summary, hist: Histogram)
    requires forall i :: 0 <= i < |data| ==> n < |data[i]|
    ensures stats == SummaryOf(Column(SelectedRows(data, a, b), n))
    ensures IsHistogramOf(hist, Column(SelectedRows(data, a, b), n))
  {
    var start := if a < b then a else b;
    var end := if a < b then b else a;
    var subset := JsSlice(data, start, end + 1);
    var values := ExtractColumn(subset, n);
    assert values == Column(SelectedRows(data, a, b), n);
    stats := ComputeStats(values);
    hist := ComputeHistogram(values);
  }

  // ---------------------------------------------------------------------
  // SOS.Plot

  /** A plot: its axis options, its series and the queued additional plot requests. */
  class Plot<Options> {
    var gridShow: Option<bool>
    var labels: AxisLabels
    var series: seq<Table>
    var additional: seq<Options>

    /** A new plot carries the class defaults: a time x-axis labelled `Time`, no y-axis label, no series. */
    constructor ()
      ensures gridShow.None? && labels == AxisLabels(Some(TimeAxisLabel), None) && series == [] && additional == []
    {
      gridShow := None;
      labels := AxisLabels(Some(TimeAxisLabel), None);
      series := [];
      additional := [];
    }

    /** `applyPlotDefaults`. */
    method ApplyPlotDefaults()
      modifies this
      ensures labels == Defaulted(gridShow, old(labels), series)
      ensures gridShow == old(gridShow) && series == old(series) && additional == old(additional)
    {
      if gridShow == Some(false) {
        labels := AxisLabels(None, None);
      } else if labels.y.None? && |series| > 0 {
        var axisLabel := series[0].name;
        if |series[0].uom| > 0 {
          axisLabel := axisLabel + " / " + series[0].uom;
        }
        labels := labels.(y := Some(axisLabel));
      }
    }

    /** `addToPlot`: the options are queued only when they are given. */
    method AddToPlot(options: Option<Options>)
      modifies this
      ensures options.Some? ==> additional == old(additional) + [options.value]
      ensures options.None? ==> additional == old(additional)
      ensures gridShow == old(gridShow) && labels == old(labels) && series == old(series)
    {
      if options.Some? {
        additional := additional + [options.value];
      }
    }

    /** `displaySelectedIntervalStats`: the value column of the selected rows. */
    method DisplaySelectedIntervalStats(data: seq<Row>, a: nat, b: nat) returns (stats: Summary, hist: Histogram)
      requires forall i :: 0 <= i < |data| ==> 1 < |data[i]|
      ensures stats == SummaryOf(Column(SelectedRows(data, a, b), 1))
      ensures IsHistogramOf(hist, Column(SelectedRows(data, a, b), 1))
    {
      stats, hist := SelectedIntervalStats(data, a, b, 1);
    }
  }
}

=== FILE: text.dfy ===
/**
 * String primitives the SOS client relies on, stated the way JavaScript
 * evaluates them: `split` on a one-character separator and its inverse
 * `join`, `indexOf` and first-occurrence `replace`, the case-insensitive
 * regex tests the client uses on words, and the order `<` on strings
 * (code-point order, which is JavaScript's code-unit order on strings
 * without supplementary characters, such as ISO time positions).
 */
module Text {
  import opened Wrappers

  /** The characters that end a line for JavaScript regexes (`.` does not match them). */
  predicate IsLineTerminator(c: char)
  {
    c == '\n' || c == '\r' || c == '\U{2028}' || c == '\U{2029}'
  }

  predicate IsDigit(c: char)
  {
    '0' <= c <= '9'
  }

  /** `toUpperCase` restricted to ASCII letters. */
  function UpperAscii(c: char): char
  {
    if 'a' <= c <= 'z' then (c as int - 32) as char else c
  }

  /** The folding the `i` regex flag applies to ASCII letters. */
  function LowerAscii(c: char): char
  {
    if 'A' <= c <= 'Z' then (c as int + 32) as char else c
  }

  // ---------------------------------------------------------------------
  // split / join

  /** `s.split(sep)` for a one-character separator: always at least one part. */
  function Split(s: string, sep: char): (parts: seq<string>)
    ensures |parts| >= 1
  {
    if |s| == 0 then [""]
    else if s[0] == sep then [""] + Split(s[1..], sep)
    else
      var rest := Split(s[1..], sep);
      [[s[0]] + rest[0]] + rest[1..]
  }

  /** `parts.join(sep)`. */
  function Join(parts: seq<string>, sep: char): string
    requires |parts| >= 1
  {
    if |parts| == 1 then parts[0] else parts[0] + [sep] + Join(parts[1..], sep)
  }

  lemma JoinCons(c: char, w: string, rest: seq<string>, sep: char)
    ensures Join([[c] + w] + rest, sep) == [c] + Join([w] + rest, sep)
  {
    var ps := [[c] + w] + rest;
    var qs := [w] + rest;
    if |rest| > 0 {
      assert ps[1..] == rest && qs[1..] == rest;
    }
  }

  /** Joining the parts of a split gives back the original string. */
  lemma {:induction false} JoinSplit(s: string, sep: char)
    ensures Join(Split(s, sep), sep) == s
  {
    if |s| == 0 {
    } else if s[0] == sep {
      var rest := Split(s[1..], sep);
      JoinSplit(s[1..], sep);
      assert ([""] + rest)[1..] == rest;
      assert s == [s[0]] + s[1..];
    } else {
      var rest := Split(s[1..], sep);
      JoinSplit(s[1..], sep);
      JoinCons(s[0], rest[0], rest[1..], sep);
      assert [rest[0]] + rest[1..] == rest;
      assert s == [s[0]] + s[1..];
    }
  }

  /** No part of a split contains the separator. */
  lemma {:induction false} SplitPartsOmitSeparator(s: string, sep: char)
    ensures forall i :: 0 <= i < |Split(s, sep)| ==> sep !in Split(s, sep)[i]
  {
    if |s| > 0 {
      SplitPartsOmitSeparator(s[1..], sep);
      var rest := Split(s[1..], sep);
      if s[0] != sep {
        assert sep !in [s[0]] + rest[0];
      }
    }
  }

  /** A string without the separator splits into itself alone. */
  lemma {:induction false} SplitWithoutSeparator(p: string, sep: char)
    requires sep !in p
    ensures Split(p, sep) == [p]
  {
    if |p| > 0 {
      SplitWithoutSeparator(p[1..], sep);
      assert [p[0]] + p[1..] == p;
    }
  }

  /** Splitting at the first separator: the part before it comes first. */
  lemma {:induction false} SplitAtFirst(p: string, q: string, sep: char)
    requires sep !in p
    ensures Split(p + [sep] + q, sep) == [p] + Split(q, sep)
  {
    var s := p + [sep] + q;
    if |p| == 0 {
      assert s[0] == sep && s[1..] == q;
    } else {
      assert s[0] == p[0] && s[1..] == p[1..] + [sep] + q;
      SplitAtFirst(p[1..], q, sep);
      assert [p[0]] + p[1..] == p;
    }
  }

  // ---------------------------------------------------------------------
  // indexOf / replace

  predicate OccursAt(s: string, pat: string, p: int)
  {
    0 <= p && p + |pat| <= |s| && s[p..p + |pat|] == pat
  }

  /** `s.indexOf(pat, from)`, with `None` for -1. */
  function IndexOfFrom(s: string, pat: string, from: nat): (r: Option<nat>)
    ensures r.Some? ==> from <= r.value && OccursAt(s, pat, r.value)
    ensures r.Some? ==> forall q :: from <= q < r.value ==> !OccursAt(s, pat, q)
    ensures r.None? ==> forall q :: from <= q ==> !OccursAt(s, pat, q)
    decreases |s| - from
  {
    if from + |pat| > |s| then None
    else if s[from..from + |pat|] == pat then Some(from)
    else IndexOfFrom(s, pat, from + 1)
  }

  function IndexOf(s: string, pat: string): Option<nat>
  {
    IndexOfFrom(s, pat, 0)
  }

  /** `s.replace(pat, rep)` with a string pattern: only the first occurrence changes. */
  function ReplaceFirst(s: string, pat: string, rep: string): string
  {
    match IndexOf(s, pat)
    case None => s
    case Some(p) => s[..p] + rep + s[p + |pat|..]
  }

  /** When `pat` first occurs at `p`, exactly that occurrence is replaced. */
  lemma ReplaceFirstAt(s: string, pat: string, rep: string, p: nat)
    requires OccursAt(s, pat, p)
    requires forall q :: 0 <= q < p ==> !OccursAt(s, pat, q)
    ensures ReplaceFirst(s, pat, rep) == s[..p] + rep + s[p + |pat|..]
  {
    var r := IndexOf(s, pat);
    assert r.Some?;
    assert r.value == p by {
      assert !(r.value < p);
      assert OccursAt(s, pat, r.value) && r.value <= p;
    }
  }

  /** A string in which `pat` does not occur is left as it is. */
  lemma ReplaceFirstAbsent(s: string, pat: string, rep: string)
    requires forall q :: 0 <= q ==> !OccursAt(s, pat, q)
    ensures ReplaceFirst(s, pat, rep) == s
  {
    assert IndexOf(s, pat).None?;
  }

  // ---------------------------------------------------------------------
  // case-insensitive regex tests

  /** `s` begins with `pat`, ignoring ASCII case. */
  predicate PrefixCI(s: string, pat: string)
  {
    |pat| == 0 || (|s| > 0 && LowerAscii(s[0]) == LowerAscii(pat[0]) && PrefixCI(s[1..], pat[1..]))
  }

  predicate MatchesAtCI(s: string, pat: string, p: nat)
  {
    p + |pat| <= |s| && PrefixCI(s[p..], pat)
  }

  /** `/^pat/i.test(s)`. */
  predicate StartsWithCI(s: string, pat: string)
  {
    MatchesAtCI(s, pat, 0)
  }

  /** `/pat$/i.test(s)`. */
  predicate EndsWithCI(s: string, pat: string)
  {
    |pat| <= |s| && MatchesAtCI(s, pat, |s| - |pat|)
  }

  /**
   * `s.replace(/a|b/i, rep)` scanning from position `p`: the leftmost match
   * is replaced, and at one position the first alternative is tried first.
   */
  function ReplaceFirstEitherCIFrom(s: string, a: string, b: string, rep: string, p: nat): string
    requires p <= |s|
    decreases |s| - p
  {
    if MatchesAtCI(s, a, p) then s[..p] + rep + s[p + |a|..]
    else if MatchesAtCI(s, b, p) then s[..p] + rep + s[p + |b|..]
    else if p == |s| then s
    else ReplaceFirstEitherCIFrom(s, a, b, rep, p + 1)
  }

  function ReplaceFirstEitherCI(s: string, a: string, b: string, rep: string): string
  {
    ReplaceFirstEitherCIFrom(s, a, b, rep, 0)
  }

  /** A match at `q` pins the letter at offset `k` of the pattern. */
  lemma MatchedLetter(s: string, pat: string, q: nat, k: nat)
    requires MatchesAtCI(s, pat, q)
    requires k < |pat|
    ensures q + k < |s| && LowerAscii(s[q + k]) == LowerAscii(pat[k])
  {
    PrefixCIChars(s[q..], pat);
    assert s[q..][k] == s[q + k];
  }

  /** A pattern one of whose letters (folded) never occurs in `s` matches nowhere in `s`. */
  lemma NoMatchWithoutLetter(s: string, pat: string, k: nat)
    requires k < |pat|
    requires forall i :: 0 <= i < |s| ==> LowerAscii(s[i]) != LowerAscii(pat[k])
    ensures forall q: nat :: !MatchesAtCI(s, pat, q)
  {
    forall q: nat
      ensures !MatchesAtCI(s, pat, q)
    {
      if MatchesAtCI(s, pat, q) {
        MatchedLetter(s, pat, q, k);
      }
    }
  }

  /** With neither alternative occurring anywhere, nothing is replaced. */
  lemma {:induction false} ReplaceFirstEitherCIAbsent(s: string, a: string, b: string, rep: string, p: nat)
    requires p <= |s|
    requires forall q: nat :: !MatchesAtCI(s, a, q) && !MatchesAtCI(s, b, q)
    ensures ReplaceFirstEitherCIFrom(s, a, b, rep, p) == s
    decreases |s| - p
  {
    if p < |s| {
      ReplaceFirstEitherCIAbsent(s, a, b, rep, p + 1);
    }
  }

  lemma {:induction false} PrefixCIOfConcat(p: string, q: string)
    ensures PrefixCI(p + q, p)
  {
    if |p| > 0 {
      assert (p + q)[1..] == p[1..] + q;
      PrefixCIOfConcat(p[1..], q);
    }
  }

  /** The case-insensitive prefix test, character by character. */
  lemma {:induction false} PrefixCIChars(t: string, w: string)
    ensures PrefixCI(t, w) <==> |w| <= |t| && forall k :: 0 <= k < |w| ==> LowerAscii(t[k]) == LowerAscii(w[k])
  {
    if |w| > 0 && |t| > 0 {
      PrefixCIChars(t[1..], w[1..]);
      if LowerAscii(t[0]) == LowerAscii(w[0]) && PrefixCI(t[1..], w[1..]) {
        forall k | 0 <= k < |w|
          ensures LowerAscii(t[k]) == LowerAscii(w[k])
        {
          if k > 0 {
            assert t[1..][k - 1] == t[k] && w[1..][k - 1] == w[k];
          }
        }
      }
    }
  }

  /** `/pat$/i.test(s)` compares the last `|pat|` characters of `s` with `pat`. */
  lemma EndsWithCIChars(s: string, pat: string)
    ensures EndsWithCI(s, pat) <==>
      |pat| <= |s| && forall k :: 0 <= k < |pat| ==> LowerAscii(s[|s| - |pat| + k]) == LowerAscii(pat[k])
  {
    if |pat| <= |s| {
      PrefixCIChars(s[|s| - |pat|..], pat);
    }
  }

  /** Two patterns that differ `k` characters from their ends cannot both end `s`. */
  lemma EndingsDiffer(s: string, p: string, q: string, k: nat)
    requires EndsWithCI(s, p) && k < |p| && k < |q|
    requires LowerAscii(p[|p| - 1 - k]) != LowerAscii(q[|q| - 1 - k])
    ensures !EndsWithCI(s, q)
  {
    EndsWithCIChars(s, p);
    EndsWithCIChars(s, q);
  }

  /** A string starts with its own prefix and ends with its own suffix. */
  lemma AffixesOfConcat(p: string, q: string)
    ensures StartsWithCI(p + q, p)
    ensures EndsWithCI(p + q, q)
  {
    PrefixCIOfConcat(p, q);
    assert (p + q)[0..] == p + q;
    PrefixCIOfConcat(q, "");
    assert (p + q)[|p + q| - |q|..] == q + "";
  }

  // ---------------------------------------------------------------------
  // string order

  /**
   * `a < b` on JavaScript strings: lexicographic on characters, a proper
   * prefix first. Characters compare by code point, as JavaScript's UTF-16
   * code units do on the Basic Multilingual Plane.
   */
  predicate LexLess(a: string, b: string)
  {
    if |a| == 0 then |b| > 0
    else if |b| == 0 then false
    else if a[0] != b[0] then a[0] < b[0]
    else LexLess(a[1..], b[1..])
  }

  lemma {:induction false} LexLessIrreflexive(a: string)
    ensures !LexLess(a, a)
  {
    if |a| > 0 {
      LexLessIrreflexive(a[1..]);
    }
  }

  lemma {:induction false} LexLessAsymmetric(a: string, b: string)
    requires LexLess(a, b)
    ensures !LexLess(b, a)
  {
    if |a| > 0 && |b| > 0 && a[0] == b[0] {
      LexLessAsymmetric(a[1..], b[1..]);
    }
  }

  /** Two different strings are ordered one way or the other. */
  lemma {:induction false} LexLessTotal(a: string, b: string)
    requires a != b
    ensures LexLess(a, b) || LexLess(b, a)
  {
    if |a| > 0 && |b| > 0 && a[0] == b[0] {
      assert a == [a[0]] + a[1..] && b == [b[0]] + b[1..];
      LexLessTotal(a[1..], b[1..]);
    }
  }

  /** Of `a < b`, `b < a` and `a == b`, exactly one holds. */
  lemma LexLessTrichotomy(a: string, b: string)
    ensures a == b || LexLess(a, b) || LexLess(b, a)
    ensures !(LexLess(a, b) && LexLess(b, a))
    ensures !LexLess(a, a)
  {
    LexLessIrreflexive(a);
    if a != b {
      LexLessTotal(a, b);
    }
    if LexLess(a, b) {
      LexLessAsymmetric(a, b);
    }
  }

  lemma {:induction false} LexLessTransitive(a: string, b: string, c: string)
    requires LexLess(a, b) && LexLess(b, c)
    ensures LexLess(a, c)
  {
    if |a| > 0 && |b| > 0 && |c| > 0 && a[0] == b[0] && b[0] == c[0] {
      LexLessTransitive(a[1..], b[1..], c[1..]);
    }
  }
}

=== FILE: wrappers.dfy ===
/** Optional values and results that may carry an error message. */
module Wrappers {

  /** A value that may be absent: JavaScript's `undefined`/`null` become `None`. */
  datatype Option<T> = None | Some(value: T)
  {
    function GetOr(default: T): T
    {
      match this
      case None => default
      case Some(v) => v
    }
  }

  /** The outcome of an operation that may throw. */
  datatype Result<T> = Success(value: T) | Failure(error: string)
}
